=== FILE: README.md ===
# nhttp form binder, modelled in Dafny

This project models the form binder of the `nhttp` Go package (`mapper.go`).
A `Mapper` binds a multi-valued string form (`map[string][]string`, as in
`url.Values`) into a struct and encodes a struct back into such a form. Each
struct field is steered by a `form:"name,default=a;b,omitempty"` tag.

Go reflection is replaced by explicit data:

- a type datatype `Types.Ty`, with kinds for each integer width, floats,
  strings, bools, interfaces (by name and number of methods), slices,
  arrays, pointers, structs, and other named types;
- a field declaration `Types.FieldDecl`, as `reflect.StructField` gives it:
  Go name, type, tag, and whether it is exported and embedded;
- a value tree `Types.Value`.

Every part of the binder is a pure function over that data:

- **Tag parser** (`Tags`): `head`, the option loop, the `-` skip marker and
  the `default=` and `omitempty` options.
- **Schema builder** (`Schema`): the breadth-first walk of
  `parseStructDescriptor`.
  - An untagged struct or pointer field is flattened: its members are pulled
    up under a longer index path.
  - Every other field becomes a descriptor, and the first descriptor found
    for a name wins.
- **Descriptor cache** (`Cache`): a map carried through the calls, with
  `NewMapper`, `UseDecoder`, `getStructDescriptor`, `setStructDescriptor` and
  the double-checked `parseStructDescriptor`.
- **Field access** (`Access`): `fieldByIndex`, which allocates nil
  pointer-to-struct links on the way down, together with the store that
  follows it, and the read-only marks `reflect` puts on fields reached
  through unexported ones.
- **Coercion** (`Coerce`, `Strconv`): `mapValues`, `mapValue`, `mapInt`,
  `mapUint`, `mapFloat` and `mapBool`. The decimal parsers and formatters of
  Go's `strconv` that they call are specified in full, except the float ones.
- **Bind** (`Binder`) and **Encode** (`Encoder`), including `encodeValue`.

The package's own tests are restated as lemmas about the model (`Scenarios`):

- a flat struct with a defaulted `int` field;
- the same struct embedded in another struct;
- pointer fields bound through a registered decoder.

Four deliberate modelling choices:

- **Schema field order.** Go builds `structDescriptor.Fields` by ranging over
  a map, so the order is unspecified. The model keeps discovery (BFS) order.
  `Binder.BindOrderFree` proves that, with every descriptor holding a path of
  its own (as the model's immutable paths do), a successful bind gives the
  same result under any reordering. `Encoder.EncodeValues` shows the encoded form does not
  depend on the order.
- **Panics are preconditions.** These Go inputs panic, so the model excludes
  them with preconditions:
  - a field that is present in the form with an empty list (`values[0]`):
    `Binder.Fits`;
  - an untagged pointer to a non-struct, which reaches `NumField`:
    `Schema.Flattenable`;
  - a `Bind` or `Encode` target whose pointers end in a non-struct, such as
    `Bind(form, &n)` with an `int n`, where the walk's first `NumField`
    (mapper.go:242) panics: `Schema.Flattenable` requires the root to be a
    struct;
  - `Encode` of a non-pointer root that would need to allocate a nil link:
    `Encoder.Encodable`;
  - a write that `reflect` refuses because the field was reached through an
    unexported field. Go's walk describes unexported fields like any other
    (mapper.go:255-256), but `Set`, `SetString`, `SetInt` and the rest panic
    on them (mapper.go:330-432), and so does allocating a nil pointer reached
    that way (mapper.go:191). `Access.CanSet` and `Access.AllocatesSettable`
    follow `reflect`'s read-only marks: sticky below an unexported field that
    is not embedded, and on the field itself for an unexported embedded one.
    `Binder.Writable` (required by `Binder.Bind`) asks this of every
    descriptor the loop reaches with strings, and of its store when coercion
    succeeds. `Encoder.Encodable` asks it of every allocation `Encode` makes.
    `Scenarios.LoginAttemptsRefused` shows a form naming an unexported counter
    is excluded.
  - a string stored into an interface that has methods, such as
    `fmt.Stringer` or `error`. `mapValue`'s interface rule stores the string
    itself (mapper.go:338-339), and `reflect` refuses a `string` for an
    interface it does not implement. A slice of such interfaces meets this at
    its first element (mapper.go:321-331); an empty list makes no element and
    is fine. `Coerce.RefusesString` names the case, and `Binder.Writable`
    excludes it for every descriptor the loop reaches with strings.
    `Scenarios.NoteLabelRefused` shows a `fmt.Stringer` label being excluded.
    Only the empty interface `interface {}` holds a bound string.
- **Abstract parameters.** Float parsing and formatting (`ParseFloat`,
  `FormatFloat 'g'`) are a parameter `FloatCodec`. A custom decoder is a total
  function `string -> Result<Value, string>`.
- **Integer width.** Go's `int` and `uint` are taken to be 64 bits wide.

Three behaviours of `mapper.go` that are easy to get wrong:

- **`omitempty` on booleans.** `omitempty` drops empty strings and zero
  numbers, but `encodeValue` never drops a boolean (mapper.go:126-128), and
  neither does `Coerce.EncodeScalar`.
- **Decoder registry.** Decoders are registered per `Mapper`, not globally
  (mapper.go:56-61), and the model keeps them in `Mapper.decoders`.
- **Coercion errors.** A coercion error does not name the field: the
  `strconv` error is returned unchanged (mapper.go:389-392), and it holds the
  function, the input text and the cause. The model's `Num` error carries
  exactly these.

## Model

| member | source | states |
|---|---|---|
| Text.Index | mapper.go:314 | `strings.Index`: -1 exactly when the separator never occurs, otherwise the first position where it occurs |
| Text.Head | mapper.go:313-319 | `head` returns `(s, "")` when `sep` is absent; otherwise head + sep + tail rebuild `s` and no occurrence starts inside the head |
| Text.HeadIsFree | mapper.go:313-319 | the head never contains the separator |
| Text.HeadAtChar | mapper.go:313-319 | when the first `c` sits at position n, `head` splits there: the text before it, and the text after it |
| Text.Split | mapper.go:291 | `strings.Split` gives at least one piece, joining the pieces with the separator restores the input, and no piece contains the separator |
| Text.SplitJoin | mapper.go:291 | splitting a join of separator-free pieces gives the pieces back, so the default list is exactly the `;`-separated values |
| Tags.FoldOptions | mapper.go:284-295 | the omit-empty flag is set iff some option's key is `omitempty`; with no `default` option the default list is untouched |
| Tags.LastDefaultWins | mapper.go:289-291 | the default list is the last `default=` option's value split on `;`; earlier ones are overwritten |
| Tags.ParseOptionsIsFold | mapper.go:284-295 | the `head`-driven option loop equals a left fold of the per-option update over the comma-separated options |
| Tags.UnknownOptionIgnored | mapper.go:288-294 | an option whose key is neither `default` nor `omitempty` changes nothing |
| Tags.ParseTagMeaning | mapper.go:247-253 | only the exact tag `-` skips; the name holds no comma, is the whole tag when there is no comma, and otherwise is followed by `,` and the options |
| Tags.DashCommaIsAName | mapper.go:248-253 | the tag `-,` is not a skip: it names the field `-` |
| Tags.EmptyDefault | mapper.go:288-291 | `default=` yields the one-element list `[""]` |
| Tags.TwoDefaults | mapper.go:288-291 | `default=a;b` yields `["a", "b"]` |
| Tags.SingleDefault | mapper.go:284-295 | a single `default=v` option, `v` free of `;`, yields defaults `[v]` and no omit-empty flag |
| Tags.OmitemptyOption | mapper.go:292-293 | the option `omitempty` sets the flag and leaves the defaults empty |
| Tags.Classify | mapper.go:247-273 | only struct and pointer fields are flattened; a described field's name is comma-free or the Go field name |
| Tags.ClassifyCases | mapper.go:247-273 | skip iff tag is `-`; flatten iff the name is empty on a struct or pointer field; an empty name on any other field means the Go identifier, and otherwise the tag name is used |
| Schema.DescribedStep | mapper.go:244-297 | a described field enqueues nothing and contributes exactly its descriptor, in field order |
| Schema.FlattenStep | mapper.go:255-272 | a flattened field enqueues its (pointed-to) struct under path `prefix ++ [i]` and contributes no descriptor |
| Schema.ChildrenFromShape | mapper.go:255-272 | every enqueued item is a flattened member of the current struct, with its type and its path extended by its field index |
| Schema.ChildrenFromOrdered | mapper.go:244-272 | enqueued items appear in increasing field order |
| Schema.CandidatesFromShape | mapper.go:274-282 | every candidate descriptor comes from a described member: name, options, path `prefix ++ [i]`, decoder of the field's type |
| Schema.CandidatesFromOrdered | mapper.go:244-297 | candidates of one struct appear in increasing field order |
| Schema.ChildrenSmaller | mapper.go:255-272 | the items a struct enqueues are strictly smaller in total than it, so the walk terminates |
| Schema.Next | mapper.go:238-272 | one step of the queue loop strictly shrinks the queue measure |
| Schema.DedupAppend | mapper.go:275-277 | the first-wins filter over a concatenation is the filter over the second part after the first |
| Schema.VisitFields | mapper.go:244-298 | the inner loop appends exactly the flattened members to the queue and folds exactly the candidates into the first-wins filter |
| Schema.Drain | mapper.go:238-299 | the queue loop's result is the first-wins filter applied to the BFS stream of candidates |
| Schema.DedupPrefix | mapper.go:275-277 | the filter only appends: what was already found stays, in place |
| Schema.DedupDistinct | mapper.go:275-277 | the filter keeps names pairwise distinct |
| Schema.DedupCovers | mapper.go:275-277 | every candidate's name is present in the result |
| Schema.DedupFirst | mapper.go:275-277 | every newly kept descriptor is the first candidate with its name |
| Schema.FirstFoundWins | mapper.go:236-299 | schema names are pairwise distinct, each is held by the first candidate with that name in BFS order, and every candidate name appears |
| Schema.NextLayered | mapper.go:238-272 | the queue stays sorted by path depth and spans at most two adjacent depths |
| Schema.StreamLayered | mapper.go:238-272 | the candidate stream is ordered by path depth |
| Schema.ShallowestWins | mapper.go:238-277 | the descriptor kept for a name is at most as deep as every candidate with that name, so outer fields shadow embedded ones |
| Schema.DedupShallowest | mapper.go:275-277 | on a depth-ordered stream, each kept descriptor is no deeper than any same-named candidate |
| Schema.SiblingsDisjoint | mapper.go:261-280 | two children of one path with different last indices are non-prefix |
| Schema.NextDisjoint | mapper.go:238-272 | the queue's paths stay pairwise non-prefix |
| Schema.CandidatesOffQueue | mapper.go:238-282 | a descriptor found at the head item is non-prefix to every path still queued |
| Schema.CandidatesDisjoint | mapper.go:279-282 | descriptors of one struct have pairwise non-prefix paths |
| Schema.StreamOrigin | mapper.go:238-282 | every streamed descriptor's path extends some queued item's path |
| Schema.StreamDisjoint | mapper.go:238-299 | all streamed descriptors have pairwise non-prefix paths |
| Schema.StreamResolves | mapper.go:279-282 | every descriptor's path leads to a field, and its decoder is the one registered for that field's type |
| Schema.WalkDisjoint | mapper.go:221-305 | the schema's (immutable) paths are pairwise non-prefix, so in the model bind writes disjoint locations |
| Schema.WalkResolves | mapper.go:279-282 | each schema path resolves to a field whose type selected the captured decoder |
| Schema.DrainOk | mapper.go:221-305 | the walk's schema has distinct names, non-prefix resolving paths and captured decoders |
| Schema.BuildFieldsOk | mapper.go:221-305 | the same for the schema built under a tag key |
| Access.Update | mapper.go:183-199 | storing through a path keeps the struct's arity and every other top-level field; a path that leads nowhere changes nothing |
| Access.ReachUpdate | mapper.go:183-199 | after storing `f` at a path, reading that path gives `f` of the old contents |
| Access.ReachFrame | mapper.go:183-199 | storing at a path leaves every non-prefix path's contents unchanged, even though nil links on the way are allocated |
| Access.UpdateCommute | mapper.go:183-199 | stores at non-prefix paths commute |
| Access.ReachTyped | mapper.go:183-199 | reading a resolving path of a well-typed value gives a value of that field's type |
| Access.UpdateTyped | mapper.go:183-199 | storing a value of the field's type keeps the whole value well typed |
| Access.ExportedSettable | mapper.go:183-199 | a walk through exported fields only may allocate every nil pointer it meets and may set the field it reaches |
| Access.StickyBlocks | mapper.go:183-199 | once a walk has passed an unexported field that is not embedded, no field it reaches can be set |
| Cache.NewMapper | mapper.go:48-54 | a fresh mapper has the tag, an empty cache and no decoders |
| Cache.UseDecoder | mapper.go:56-61 | a nil type or function changes nothing; otherwise exactly that type's decoder is set, and the cache is untouched |
| Cache.GetStructDescriptor | mapper.go:201-204 | found iff the type is cached, and then it is the cached schema |
| Cache.SetStructDescriptor | mapper.go:206-214 | the new cache is the old one plus exactly one new or overwritten key; nothing else changes |
| Cache.ParseStructDescriptor | mapper.go:221-311 | a cached type is returned untouched without rebuilding; otherwise the valid schema is built, named after the type, and stored as the one new key |
| Cache.DescriptorIsParse | mapper.go:161-164 | the fast-path lookup followed by `parseStructDescriptor` is the same as `parseStructDescriptor` alone |
| Cache.ParseIdempotent | mapper.go:224-228 | a second `parseStructDescriptor` of the same type returns the cached schema and leaves the mapper unchanged |
| Cache.NewMapperValid | mapper.go:48-54 | the empty cache is valid |
| Cache.UseDecoderValid | mapper.go:56-61 | registering a decoder keeps the cache valid |
| Cache.ParseValid | mapper.go:221-311 | parsing keeps the cache valid and returns a valid schema |
| Strconv.ParseUint | mapper.go:402 | `ParseUint(s, 10, bits)` succeeds iff `s` is non-empty decimal digits whose value fits the width (`bits` 0 means 64), returning that value; an error otherwise |
| Strconv.ParseInt | mapper.go:389 | `ParseInt(s, 10, bits)` succeeds iff `s` is an optionally signed decimal whose value lies in the signed range of the width, returning it |
| Strconv.ParseBool | mapper.go:428 | true for `1 t T TRUE true True`, false for `0 f F FALSE false False`, a syntax error for anything else |
| Strconv.FormatUint | mapper.go:117 | base-10 rendering: non-empty digits with no leading zero whose value is the number |
| Strconv.FormatInt | mapper.go:110 | base-10 rendering: a signed decimal whose value is the number |
| Strconv.ParseFormatUint | mapper.go:117 | parsing the rendering of an in-range unsigned gives it back |
| Strconv.ParseFormatInt | mapper.go:110 | parsing the rendering of an in-range signed gives it back |
| Strconv.ParseFormatBool | mapper.go:127 | parsing the rendering of a bool gives it back |
| Coerce.MapInt | mapper.go:384-395 | `""` gives 0; otherwise success iff the text is a signed decimal within the kind's width, storing its value; errors are `ParseInt` errors |
| Coerce.MapUint | mapper.go:397-408 | `""` gives 0; otherwise success iff the text is digits whose value fits the kind's width; errors are `ParseUint` errors |
| Coerce.MapFloat | mapper.go:410-421 | `""` gives 0.0; otherwise the float parser's result at the kind's width, or its error |
| Coerce.MapBool | mapper.go:423-434 | `""` and the false spellings give false, the true spellings give true, anything else is a `ParseBool` syntax error |
| Coerce.MapValue | mapper.go:336-382 | strings are stored as is and interfaces hold the string (an interface with methods panics instead, which `Binder.Writable` excludes); numbers and bools map `""` to their zero; built-in kinds yield a value of the field's type or a parse error; other kinds use the captured decoder, else fail with `cannot unmarshal into` plus the type |
| Coerce.FirstFailure | mapper.go:325-329 | the index of the first element whose coercion fails, every earlier one succeeding |
| Coerce.MapEach | mapper.go:324-331 | succeeds iff no element fails, with one value per input string in order; otherwise the first failure's error |
| Coerce.MapValues | mapper.go:321-334 | a slice field becomes exactly `len(values)` elements coerced in order, or the first element error; any other field uses `values[0]` alone |
| Coerce.MapValueTyped | mapper.go:336-382 | with a decoder that returns the field's type, a successful coercion is a value of the field's type |
| Coerce.MapValuesTyped | mapper.go:321-334 | the same for whole value lists, slices included |
| Coerce.EncodeScalar | mapper.go:97-128 | a scalar renders at most one string, none exactly when omit-empty is set and the value is empty; a bool always renders |
| Coerce.EncodeEachScalars | mapper.go:129-132 | a slice of scalars renders one string per element, in order |
| Coerce.MapValueEncoded | mapper.go:97-128 | coercing a scalar's rendering gives the scalar back: ints and uints through base-10, and a float whenever the codec reads its own rendering of that value back |
| Coerce.MapValuesEncoded | mapper.go:97-132 | coercing a field's rendered list gives the field back, slices included, under the same condition on the floats it holds |
| Binder.AbsentKeyKeepsField | mapper.go:167-171 | an absent key with no default leaves the value and reports nothing |
| Binder.AbsentKeyUsesDefault | mapper.go:167-173 | an absent key with a default binds exactly as if the form held the default list |
| Binder.PresentKeyOverridesDefault | mapper.go:167-173 | a present key, even `"0"` or `""`, binds as if there were no default |
| Binder.FirstError | mapper.go:166-179 | the index of the first descriptor whose coercion fails, all earlier ones succeeding |
| Binder.ApplyFieldFacts | mapper.go:166-179 | one loop turn stores the coerced value (or leaves it on error or absence) at the descriptor's path, keeps the value well typed, touches no non-prefix path and reports exactly the coercion error |
| Binder.BindFieldsFrame | mapper.go:166-179 | the field loop leaves every path that is non-prefix to all descriptors unchanged |
| Binder.BindFieldsError | mapper.go:176-178 | the loop reports no error iff no descriptor fails, and otherwise reports the first failing descriptor's coercion error |
| Binder.FailedTurnReads | mapper.go:176-178 | when the first turn fails, the loop returns at once with every descriptor's field as before |
| Binder.BindFieldsReads | mapper.go:166-180 | each field before the first failure reads as its coerced value (or as before when it had no strings); the failing field and all later ones read as before |
| Binder.BindFieldsStep | mapper.go:166-180 | the same, for a loop whose first turn succeeds |
| Binder.BindFieldsIsApplyAll | mapper.go:166-180 | without failures the loop is the composition of the per-field stores |
| Binder.EffectCommute | mapper.go:175-176 | the stores of two descriptors with non-prefix paths commute |
| Binder.MoveToFront | mapper.go:303-304 | any descriptor may be applied first when it is non-prefix to those before it |
| Binder.ApplyAllReordered | mapper.go:303-304 | composing the stores in any permutation of a non-prefix schema gives the same value |
| Binder.BindOrderFree | mapper.go:301-305 | a successful bind does not depend on the order of the schema's fields |
| Binder.BindFieldsAnyOrder | mapper.go:166-180 | in whatever order the fields come, the loop errs iff some descriptor's coercion fails, the error is a failing descriptor's own, and every field holds its coerced value or its old one |
| Binder.ExportedWritable | mapper.go:166-180 | a schema whose paths pass exported fields only, onto fields that are no interface with methods, never makes a write `reflect` refuses |
| Binder.RefusedInterface | mapper.go:338-339 | one reached descriptor handing strings to an interface with methods (or to a slice of them) is enough for the bind to panic |
| Binder.RefusedStore | mapper.go:166-180 | one reached descriptor whose coercion succeeds into a field that cannot be set is enough for the bind to panic |
| Binder.Through | mapper.go:148-159 | following the pointer chain after allocating it reaches exactly the value put at the bottom, and the chain's top is non-nil |
| Binder.ThroughTyped | mapper.go:148-159 | following the pointers and putting a well-typed struct back keep the value well typed |
| Binder.Bind | mapper.go:136-181 | a non-pointer and a nil pointer are rejected with their own errors and left untouched; otherwise, for writes `reflect` allows, the schema is cached, no error iff no field fails, and the pointer is non-nil |
| Binder.BindReads | mapper.go:136-181 | `Bind` on a non-nil pointer, with writes `reflect` allows: the result stays well typed, fields before the first failing one hold their coerced values and the rest are as before |
| Encoder.AddAll | mapper.go:104 | `url.Values.Add` of a list appends it under the key and changes no other key |
| Encoder.EncodeFieldsValues | mapper.go:89-94 | the loop puts exactly each descriptor's rendered strings under its name, and keys of no descriptor keep their old contents |
| Encoder.EncodeFieldsOthers | mapper.go:89-94 | keys that name no descriptor are untouched by the loop |
| Encoder.EncodeFieldsKeeps | mapper.go:89-94 | encoding leaves every field's contents unchanged |
| Encoder.EncodeFrame | mapper.go:89-94 | encoding leaves every path non-prefix to the descriptors unchanged |
| Encoder.Encode | mapper.go:63-95 | a nil pointer is an error with an empty form; otherwise, when no allocation needs a read-only pointer, no error and the schema is cached |
| Encoder.EncodeValues | mapper.go:63-95 | every descriptor that renders something has exactly its rendered strings under its name in the form |
| Encoder.EncodeForm | mapper.go:63-95 | the form is the field loop's form over the value the pointers reach |
| Encoder.EncodeValuesOnly | mapper.go:63-95 | every key of the form names a descriptor that rendered something |
| Encoder.EncodeFieldsOnly | mapper.go:89-94 | the loop adds no key other than those of rendering descriptors |
| Encoder.EncodeKeepsFields | mapper.go:71-94 | the returned value is well typed and every field reads as in the input |
| Encoder.EncodedFormFits | mapper.go:89-94 | an encoded form hands each descriptor either no list or a non-empty one, so `Bind` accepts it |
| Encoder.PlainScalarRecovers | mapper.go:97-128 | a non-float scalar field without `omitempty` always renders something that reads back (`Recovers`) |
| Encoder.RoundTripOutcome | mapper.go:97-132 | a recovering field (round-tripping type, floats that read back, something rendered) coerces back to its own value |
| Encoder.EncodedFieldsBind | mapper.go:89-94 | on an encoded form, no recovering field fails to coerce |
| Encoder.EncodeBindRoundTrip | mapper.go:166-180 | binding an encoded form into any value restores every recovering field before the first failure |
| Encoder.EncodeBindInverse | mapper.go:63-180 | when every field recovers, binding the encoded form into any value of the type succeeds, stays well typed and restores every field |
| Scenarios.AgeTag | mapper_test.go:13 | `age,default=20` names the field `age` with default list `["20"]` |
| Scenarios.HumanTags | mapper_test.go:11-15 | the three `Human` fields are described as `name`, `age` (default 20) and `birthday` |
| Scenarios.HumanSchema | mapper_test.go:11-15 | `Human`'s schema is its three descriptors, at paths 0, 1 and 2 |
| Scenarios.HumanParsed | mapper_test.go:49-51 | the first bind on a fresh `form` mapper builds and caches `Human`'s schema |
| Scenarios.DefaultAge | mapper_test.go:42-45 | the default `20` coerces to the int 20 |
| Scenarios.TestAges | mapper_test.go:22-41 | `10`, `11`, `0`, `""` and `-1` coerce to 10, 11, 0, 0 and -1 |
| Scenarios.HumanAgeOutcome | mapper_test.go:22-45 | the age descriptor stores the sent age coerced, or 20 when none is sent |
| Scenarios.HumanBinding | mapper_test.go:22-45 | the loop over a zero `Human` stores name, age (or 20) and birthday, with no error |
| Scenarios.HumanBind | mapper_test.go:17-67 | `Bind` of each test form into `&dst` succeeds, caches the schema and fills `dst` as expected |
| Scenarios.HumanWritable | mapper_test.go:11-15 | every `Human` field is exported, so no bind into a `Human` panics in `Set` |
| Scenarios.HumanBindable | mapper_test.go:17-67 | the test's `Bind` calls meet `Bind`'s precondition, writes included |
| Scenarios.HumanRecovers | mapper_test.go:11-15 | all three `Human` fields recover from their encoding, for every `Human` value |
| Scenarios.HumanRoundTrip | mapper.go:63-180 | encoding any `Human` and binding the form into any other `Human` succeeds and gives the first one back |
| Scenarios.StudentTags | mapper_test.go:69-73 | the embedded `Human` is flattened, and `number` and `class` are described |
| Scenarios.StudentSchema | mapper_test.go:69-73 | `Student`'s schema is `number`, `class`, then the promoted `name`, `age`, `birthday` at paths `[0, i]` |
| Scenarios.StudentPaths | mapper_test.go:69-73 | those paths resolve to the right field types and are pairwise non-prefix |
| Scenarios.StudentNoFailure | mapper_test.go:90-95 | with coercible numbers no `Student` descriptor fails |
| Scenarios.StudentBinding | mapper_test.go:75-117 | binding a `Student` form fills the embedded `Human` through promoted names, and the student's own fields |
| Scenarios.DateTimeTags | mapper_test.go:186-189 | `begin_time` has default `2022-01-02`, and `end_time` has none |
| Scenarios.DateTimeSchema | mapper_test.go:186-193 | the `DateTime` schema's two descriptors capture the decoder registered for `*time.Time` |
| Scenarios.DateTimeParsed | mapper_test.go:192-202 | the first bind on that mapper caches the `DateTime` schema |
| Scenarios.DateTimeBinding | mapper_test.go:184-217 | the loop stores the decoder's result for the default begin time and the sent end time |
| Scenarios.DateTimeWritable | mapper_test.go:186-189 | both `DateTime` fields are exported, so no bind into a `DateTime` panics in `Set` |
| Scenarios.LoginAttemptsRefused | mapper.go:255-256 | a form sending an unexported `attempts` counter makes `SetInt` panic, so the bind is outside `Writable` |
| Scenarios.LoginUserWritable | mapper.go:166-171 | a form that does not send `attempts` never reaches the counter and is inside `Writable` |
| Scenarios.NoteLabelRefused | mapper.go:338-339 | a form sending a `fmt.Stringer` label makes `Set` panic, so the bind is outside `Writable` |
| Scenarios.NoteTextWritable | mapper.go:321-339 | an `interface {}` field holds the sent string itself, and an empty list for a `[]fmt.Stringer` field stores nothing refused, so that form is inside `Writable` |
| Scenarios.DateTimeBind | mapper_test.go:191-217 | `m.Bind(form, &dst)` succeeds and `dst` holds both decoded times |

## Left out

- Concurrency: the cache's `atomic.Value` and `sync.Mutex` (mapper.go:37-38, 222, 308). The cache is a map passed from call to call, so only the map semantics are modelled.
- Reflection: replaced by the `Ty`/`Value` datatypes. Go types are compared by structure, not by identity.
- Slice aliasing: Go may share the backing array of `append(current.Index, i)` between sibling paths (mapper.go:261, 269, 280). Here each path is an immutable sequence of its own. The difference is visible: a queued struct three levels down has an `Index` of length 3 and capacity 4, so every path appended while it is visited writes the same slot. With `A{B}`, `B{C}`, `C{D}` all embedded without a tag and ``D{X int `form:"x"`; Y int `form:"y"`}``, both descriptors end up at `[0,0,0,1]`, and Go's `Bind` stores `"x"` into `Y`. `Schema.WalkDisjoint`, `Binder.BindOrderFree` and every other statement about distinct paths hold for the model's paths only, not for Go's at that depth.
- Floating point: `strconv.ParseFloat` and `FormatFloat(…, 'g', -1, bits)` (mapper.go:124, 415) are the `FloatCodec` parameter. A float field round-trips only when the codec reads back its own rendering of the value the field holds (`FloatReads`, `FloatsReadBack`), stated per value and only for the float fields involved. Go's shortest `'g'` rendering does this for every value the width holds, but the model does not prove it.
- Error values are datatype constructors; the text of Go's error messages is not modelled.
- A custom decoder whose result has a different type from the field makes `reflect.Set` panic. Lemmas about the bound value's type assume decoders return their field's type (`DecodersTyped`).
- Panicking inputs are excluded by preconditions, as described above (`Fits`/`AllFit`, `Flattenable`, `Encodable`, `Writable`, which includes `RefusesString`). The model does not say what Go does in those cases; it only keeps them out of `Bind` and `Encode`.
- A nil interface passed to `Encode` or `Bind` (where `reflect.ValueOf(nil).Type()` panics) is not represented.
- The package-level `mapper` and `Bind` (mapper.go:42-46) are `NewMapper("form")` followed by `Mapper.Bind`. `Scenarios.HumanBind` states them for a fresh mapper. Later calls find the schema cached, and `Cache.ParseIdempotent` shows this changes nothing.
- `time.Time` is reduced to two counters, and `time.Parse` is the decoder parameter of the decoder scenarios.
- url.go, dump.go, bufferpool.go, logger.go and the sample, example and command programs are not part of this model.
- Encoder.EncodeBindRoundTrip: holds only for fields that recover (`Recovers`), and only up to the first failing descriptor. A recovering field is a scalar, or a slice of scalars without `omitempty`, that rendered something and whose floats the codec reads back.
  - A field rendered empty under `omitempty` is absent from the form, so binding leaves the target's field as it was.
  - Custom-decoded kinds render nothing.
- Coerce.MapValuesEncoded: excludes slices under `omitempty`, since their empty elements are dropped and the list is shorter. It also excludes arrays: `mapValue` sends an array to the decoder, not to the element rule.
- Binder.BindReads: for a failing bind, which error is returned and which fields were already assigned depend on Go's map order over the schema (mapper.go:303-304). The model fixes discovery order. `Binder.BindFieldsAnyOrder` states what holds in every order: an error iff some field fails, the error is a failing field's own, and every field holds its coerced value or its old one.
- Binder.Bind: the same map-order dependence of the error it returns, for a failing bind.
- Self-referential structs: `Ty` is an inductive datatype, so a type such as ``type Node struct { Name string `form:"name"`; Next *Node }`` cannot be written. On such a type Go's walk flattens `Next` forever (mapper.go:238-263) while holding `mapper.mu` (mapper.go:222). `Schema.ChildrenSmaller` and `Schema.Next` prove termination only because every `Ty` is finite.
- Coerce.MapFloat: states the result only in terms of the float parser parameter.

=== FILE: access.dfy ===
/**
  `fieldByIndex`: reaching a (possibly nested) field of a struct value by an
  index path. Between steps a pointer to a struct is followed, and a nil one
  is first replaced by a freshly allocated zero struct. Reading (`Reach`) and
  writing (`Update`) share that navigation; `Update` returns the whole value
  with the allocations made and the reached field transformed.
 */
module Access {
  import opened Results
  import opened Types

  /** `a` is an initial segment of `b` (equal paths included). */
  predicate Prefix(a: seq<nat>, b: seq<nat>) {
    |a| <= |b| && b[..|a|] == a
  }

  /** Neither path leads through, or to, the other's field. */
  predicate Disjoint(a: seq<nat>, b: seq<nat>) {
    !Prefix(a, b) && !Prefix(b, a)
  }

  /** A pointer-to-struct field is stepped through; every other field is stepped into as it is. */
  predicate Followed(ft: Ty) {
    ft.TPtr? && ft.elem.TStruct?
  }

  /** The struct the walk continues in after field type `ft`. */
  function Inner(ft: Ty): Ty {
    if Followed(ft) then ft.elem else ft
  }

  /** The target of a followed pointer, or a fresh zero struct when it is nil. */
  function Deref(elem: Ty, fv: Value): Value {
    if fv.VPtr? && fv.target.Some? then fv.target.value else Zero(elem)
  }

  /** `path` names a field of `t`; the type of that field, not followed further. */
  function FieldTypeAt(t: Ty, path: seq<nat>): Option<Ty>
    decreases |path|
  {
    if path == [] || !t.TStruct? || path[0] >= |t.fields| then None
    else
      var ft := t.fields[path[0]].ty;
      if |path| == 1 then Some(ft) else FieldTypeAt(Inner(ft), path[1..])
  }

  /** `path` can be walked in the value `v` of type `t` (the shape matches at every step). */
  predicate Walkable(t: Ty, v: Value, path: seq<nat>)
    decreases |path|
  {
    && path != []
    && t.TStruct? && v.VStruct?
    && path[0] < |t.fields| && path[0] < |v.fields|
  }

  /** Read the field at `path`, seeing a nil followed pointer as a zero struct. */
  function Reach(t: Ty, v: Value, path: seq<nat>): Value
    decreases |path|
  {
    if !Walkable(t, v, path) then v
    else
      var k := path[0];
      var ft := t.fields[k].ty;
      var fv := v.fields[k];
      if |path| == 1 then fv
      else if Followed(ft) then Reach(ft.elem, Deref(ft.elem, fv), path[1..])
      else Reach(ft, fv, path[1..])
  }

  /**
    Walk to the field at `path`, allocating every nil followed pointer on the
    way, and replace the field by `f` of its current value. A struct value
    keeps its shape, and a path that cannot be walked changes nothing.
   */
  function Update(t: Ty, v: Value, path: seq<nat>, f: Value -> Value): (r: Value)
    ensures v.VStruct? ==> r.VStruct? && |r.fields| == |v.fields|
    ensures !Walkable(t, v, path) ==> r == v
    ensures Walkable(t, v, path) ==> forall j :: 0 <= j < |v.fields| && j != path[0] ==> r.fields[j] == v.fields[j]
    decreases |path|
  {
    if !Walkable(t, v, path) then v
    else
      var k := path[0];
      var ft := t.fields[k].ty;
      var fv := v.fields[k];
      if |path| == 1 then VStruct(v.fields[k := f(fv)])
      else if Followed(ft) then VStruct(v.fields[k := VPtr(Some(Update(ft.elem, Deref(ft.elem, fv), path[1..], f)))])
      else VStruct(v.fields[k := Update(ft, fv, path[1..], f)])
  }

  /** The identity update: only the allocations of the walk happen. */
  function Id(x: Value): Value {
    x
  }

  /** The update that stores `x`. */
  function Put(x: Value): Value -> Value {
    _ => x
  }

  lemma PrefixTail(a: seq<nat>, b: seq<nat>)
    requires a != [] && b != [] && a[0] == b[0]
    ensures Prefix(a, b) <==> Prefix(a[1..], b[1..])
  {
    if Prefix(a[1..], b[1..]) {
      assert b[..|a|] == [b[0]] + b[1..][..|a| - 1];
      assert a == [a[0]] + a[1..];
    }
    if Prefix(a, b) {
      assert b[1..][..|a| - 1] == b[..|a|][1..];
    }
  }

  /** Two disjoint paths either part at their first step or share it and stay disjoint. */
  lemma DisjointStep(a: seq<nat>, b: seq<nat>)
    requires Disjoint(a, b)
    ensures a != [] && b != []
    ensures a[0] == b[0] ==> |a| >= 2 && |b| >= 2 && Disjoint(a[1..], b[1..])
  {
    assert a != [] by { assert Prefix([], b); }
    assert b != [] by { assert Prefix([], a); }
    if a[0] == b[0] {
      PrefixTail(a, b);
      PrefixTail(b, a);
    }
  }

  /** Reading right after a write at the same path sees the written value. */
  lemma {:induction false} ReachUpdate(t: Ty, v: Value, path: seq<nat>, f: Value -> Value)
    requires HasType(v, t) && FieldTypeAt(t, path).Some?
    ensures Reach(t, Update(t, v, path, f), path) == f(Reach(t, v, path))
    decreases |path|
  {
    var k := path[0];
    var ft := t.fields[k].ty;
    var fv := v.fields[k];
    if |path| > 1 {
      if Followed(ft) {
        ReachUpdate(ft.elem, Deref(ft.elem, fv), path[1..], f);
      } else {
        ReachUpdate(ft, fv, path[1..], f);
      }
    }
  }

  /** A write leaves every field on a disjoint path as it reads, even where the write allocated. */
  lemma {:induction false} ReachFrame(t: Ty, v: Value, p: seq<nat>, f: Value -> Value, q: seq<nat>)
    requires HasType(v, t) && FieldTypeAt(t, q).Some?
    requires Disjoint(p, q)
    ensures Reach(t, Update(t, v, p, f), q) == Reach(t, v, q)
    decreases |p|
  {
    DisjointStep(p, q);
    var u := Update(t, v, p, f);
    if Walkable(t, v, p) && Walkable(t, v, q) {
      assert Walkable(t, u, q);
      var k := p[0];
      var ft := t.fields[k].ty;
      var fv := v.fields[k];
      if k == q[0] {
        if Followed(ft) {
          ReachFrame(ft.elem, Deref(ft.elem, fv), p[1..], f, q[1..]);
        } else {
          ReachFrame(ft, fv, p[1..], f, q[1..]);
        }
      } else {
        assert u.fields[q[0]] == v.fields[q[0]];
      }
    }
  }

  /** Writes on disjoint paths commute, allocations included. */
  lemma {:induction false} UpdateCommute(t: Ty, v: Value, p: seq<nat>, f: Value -> Value, q: seq<nat>, g: Value -> Value)
    requires Disjoint(p, q)
    ensures Update(t, Update(t, v, p, f), q, g) == Update(t, Update(t, v, q, g), p, f)
    decreases |p|
  {
    DisjointStep(p, q);
    if Walkable(t, v, p) && Walkable(t, v, q) {
      var k := p[0];
      var ft := t.fields[k].ty;
      var fv := v.fields[k];
      if k == q[0] {
        if Followed(ft) {
          UpdateCommute(ft.elem, Deref(ft.elem, fv), p[1..], f, q[1..], g);
        } else {
          UpdateCommute(ft, fv, p[1..], f, q[1..], g);
        }
      }
    }
  }

  /** The field a valid path reaches in a well-typed value has the path's field type. */
  lemma {:induction false} ReachTyped(t: Ty, v: Value, path: seq<nat>)
    requires HasType(v, t) && FieldTypeAt(t, path).Some?
    ensures HasType(Reach(t, v, path), FieldTypeAt(t, path).value)
    decreases |path|
  {
    var k := path[0];
    var ft := t.fields[k].ty;
    var fv := v.fields[k];
    if |path| > 1 {
      if Followed(ft) {
        ReachTyped(ft.elem, Deref(ft.elem, fv), path[1..]);
      } else {
        ReachTyped(ft, fv, path[1..]);
      }
    }
  }

  /** Storing a value of the field's type keeps the whole value well typed. */
  lemma {:induction false} UpdateTyped(t: Ty, v: Value, path: seq<nat>, f: Value -> Value)
    requires HasType(v, t) && FieldTypeAt(t, path).Some?
    requires HasType(f(Reach(t, v, path)), FieldTypeAt(t, path).value)
    ensures HasType(Update(t, v, path, f), t)
    decreases |path|
  {
    var k := path[0];
    var ft := t.fields[k].ty;
    var fv := v.fields[k];
    var r := Update(t, v, path, f);
    if |path| > 1 {
      if Followed(ft) {
        UpdateTyped(ft.elem, Deref(ft.elem, fv), path[1..], f);
      } else {
        UpdateTyped(ft, fv, path[1..], f);
      }
    }
    assert forall j :: 0 <= j < |t.fields| ==> HasType(r.fields[j], t.fields[j].ty);
  }

  // ---------------------------------------------------------------- read-only fields

  /**
    `reflect` marks a value reached through an unexported field read-only, and
    `Set` on a read-only value panics. The mark of an unexported embedded field
    covers that field alone; the mark of any other unexported field is sticky
    and covers everything reached through it. `sticky` says the walk so far has
    met a sticky mark.
   */
  function StickyAfter(fd: FieldDecl, sticky: bool): bool {
    sticky || (!fd.exported && !fd.embedded)
  }

  /** `reflect.Value.CanSet` of the field at `path`: no sticky mark on the way and an exported field itself. */
  predicate CanSet(t: Ty, path: seq<nat>, sticky: bool)
    decreases |path|
  {
    if path == [] || !t.TStruct? || path[0] >= |t.fields| then true
    else
      var fd := t.fields[path[0]];
      if |path| == 1 then !sticky && fd.exported
      else CanSet(Inner(fd.ty), path[1..], StickyAfter(fd, sticky))
  }

  /**
    The walk to `path` in `v` allocates only pointers it may set: every nil
    followed pointer on the way is a field without a read-only mark.
   */
  predicate AllocatesSettable(t: Ty, v: Value, path: seq<nat>, sticky: bool)
    decreases |path|
  {
    if !Walkable(t, v, path) || |path| == 1 then true
    else
      var fd := t.fields[path[0]];
      var fv := v.fields[path[0]];
      if Followed(fd.ty) then
        && (!(fv.VPtr? && fv.target.Some?) ==> !sticky && fd.exported)
        && AllocatesSettable(fd.ty.elem, Deref(fd.ty.elem, fv), path[1..], StickyAfter(fd, sticky))
      else AllocatesSettable(fd.ty, fv, path[1..], StickyAfter(fd, sticky))
  }

  /** Every field the walk to `path` passes, the last one included, is exported. */
  predicate ExportedAlong(t: Ty, path: seq<nat>)
    decreases |path|
  {
    || path == [] || !t.TStruct? || path[0] >= |t.fields|
    || (t.fields[path[0]].exported && ExportedAlong(Inner(t.fields[path[0]].ty), path[1..]))
  }

  /** Through exported fields only, the walk may allocate every pointer it meets and may set the field. */
  lemma {:induction false} ExportedSettable(t: Ty, v: Value, path: seq<nat>)
    requires ExportedAlong(t, path)
    ensures CanSet(t, path, false) && AllocatesSettable(t, v, path, false)
    decreases |path|
  {
    if Walkable(t, v, path) && |path| > 1 {
      var fd := t.fields[path[0]];
      var fv := v.fields[path[0]];
      if Followed(fd.ty) {
        ExportedSettable(fd.ty.elem, Deref(fd.ty.elem, fv), path[1..]);
      } else {
        ExportedSettable(fd.ty, fv, path[1..]);
      }
    } else if path != [] && t.TStruct? && path[0] < |t.fields| && |path| > 1 {
      ExportedSettable(Inner(t.fields[path[0]].ty), Zero(Inner(t.fields[path[0]].ty)), path[1..]);
    }
  }

  /** Once the walk has passed an unexported, non-embedded field, no field it reaches can be set. */
  lemma {:induction false} StickyBlocks(t: Ty, path: seq<nat>)
    requires FieldTypeAt(t, path).Some?
    ensures !CanSet(t, path, true)
    decreases |path|
  {
    if |path| > 1 {
      StickyBlocks(Inner(t.fields[path[0]].ty), path[1..]);
    }
  }
}

=== FILE: binder.dfy ===
/**
  `Bind`: fill a struct, reached through a pointer, from a multi-valued form.
  Each descriptor's name is looked up in the form (falling back to its
  defaults), the field is reached with `fieldByIndex`, and the strings are
  coerced into it; the first coercion error stops the loop.
 */
module Binder {
  import opened Results
  import opened Types
  import opened Access
  import opened Schema
  import opened Cache
  import opened Coerce

  /** `map[string][]string`, as `url.Values` is. */
  type Form = map<string, seq<string>>

  /** The strings a descriptor binds: the form's list under its name, else its defaults, else none. */
  function Values(src: Form, d: FieldDescriptor): Option<seq<string>> {
    if d.tag in src then Some(src[d.tag])
    else if d.default == [] then None
    else Some(d.default)
  }

  /**
    `d` names a field of `root`, and a non-slice field is not handed an empty
    list (the source reads its first string unguarded).
   */
  predicate Fits(root: Ty, d: FieldDescriptor, src: Form) {
    && FieldTypeAt(root, d.index).Some?
    && (Values(src, d).Some? && !FieldTypeAt(root, d.index).value.TSlice? ==> Values(src, d).value != [])
  }

  predicate AllFit(root: Ty, fs: seq<FieldDescriptor>, src: Form) {
    forall k :: 0 <= k < |fs| ==> Fits(root, fs[k], src)
  }

  /** What coercion makes of a descriptor's strings; `None` when it has none and is skipped. */
  function Outcome(root: Ty, d: FieldDescriptor, src: Form, codec: FloatCodec): Option<Result<Value, BindError>>
    requires Fits(root, d, src)
  {
    match Values(src, d)
    case None => None
    case Some(vals) => Some(MapValues(FieldTypeAt(root, d.index).value, d.decoder, codec, vals))
  }

  predicate Fails(root: Ty, d: FieldDescriptor, src: Form, codec: FloatCodec)
    requires Fits(root, d, src)
  {
    Outcome(root, d, src, codec).Some? && Outcome(root, d, src, codec).value.Err?
  }

  /**
    What one turn of the loop does to the struct value: nothing for a skipped
    descriptor; otherwise the walk to the field allocates, and the coerced
    value is stored there unless coercion failed.
   */
  function Effect(root: Ty, d: FieldDescriptor, src: Form, codec: FloatCodec): Value -> Value
    requires Fits(root, d, src)
  {
    match Outcome(root, d, src, codec)
    case None => Id
    case Some(Ok(x)) => v => Update(root, v, d.index, Put(x))
    case Some(Err(_)) => v => Update(root, v, d.index, Id)
  }

  /** One turn of the field loop: the new struct value and the error, if coercion failed. */
  function ApplyField(root: Ty, v: Value, d: FieldDescriptor, src: Form, codec: FloatCodec): (Value, Option<BindError>)
    requires Fits(root, d, src)
  {
    match Outcome(root, d, src, codec)
    case None => (v, None)
    case Some(Ok(x)) => (Update(root, v, d.index, Put(x)), None)
    case Some(Err(e)) => (Update(root, v, d.index, Id), Some(e))
  }

  /** The field loop: descriptors in order, returning at the first error with the fields before it bound. */
  function BindFields(root: Ty, v: Value, fs: seq<FieldDescriptor>, src: Form, codec: FloatCodec): (r: (Value, Option<BindError>))
    requires AllFit(root, fs, src)
    decreases |fs|
  {
    if fs == [] then (v, None)
    else
      var turn := ApplyField(root, v, fs[0], src, codec);
      if turn.1.Some? then turn else BindFields(root, turn.0, fs[1..], src, codec)
  }

  // ---------------------------------------------------------------- lookup

  /** An absent name with no default leaves the value exactly as it was: not even the walk happens. */
  lemma AbsentKeyKeepsField(root: Ty, v: Value, d: FieldDescriptor, src: Form, codec: FloatCodec)
    requires Fits(root, d, src)
    requires d.tag !in src && d.default == []
    ensures ApplyField(root, v, d, src, codec) == (v, None)
  {
  }

  /** An absent name with defaults binds exactly as if the form held the default list under that name. */
  lemma AbsentKeyUsesDefault(root: Ty, v: Value, d: FieldDescriptor, src: Form, codec: FloatCodec)
    requires Fits(root, d, src)
    requires d.tag !in src && d.default != []
    ensures Fits(root, d, src[d.tag := d.default])
    ensures ApplyField(root, v, d, src, codec) == ApplyField(root, v, d, src[d.tag := d.default], codec)
  {
  }

  /** A present name, whatever its strings (`"0"` and `""` included), makes the defaults irrelevant. */
  lemma PresentKeyOverridesDefault(root: Ty, v: Value, d: FieldDescriptor, src: Form, codec: FloatCodec)
    requires Fits(root, d, src)
    requires d.tag in src
    ensures Fits(root, d.(default := []), src)
    ensures ApplyField(root, v, d, src, codec) == ApplyField(root, v, d.(default := []), src, codec)
  {
  }

  // ---------------------------------------------------------------- what the loop leaves behind

  /** Decoders captured for the fields produce values of the type they are stored at. */
  ghost predicate DecodersTyped(root: Ty, fs: seq<FieldDescriptor>)
    requires forall k :: 0 <= k < |fs| ==> FieldTypeAt(root, fs[k].index).Some?
  {
    forall k :: 0 <= k < |fs| ==> DecoderTyped(fs[k].decoder, Target(FieldTypeAt(root, fs[k].index).value))
  }

  /** The value a descriptor's field reads as after its turn: the coerced value, or what it was. */
  function Expected(root: Ty, v: Value, d: FieldDescriptor, src: Form, codec: FloatCodec): Value
    requires Fits(root, d, src)
  {
    match Outcome(root, d, src, codec)
    case Some(Ok(x)) => x
    case _ => Reach(root, v, d.index)
  }

  /** Index of the first descriptor whose coercion fails, or `|fs|`. */
  function FirstError(root: Ty, fs: seq<FieldDescriptor>, src: Form, codec: FloatCodec): (j: nat)
    requires AllFit(root, fs, src)
    ensures j <= |fs|
    ensures forall i :: 0 <= i < j ==> !Fails(root, fs[i], src, codec)
    ensures j < |fs| ==> Fails(root, fs[j], src, codec)
    decreases |fs|
  {
    if fs == [] then 0
    else if Fails(root, fs[0], src, codec) then 0
    else 1 + FirstError(root, fs[1..], src, codec)
  }

  /**
    One turn: the field reads as `Expected`, every field on a disjoint path
    reads as before, the value stays well typed, and the error is the
    coercion's.
   */
  lemma ApplyFieldFacts(root: Ty, v: Value, d: FieldDescriptor, src: Form, codec: FloatCodec)
    requires HasType(v, root) && Fits(root, d, src)
    requires DecoderTyped(d.decoder, Target(FieldTypeAt(root, d.index).value))
    ensures ApplyField(root, v, d, src, codec).0 == Effect(root, d, src, codec)(v)
    ensures HasType(ApplyField(root, v, d, src, codec).0, root)
    ensures Reach(root, ApplyField(root, v, d, src, codec).0, d.index) == Expected(root, v, d, src, codec)
    ensures forall q :: FieldTypeAt(root, q).Some? && Disjoint(d.index, q) ==>
              Reach(root, ApplyField(root, v, d, src, codec).0, q) == Reach(root, v, q)
    ensures ApplyField(root, v, d, src, codec).1.Some? <==> Fails(root, d, src, codec)
    ensures Fails(root, d, src, codec) ==> ApplyField(root, v, d, src, codec).1 == Some(Outcome(root, d, src, codec).value.error)
  {
    var ft := FieldTypeAt(root, d.index).value;
    match Outcome(root, d, src, codec)
    case None =>
    case Some(Ok(x)) =>
      MapValuesTyped(ft, d.decoder, codec, Values(src, d).value);
      UpdateTyped(root, v, d.index, Put(x));
      ReachUpdate(root, v, d.index, Put(x));
      forall q | FieldTypeAt(root, q).Some? && Disjoint(d.index, q)
        ensures Reach(root, Update(root, v, d.index, Put(x)), q) == Reach(root, v, q)
      {
        ReachFrame(root, v, d.index, Put(x), q);
      }
    case Some(Err(e)) =>
      ReachTyped(root, v, d.index);
      UpdateTyped(root, v, d.index, Id);
      ReachUpdate(root, v, d.index, Id);
      forall q | FieldTypeAt(root, q).Some? && Disjoint(d.index, q)
        ensures Reach(root, Update(root, v, d.index, Id), q) == Reach(root, v, q)
      {
        ReachFrame(root, v, d.index, Id, q);
      }
  }

  /** The loop leaves every field off all the descriptors' paths reading as before, and the value well typed. */
  lemma {:induction false} BindFieldsFrame(root: Ty, v: Value, fs: seq<FieldDescriptor>, src: Form, codec: FloatCodec, q: seq<nat>)
    requires HasType(v, root) && AllFit(root, fs, src) && DecodersTyped(root, fs)
    requires FieldTypeAt(root, q).Some?
    requires forall k :: 0 <= k < |fs| ==> Disjoint(fs[k].index, q)
    ensures HasType(BindFields(root, v, fs, src, codec).0, root)
    ensures Reach(root, BindFields(root, v, fs, src, codec).0, q) == Reach(root, v, q)
    decreases |fs|
  {
    if fs != [] {
      ApplyFieldFacts(root, v, fs[0], src, codec);
      var (v', e) := ApplyField(root, v, fs[0], src, codec);
      if e.None? {
        BindFieldsFrame(root, v', fs[1..], src, codec, q);
      }
    }
  }

  /** The loop returns the error of the first descriptor whose coercion fails, and none when none does. */
  lemma {:induction false} BindFieldsError(root: Ty, v: Value, fs: seq<FieldDescriptor>, src: Form, codec: FloatCodec)
    requires AllFit(root, fs, src)
    ensures BindFields(root, v, fs, src, codec).1.None? <==> FirstError(root, fs, src, codec) == |fs|
    ensures FirstError(root, fs, src, codec) < |fs| ==>
      BindFields(root, v, fs, src, codec).1 == Some(Outcome(root, fs[FirstError(root, fs, src, codec)], src, codec).value.error)
    decreases |fs|
  {
    if fs != [] && !Fails(root, fs[0], src, codec) {
      var v' := ApplyField(root, v, fs[0], src, codec).0;
      TurnSucceeds(root, v, fs, src, codec);
      BindFieldsError(root, v', fs[1..], src, codec);
      var j := FirstError(root, fs[1..], src, codec);
      assert j < |fs| - 1 ==> fs[1..][j] == fs[j + 1];
    }
  }

  /** A turn that does not fail hands the loop, and the search for the first error, on to the rest. */
  lemma TurnSucceeds(root: Ty, v: Value, fs: seq<FieldDescriptor>, src: Form, codec: FloatCodec)
    requires AllFit(root, fs, src) && fs != [] && !Fails(root, fs[0], src, codec)
    ensures AllFit(root, fs[1..], src)
    ensures BindFields(root, v, fs, src, codec) == BindFields(root, ApplyField(root, v, fs[0], src, codec).0, fs[1..], src, codec)
    ensures FirstError(root, fs, src, codec) == 1 + FirstError(root, fs[1..], src, codec)
  {
    assert ApplyField(root, v, fs[0], src, codec).1.None?;
  }

  /** Removing the first descriptor keeps the rest pairwise disjoint, and disjoint from it. */
  lemma TailDisjoint(fs: seq<FieldDescriptor>)
    requires fs != [] && DisjointPaths(fs)
    ensures DisjointPaths(fs[1..])
    ensures forall k :: 0 <= k < |fs| - 1 ==> Disjoint(fs[1..][k].index, fs[0].index) && Disjoint(fs[0].index, fs[1..][k].index)
  {
    var rest := fs[1..];
    forall a, b | 0 <= a < |rest| && 0 <= b < |rest| && a != b
      ensures Disjoint(rest[a].index, rest[b].index)
    {
      assert rest[a] == fs[a + 1] && rest[b] == fs[b + 1];
    }
    forall k | 0 <= k < |rest|
      ensures Disjoint(rest[k].index, fs[0].index) && Disjoint(fs[0].index, rest[k].index)
    {
      assert rest[k] == fs[k + 1];
    }
  }

  /** When the first turn fails, the loop stops there and every descriptor's field reads as before. */
  lemma FailedTurnReads(root: Ty, v: Value, fs: seq<FieldDescriptor>, src: Form, codec: FloatCodec)
    requires HasType(v, root) && AllFit(root, fs, src) && DecodersTyped(root, fs)
    requires DisjointPaths(fs) && fs != [] && Fails(root, fs[0], src, codec)
    ensures HasType(BindFields(root, v, fs, src, codec).0, root)
    ensures forall i :: 0 <= i < |fs| ==> Reach(root, BindFields(root, v, fs, src, codec).0, fs[i].index) == Reach(root, v, fs[i].index)
  {
    ApplyFieldFacts(root, v, fs[0], src, codec);
    var r := BindFields(root, v, fs, src, codec);
    assert r == ApplyField(root, v, fs[0], src, codec);
    forall i | 1 <= i < |fs|
      ensures Reach(root, r.0, fs[i].index) == Reach(root, v, fs[i].index)
    {
      assert Disjoint(fs[0].index, fs[i].index);
    }
  }

  /**
    What `Bind`'s loop leaves behind, field by field: every descriptor before
    the first failing one reads as its coerced value, or as before when it had
    no strings; the failing one and every later one read as before, though
    the walk to the failing field has allocated.
   */
  lemma {:induction false} BindFieldsReads(root: Ty, v: Value, fs: seq<FieldDescriptor>, src: Form, codec: FloatCodec)
    requires HasType(v, root) && AllFit(root, fs, src) && DecodersTyped(root, fs)
    requires DisjointPaths(fs)
    ensures HasType(BindFields(root, v, fs, src, codec).0, root)
    ensures forall i :: 0 <= i < FirstError(root, fs, src, codec) ==>
      Reach(root, BindFields(root, v, fs, src, codec).0, fs[i].index) == Expected(root, v, fs[i], src, codec)
    ensures forall i :: FirstError(root, fs, src, codec) <= i < |fs| ==>
      Reach(root, BindFields(root, v, fs, src, codec).0, fs[i].index) == Reach(root, v, fs[i].index)
    decreases |fs|
  {
    if fs != [] {
      if Fails(root, fs[0], src, codec) {
        FailedTurnReads(root, v, fs, src, codec);
      } else {
        BindFieldsStep(root, v, fs, src, codec);
      }
    }
  }

  /**
    What holds whatever order the source's map iteration gives the
    descriptors: the loop reports an error exactly when some descriptor's
    coercion fails, that error is a failing descriptor's own, and every
    descriptor's field ends up with its coerced value or as it was.
   */
  lemma BindFieldsAnyOrder(root: Ty, v: Value, fs: seq<FieldDescriptor>, src: Form, codec: FloatCodec)
    requires HasType(v, root) && AllFit(root, fs, src) && DecodersTyped(root, fs)
    requires DisjointPaths(fs)
    ensures BindFields(root, v, fs, src, codec).1.None? <==> forall k :: 0 <= k < |fs| ==> !Fails(root, fs[k], src, codec)
    ensures BindFields(root, v, fs, src, codec).1.Some? ==>
      exists k :: 0 <= k < |fs| && Fails(root, fs[k], src, codec)
                  && BindFields(root, v, fs, src, codec).1 == Some(Outcome(root, fs[k], src, codec).value.error)
    ensures forall i :: 0 <= i < |fs| ==>
      || Reach(root, BindFields(root, v, fs, src, codec).0, fs[i].index) == Expected(root, v, fs[i], src, codec)
      || Reach(root, BindFields(root, v, fs, src, codec).0, fs[i].index) == Reach(root, v, fs[i].index)
  {
    BindFieldsError(root, v, fs, src, codec);
    BindFieldsReads(root, v, fs, src, codec);
    var j := FirstError(root, fs, src, codec);
    if j < |fs| {
      assert Fails(root, fs[j], src, codec);
    }
  }

  /** The inductive step of `BindFieldsReads`, for a first turn that succeeds. */
  lemma {:induction false} BindFieldsStep(root: Ty, v: Value, fs: seq<FieldDescriptor>, src: Form, codec: FloatCodec)
    requires HasType(v, root) && AllFit(root, fs, src) && DecodersTyped(root, fs)
    requires DisjointPaths(fs) && fs != [] && !Fails(root, fs[0], src, codec)
    ensures HasType(BindFields(root, v, fs, src, codec).0, root)
    ensures forall i :: 0 <= i < FirstError(root, fs, src, codec) ==>
      Reach(root, BindFields(root, v, fs, src, codec).0, fs[i].index) == Expected(root, v, fs[i], src, codec)
    ensures forall i :: FirstError(root, fs, src, codec) <= i < |fs| ==>
      Reach(root, BindFields(root, v, fs, src, codec).0, fs[i].index) == Reach(root, v, fs[i].index)
    decreases |fs|, 0
  {
    var d := fs[0];
    var rest := fs[1..];
    ApplyFieldFacts(root, v, d, src, codec);
    var v' := ApplyField(root, v, d, src, codec).0;
    var r := BindFields(root, v, fs, src, codec);
    TurnSucceeds(root, v, fs, src, codec);
    var j := FirstError(root, fs, src, codec);
    TailDisjoint(fs);
    BindFieldsReads(root, v', rest, src, codec);
    BindFieldsFrame(root, v', rest, src, codec, d.index);
    forall i | 1 <= i < |fs|
      ensures i < j ==> Reach(root, r.0, fs[i].index) == Expected(root, v, fs[i], src, codec)
      ensures j <= i ==> Reach(root, r.0, fs[i].index) == Reach(root, v, fs[i].index)
    {
      assert fs[i] == rest[i - 1];
      assert Reach(root, v', fs[i].index) == Reach(root, v, fs[i].index);
      assert Expected(root, v', fs[i], src, codec) == Expected(root, v, fs[i], src, codec);
    }
  }

  // ---------------------------------------------------------------- order of the descriptors

  /** The struct value after every turn's effect, in order. */
  function ApplyAll(root: Ty, v: Value, fs: seq<FieldDescriptor>, src: Form, codec: FloatCodec): Value
    requires AllFit(root, fs, src)
    decreases |fs|
  {
    if fs == [] then v else ApplyAll(root, Effect(root, fs[0], src, codec)(v), fs[1..], src, codec)
  }

  lemma ApplyAllCons(root: Ty, v: Value, fs: seq<FieldDescriptor>, src: Form, codec: FloatCodec)
    requires fs != [] && AllFit(root, fs, src)
    ensures AllFit(root, fs[1..], src)
    ensures ApplyAll(root, v, fs, src, codec) == ApplyAll(root, Effect(root, fs[0], src, codec)(v), fs[1..], src, codec)
  {
  }

  /** When no coercion fails, the loop is the composition of the turns' effects. */
  lemma {:induction false} BindFieldsIsApplyAll(root: Ty, v: Value, fs: seq<FieldDescriptor>, src: Form, codec: FloatCodec)
    requires AllFit(root, fs, src)
    requires forall k :: 0 <= k < |fs| ==> !Fails(root, fs[k], src, codec)
    ensures BindFields(root, v, fs, src, codec) == (ApplyAll(root, v, fs, src, codec), None)
    decreases |fs|
  {
    if fs != [] {
      assert !Fails(root, fs[0], src, codec);
      BindFieldsIsApplyAll(root, Effect(root, fs[0], src, codec)(v), fs[1..], src, codec);
    }
  }

  /** The effects of two descriptors on disjoint paths commute. */
  lemma EffectCommute(root: Ty, v: Value, a: FieldDescriptor, b: FieldDescriptor, src: Form, codec: FloatCodec)
    requires Fits(root, a, src) && Fits(root, b, src)
    requires Disjoint(a.index, b.index)
    ensures Effect(root, a, src, codec)(Effect(root, b, src, codec)(v)) == Effect(root, b, src, codec)(Effect(root, a, src, codec)(v))
  {
    var fa := match Outcome(root, a, src, codec) case Some(Ok(x)) => Put(x) case _ => Id;
    var fb := match Outcome(root, b, src, codec) case Some(Ok(x)) => Put(x) case _ => Id;
    if Outcome(root, a, src, codec).Some? && Outcome(root, b, src, codec).Some? {
      UpdateCommute(root, v, a.index, fa, b.index, fb);
    }
  }

  /** The list without its element at `m`. */
  function Remove(fs: seq<FieldDescriptor>, m: nat): (r: seq<FieldDescriptor>)
    requires m < |fs|
    ensures |r| == |fs| - 1
    ensures forall k :: 0 <= k < |r| ==> r[k] == (if k < m then fs[k] else fs[k + 1])
  {
    fs[..m] + fs[m + 1..]
  }

  lemma RemoveKeeps(root: Ty, fs: seq<FieldDescriptor>, m: nat, src: Form)
    requires m < |fs| && AllFit(root, fs, src)
    ensures AllFit(root, Remove(fs, m), src)
    ensures DisjointPaths(fs) ==> DisjointPaths(Remove(fs, m))
  {
    var r := Remove(fs, m);
    if DisjointPaths(fs) {
      forall a, b | 0 <= a < |r| && 0 <= b < |r| && a != b
        ensures Disjoint(r[a].index, r[b].index)
      {
        var a0 := if a < m then a else a + 1;
        var b0 := if b < m then b else b + 1;
        assert r[a] == fs[a0] && r[b] == fs[b0] && a0 != b0;
      }
    }
  }

  /** The path of turn `m` is disjoint from those of the turns before it. */
  predicate DisjointBefore(fs: seq<FieldDescriptor>, m: nat)
    requires m < |fs|
  {
    forall i :: 0 <= i < m ==> Disjoint(fs[i].index, fs[m].index)
  }

  /** A turn whose path is disjoint from those of the turns before it can be done first. */
  lemma {:induction false} MoveToFront(root: Ty, v: Value, fs: seq<FieldDescriptor>, m: nat, src: Form, codec: FloatCodec)
    requires AllFit(root, fs, src)
    requires m < |fs|
    requires DisjointBefore(fs, m)
    ensures AllFit(root, Remove(fs, m), src)
    ensures ApplyAll(root, v, fs, src, codec) == ApplyAll(root, Effect(root, fs[m], src, codec)(v), Remove(fs, m), src, codec)
    decreases m
  {
    if m > 0 {
      var e0 := Effect(root, fs[0], src, codec);
      ApplyAllCons(root, v, fs, src, codec);
      RemoveTail(fs, m);
      MoveToFront(root, e0(v), fs[1..], m - 1, src, codec);
      MoveStep(root, v, fs, m, src, codec);
    } else {
      RemoveKeeps(root, fs, m, src);
      assert Remove(fs, m) == fs[1..];
    }
  }

  /** The inductive step of `MoveToFront`: turn `m` moved before the rest of the tail is moved before the head too. */
  lemma MoveStep(root: Ty, v: Value, fs: seq<FieldDescriptor>, m: nat, src: Form, codec: FloatCodec)
    requires AllFit(root, fs, src)
    requires 0 < m < |fs| && Disjoint(fs[0].index, fs[m].index)
    requires fs[1..][m - 1] == fs[m] && Remove(fs[1..], m - 1) == Remove(fs, m)[1..]
    requires AllFit(root, fs[1..], src) && AllFit(root, Remove(fs[1..], m - 1), src)
    requires ApplyAll(root, Effect(root, fs[0], src, codec)(v), fs[1..], src, codec)
      == ApplyAll(root, Effect(root, fs[m], src, codec)(Effect(root, fs[0], src, codec)(v)), Remove(fs[1..], m - 1), src, codec)
    ensures AllFit(root, Remove(fs, m), src)
    ensures ApplyAll(root, v, fs, src, codec) == ApplyAll(root, Effect(root, fs[m], src, codec)(v), Remove(fs, m), src, codec)
  {
    RemoveKeeps(root, fs, m, src);
    var rest := Remove(fs, m);
    var e0 := Effect(root, fs[0], src, codec);
    var ed := Effect(root, fs[m], src, codec);
    ApplyAllCons(root, v, fs, src, codec);
    ApplyAllCons(root, ed(v), rest, src, codec);
    EffectCommute(root, v, fs[0], fs[m], src, codec);
    assert rest[0] == fs[0];
    assert ed(e0(v)) == e0(ed(v));
  }

  /** Removing a later element commutes with dropping the head, and the head's disjointness carries over. */
  lemma RemoveTail(fs: seq<FieldDescriptor>, m: nat)
    requires 0 < m < |fs|
    requires DisjointBefore(fs, m)
    ensures fs[1..][m - 1] == fs[m]
    ensures DisjointBefore(fs[1..], m - 1)
    ensures Disjoint(fs[0].index, fs[m].index)
    ensures Remove(fs[1..], m - 1) == Remove(fs, m)[1..]
    ensures Remove(fs, m)[0] == fs[0]
  {
    var tail := fs[1..];
    forall i | 0 <= i < m - 1
      ensures Disjoint(tail[i].index, tail[m - 1].index)
    {
      assert tail[i] == fs[i + 1];
    }
  }

  /** `p` maps positions of one list onto distinct positions of a list of length `n`. */
  predicate Injection(p: seq<nat>, n: nat) {
    && (forall i :: 0 <= i < |p| ==> p[i] < n)
    && (forall i, j :: 0 <= i < j < |p| ==> p[i] != p[j])
  }

  /** The positions after the first, renumbered for a list with position `p[0]` removed. */
  function Shift(p: seq<nat>): (r: seq<nat>)
    requires p != []
    ensures |r| == |p| - 1
    ensures forall i :: 0 <= i < |r| ==> r[i] == if p[i + 1] <= p[0] then p[i + 1] else p[i + 1] - 1
  {
    seq(|p| - 1, i requires 0 <= i < |p| - 1 => if p[i + 1] <= p[0] then p[i + 1] else p[i + 1] - 1)
  }

  lemma ShiftInjection(p: seq<nat>, n: nat)
    requires p != [] && Injection(p, n)
    ensures Injection(Shift(p), n - 1)
  {
    var r := Shift(p);
    forall i | 0 <= i < |r|
      ensures r[i] < n - 1
    {
      assert p[i + 1] != p[0];
    }
    forall i, j | 0 <= i < j < |r|
      ensures r[i] != r[j]
    {
      assert p[i + 1] != p[j + 1] && p[i + 1] != p[0] && p[j + 1] != p[0];
    }
  }

  /** `gs` lists elements of `fs` at the distinct positions `p`. */
  ghost predicate Reorders(fs: seq<FieldDescriptor>, gs: seq<FieldDescriptor>, p: seq<nat>) {
    && |p| == |gs| == |fs| && Injection(p, |fs|)
    && forall i :: 0 <= i < |gs| ==> gs[i] == fs[p[i]]
  }

  /** Taking the first element of `gs` out of `fs` leaves the rest of `gs` reordering what remains. */
  lemma ReordersTail(fs: seq<FieldDescriptor>, gs: seq<FieldDescriptor>, p: seq<nat>)
    requires gs != [] && Reorders(fs, gs, p)
    ensures Reorders(Remove(fs, p[0]), gs[1..], Shift(p))
  {
    ShiftInjection(p, |fs|);
    var fs' := Remove(fs, p[0]);
    var p' := Shift(p);
    forall i | 0 <= i < |gs| - 1
      ensures gs[1..][i] == fs'[p'[i]]
    {
      assert gs[1..][i] == gs[i + 1] == fs[p[i + 1]];
      assert p[i + 1] != p[0];
    }
  }

  /** The effects of descriptors on pairwise disjoint paths may be applied in any order. */
  lemma {:induction false} ApplyAllReordered(root: Ty, v: Value, fs: seq<FieldDescriptor>, gs: seq<FieldDescriptor>, p: seq<nat>, src: Form, codec: FloatCodec)
    requires AllFit(root, fs, src) && AllFit(root, gs, src)
    requires DisjointPaths(fs) && Reorders(fs, gs, p)
    ensures ApplyAll(root, v, fs, src, codec) == ApplyAll(root, v, gs, src, codec)
    decreases |fs|
  {
    if fs != [] {
      var m := p[0];
      var d := fs[m];
      assert DisjointBefore(fs, m);
      MoveToFront(root, v, fs, m, src, codec);
      RemoveKeeps(root, fs, m, src);
      ReordersTail(fs, gs, p);
      ApplyAllReordered(root, Effect(root, d, src, codec)(v), Remove(fs, m), gs[1..], Shift(p), src, codec);
      assert gs[0] == d;
    }
  }

  /**
    When no coercion fails, the outcome of the loop does not depend on the
    order of the descriptors (the source's order is that of a map iteration).
   */
  lemma BindOrderFree(root: Ty, v: Value, fs: seq<FieldDescriptor>, gs: seq<FieldDescriptor>, p: seq<nat>, src: Form, codec: FloatCodec)
    requires AllFit(root, fs, src) && AllFit(root, gs, src)
    requires DisjointPaths(fs) && Reorders(fs, gs, p)
    requires forall k :: 0 <= k < |fs| ==> !Fails(root, fs[k], src, codec)
    ensures BindFields(root, v, gs, src, codec) == BindFields(root, v, fs, src, codec)
  {
    BindFieldsIsApplyAll(root, v, fs, src, codec);
    assert forall i :: 0 <= i < |gs| ==> !Fails(root, gs[i], src, codec);
    BindFieldsIsApplyAll(root, v, gs, src, codec);
    ApplyAllReordered(root, v, fs, gs, p, src, codec);
  }
  // ---------------------------------------------------------------- the entry point

  /** The value at the bottom of a chain of pointers of type `t`, a nil level read as a fresh zero value. */
  function Pointed(t: Ty, v: Value): Value
    decreases t
  {
    if t.TPtr? then Pointed(t.elem, Deref(t.elem, v)) else v
  }

  /**
    The value of type `t` with every pointer level allocated (a nil one
    replaced by a fresh zero value) and the value at the bottom replaced by `x`.
   */
  function Through(t: Ty, v: Value, x: Value): (r: Value)
    ensures Pointed(t, r) == x
    ensures t.TPtr? ==> r.VPtr? && r.target.Some?
    decreases t
  {
    if t.TPtr? then VPtr(Some(Through(t.elem, Deref(t.elem, v), x))) else x
  }

  /** Following the pointers keeps the value well typed, and putting a well-typed value back does too. */
  lemma {:induction false} ThroughTyped(t: Ty, v: Value, x: Value)
    requires HasType(v, t)
    ensures HasType(Pointed(t, v), Base(t))
    ensures HasType(x, Base(t)) ==> HasType(Through(t, v, x), t)
    decreases t
  {
    if t.TPtr? {
      ThroughTyped(t.elem, Deref(t.elem, v), x);
    }
  }

  /** The schema `Bind` and `Encode` use for a value of type `t`. */
  function Fields(m: Mapper, t: Ty): seq<FieldDescriptor> {
    Descriptor(m, Base(t)).1.fields
  }

  /**
    What `Bind` needs beyond a non-nil pointer: the type it reaches is a
    struct whose walk only meets structs (else the source panics building its
    schema), and no non-slice field is handed an empty list.
   */
  predicate Bindable(m: Mapper, t: Ty, src: Form) {
    && (Base(t) !in m.structs ==> Flattenable(Decide(m.tag), Base(t)))
    && AllFit(Base(t), Fields(m, t), src)
  }

  /**
    Every write the field loop makes on `v` is one `reflect` allows (otherwise
    `Set` panics): each descriptor the loop reaches that has strings walks to
    its field allocating only settable pointers, does not hand a string to an
    interface with methods, and, when its coercion succeeds, stores into a
    field `CanSet` allows. Coercion that fails returns before its store.
   */
  predicate Writable(root: Ty, v: Value, fs: seq<FieldDescriptor>, src: Form, codec: FloatCodec)
    requires AllFit(root, fs, src)
  {
    forall k :: 0 <= k <= FirstError(root, fs, src, codec) && k < |fs| && Outcome(root, fs[k], src, codec).Some? ==>
      && AllocatesSettable(root, v, fs[k].index, false)
      && !RefusesString(FieldTypeAt(root, fs[k].index).value, Values(src, fs[k]).value)
      && (Outcome(root, fs[k], src, codec).value.Ok? ==> CanSet(root, fs[k].index, false))
  }

  /**
    A schema whose paths run through exported fields only, onto fields that
    are no interface with methods, never makes a write `reflect` refuses.
   */
  lemma ExportedWritable(root: Ty, v: Value, fs: seq<FieldDescriptor>, src: Form, codec: FloatCodec)
    requires AllFit(root, fs, src)
    requires forall k :: 0 <= k < |fs| ==> ExportedAlong(root, fs[k].index)
    requires forall k :: 0 <= k < |fs| ==> MethodFree(FieldTypeAt(root, fs[k].index).value)
    ensures Writable(root, v, fs, src, codec)
  {
    forall k | 0 <= k < |fs|
      ensures CanSet(root, fs[k].index, false) && AllocatesSettable(root, v, fs[k].index, false)
    {
      ExportedSettable(root, v, fs[k].index);
    }
  }

  /** One reached descriptor handing strings to an interface with methods is enough to leave `Writable`. */
  lemma RefusedInterface(root: Ty, v: Value, fs: seq<FieldDescriptor>, src: Form, codec: FloatCodec, k: nat)
    requires AllFit(root, fs, src)
    requires k < |fs| && k <= FirstError(root, fs, src, codec)
    requires Values(src, fs[k]).Some? && RefusesString(FieldTypeAt(root, fs[k].index).value, Values(src, fs[k]).value)
    ensures !Writable(root, v, fs, src, codec)
  {
  }

  /** One reached descriptor whose coercion succeeds into a field `CanSet` refuses is enough to leave `Writable`. */
  lemma RefusedStore(root: Ty, v: Value, fs: seq<FieldDescriptor>, src: Form, codec: FloatCodec, k: nat)
    requires AllFit(root, fs, src)
    requires k < |fs| && k <= FirstError(root, fs, src, codec)
    requires Outcome(root, fs[k], src, codec).Some? && Outcome(root, fs[k], src, codec).value.Ok?
    requires !CanSet(root, fs[k].index, false)
    ensures !Writable(root, v, fs, src, codec)
  {
  }

  datatype Bound = Bound(mapper: Mapper, value: Value, err: Option<BindError>)

  /**
    `Mapper.Bind` on a value `v` of type `t`: a non-pointer and a nil pointer
    are rejected untouched; otherwise every pointer level below is allocated,
    the schema is taken from the cache (or built and cached), and the field
    loop runs on the struct at the bottom.
   */
  function Bind(m: Mapper, src: Form, t: Ty, v: Value, codec: FloatCodec): (r: Bound)
    requires Valid(m) && HasType(v, t)
    requires t.TPtr? && v.target.Some? ==> Bindable(m, t, src) && Writable(Base(t), Pointed(t, v), Fields(m, t), src, codec)
    ensures Valid(r.mapper) && r.mapper.tag == m.tag && r.mapper.decoders == m.decoders
    ensures !t.TPtr? ==> r == Bound(m, v, Some(NotPointer))
    ensures t.TPtr? && v.target.None? ==> r == Bound(m, v, Some(NilBind))
    ensures t.TPtr? && v.target.Some? ==>
      && Base(t) in r.mapper.structs && r.mapper.structs[Base(t)].fields == Fields(m, t)
      && (r.err.None? <==> FirstError(Base(t), Fields(m, t), src, codec) == |Fields(m, t)|)
      && r.value.VPtr? && r.value.target.Some?
  {
    if !t.TPtr? then Bound(m, v, Some(NotPointer))
    else if v.target.None? then Bound(m, v, Some(NilBind))
    else
      var (m', d) := Descriptor(m, Base(t));
      ParseValid(m, Base(t));
      var bottom := BindFields(Base(t), Pointed(t, v), d.fields, src, codec);
      BindFieldsError(Base(t), Pointed(t, v), d.fields, src, codec);
      Bound(m', Through(t, v, bottom.0), bottom.1)
  }

  /**
    `Bind` on a non-nil pointer, seen at the struct it reaches: the value
    stays well typed; each field before the first failing one reads as its
    coerced value (or as before when it had no strings), and that field and
    every later one read as before.
   */
  lemma BindReads(m: Mapper, src: Form, t: Ty, v: Value, codec: FloatCodec)
    requires Valid(m) && HasType(v, t) && t.TPtr? && v.target.Some? && Bindable(m, t, src)
    requires Writable(Base(t), Pointed(t, v), Fields(m, t), src, codec)
    requires DecodersTyped(Base(t), Fields(m, t))
    ensures HasType(Bind(m, src, t, v, codec).value, t)
    ensures forall i :: 0 <= i < FirstError(Base(t), Fields(m, t), src, codec) ==>
      Reach(Base(t), Pointed(t, Bind(m, src, t, v, codec).value), Fields(m, t)[i].index)
        == Expected(Base(t), Pointed(t, v), Fields(m, t)[i], src, codec)
    ensures forall i :: FirstError(Base(t), Fields(m, t), src, codec) <= i < |Fields(m, t)| ==>
      Reach(Base(t), Pointed(t, Bind(m, src, t, v, codec).value), Fields(m, t)[i].index)
        == Reach(Base(t), Pointed(t, v), Fields(m, t)[i].index)
  {
    var fs := Fields(m, t);
    ParseValid(m, Base(t));
    ThroughTyped(t, v, Pointed(t, v));
    var bottom := BindFields(Base(t), Pointed(t, v), fs, src, codec);
    BindFieldsReads(Base(t), Pointed(t, v), fs, src, codec);
    ThroughTyped(t, v, bottom.0);
    assert Bind(m, src, t, v, codec).value == Through(t, v, bottom.0);
  }
}

=== FILE: cache.dfy ===
/**
  The mapper's state: its tag key, the copy-on-write cache of struct schemas,
  and the registered decoders. The cache is modelled as a map replaced
  wholesale on every store, which is what the atomic swap publishes.
 */
module Cache {
  import opened Results
  import opened Types
  import opened Tags
  import opened Access
  import opened Schema

  datatype Mapper = Mapper(tag: string, structs: map<Ty, StructDescriptor>, decoders: map<Ty, Decoder>)

  /** A fresh mapper reading tag key `tag`, with an empty cache and no decoders. */
  function NewMapper(tag: string): (m: Mapper)
    ensures m.tag == tag && |m.structs| == 0 && |m.decoders| == 0
  {
    Mapper(tag, map[], map[])
  }

  /**
    Register `fn` for type `t`, replacing any earlier one. A missing type or
    decoder (Go's nil) is ignored. Schemas already cached keep the decoders
    they captured.
   */
  function UseDecoder(m: Mapper, t: Option<Ty>, fn: Option<Decoder>): (r: Mapper)
    ensures r.tag == m.tag && r.structs == m.structs
    ensures t.None? || fn.None? ==> r == m
    ensures t.Some? && fn.Some? ==>
      && r.decoders.Keys == m.decoders.Keys + {t.value}
      && r.decoders[t.value] == fn.value
      && forall u :: u in m.decoders && u != t.value ==> r.decoders[u] == m.decoders[u]
  {
    if t.None? || fn.None? then m
    else m.(decoders := m.decoders[t.value := fn.value])
  }

  /** The cached schema of `t`, if any. */
  function GetStructDescriptor(m: Mapper, t: Ty): (r: Option<StructDescriptor>)
    ensures r.Some? <==> t in m.structs
    ensures r.Some? ==> r.value == m.structs[t]
  {
    if t in m.structs then Some(m.structs[t]) else None
  }

  /** Publish a copy of the cache with `t` bound to `d`: one key added or overwritten, the rest as before. */
  function SetStructDescriptor(m: Mapper, t: Ty, d: StructDescriptor): (r: Mapper)
    ensures r.tag == m.tag && r.decoders == m.decoders
    ensures r.structs.Keys == m.structs.Keys + {t}
    ensures r.structs[t] == d
    ensures forall u :: u in m.structs && u != t ==> r.structs[u] == m.structs[u]
  {
    m.(structs := m.structs[t := d])
  }

  /** The schema the walk builds for `t` under the mapper's tag key and current decoders. */
  function Build(m: Mapper, t: Ty): StructDescriptor {
    StructDescriptor(TypeName(t), BuildFields(m.tag, m.decoders, t))
  }

  /**
    `parseStructDescriptor`: look in the cache again (another caller may have
    stored the schema meanwhile); otherwise build the schema and store it.
   */
  function ParseStructDescriptor(m: Mapper, t: Ty): (r: (Mapper, StructDescriptor))
    ensures t in r.0.structs && r.0.structs[t] == r.1
    ensures r.0.tag == m.tag && r.0.decoders == m.decoders
    ensures t in m.structs ==> r.0 == m && r.1 == m.structs[t]
    ensures t !in m.structs ==>
      && r.0.structs.Keys == m.structs.Keys + {t}
      && (forall u :: u in m.structs ==> r.0.structs[u] == m.structs[u])
      && r.1.name == TypeName(t)
      && SchemaOk(t, m.decoders, r.1.fields)
  {
    match GetStructDescriptor(m, t)
    case Some(d) => (m, d)
    case None =>
      var d := Build(m, t);
      BuildFieldsOk(m.tag, m.decoders, t);
      (SetStructDescriptor(m, t, d), d)
  }

  /** The lookup `Bind` and `Encode` do: the cached schema, else `parseStructDescriptor`. */
  function Descriptor(m: Mapper, t: Ty): (r: (Mapper, StructDescriptor)) {
    match GetStructDescriptor(m, t)
    case Some(d) => (m, d)
    case None => ParseStructDescriptor(m, t)
  }

  /** Looking in the cache first changes nothing: the double check finds the same entry. */
  lemma DescriptorIsParse(m: Mapper, t: Ty)
    ensures Descriptor(m, t) == ParseStructDescriptor(m, t)
  {
  }

  /** A second `parseStructDescriptor` of the same type returns the cached schema and changes nothing. */
  lemma ParseIdempotent(m: Mapper, t: Ty)
    ensures ParseStructDescriptor(ParseStructDescriptor(m, t).0, t) == ParseStructDescriptor(m, t)
  {
  }

  /** Every cached schema has the shape the walk guarantees for its type. */
  predicate Valid(m: Mapper) {
    forall t :: t in m.structs ==> PathsOk(t, m.structs[t].fields)
  }

  lemma NewMapperValid(tag: string)
    ensures Valid(NewMapper(tag))
  {
  }

  /** Registering a decoder leaves the cache, and so its validity, alone. */
  lemma UseDecoderValid(m: Mapper, t: Option<Ty>, fn: Option<Decoder>)
    requires Valid(m)
    ensures Valid(UseDecoder(m, t, fn))
  {
  }

  /** Parsing keeps the cache valid, and the schema it returns is valid for `t`. */
  lemma ParseValid(m: Mapper, t: Ty)
    requires Valid(m)
    ensures Valid(ParseStructDescriptor(m, t).0)
    ensures PathsOk(t, ParseStructDescriptor(m, t).1.fields)
  {
    var r := ParseStructDescriptor(m, t);
    forall u | u in r.0.structs
      ensures PathsOk(u, r.0.structs[u].fields)
    {
      if u != t {
        assert u in m.structs;
      }
    }
  }
}

=== FILE: coerce.dfy ===
/**
  Coercion of form strings into field values (`mapValues`, `mapValue` and the
  per-kind `mapInt`, `mapUint`, `mapFloat`, `mapBool`), and the opposite
  direction, `encodeValue`, which renders a field back into strings.
 */
module Coerce {
  import opened Results
  import opened Types
  import opened Strconv

  /**
    `strconv.ParseFloat(s, bits)` and `strconv.FormatFloat(x, 'g', -1, bits)`.
    Floating point is not modelled: both are parameters.
   */
  datatype FloatCodec = FloatCodec(parse: (string, nat) -> Result<real, NumError>, format: (real, nat) -> string)

  /**
    `format` writes some text for `x` at width `bits`, and reading that text
    back gives `x` again. Go's shortest `'g'` rendering does this for every
    value the width can hold.
   */
  predicate FloatReads(codec: FloatCodec, x: real, bits: nat) {
    codec.format(x, bits) != "" && codec.parse(codec.format(x, bits), bits) == Ok(x)
  }

  /**
    Every float a field of type `t` holding `x` renders reads back: the value
    itself for a float field, each element for a slice of floats. Fields of
    other kinds render no float, so nothing is asked of them.
   */
  predicate FloatsReadBack(codec: FloatCodec, t: Ty, x: Value) {
    && (t.TFloat? && x.VFloat? ==> FloatReads(codec, x.f, FloatBits(t.fk)))
    && (t.TSlice? && t.elem.TFloat? && x.VSlice? ==>
          forall i :: 0 <= i < |x.elems| && x.elems[i].VFloat? ==> FloatReads(codec, x.elems[i].f, FloatBits(t.elem.fk)))
  }

  /** The errors `Bind` and `Encode` return. */
  datatype BindError =
    | NotPointer                  // must pass a pointer to Bind
    | NilBind                     // nil pointer passed to Bind
    | NilEncode                   // nil pointer passed to Encode
    | Num(e: NumError)            // a strconv parse failure
    | Decoding(msg: string)       // a registered decoder's error
    | CannotUnmarshal(ty: string) // no built-in rule and no decoder

  /** The bit size `mapValue` passes for each integer kind: 0 for `int`/`uint`, 64 for `uintptr`. */
  function IntBitSize(k: IntKind): nat {
    match k
    case Int => 0
    case Int8 => 8
    case Int16 => 16
    case Int32 => 32
    case Int64 => 64
  }

  function UintBitSize(k: UintKind): nat {
    match k
    case Uint => 0
    case Uint8 => 8
    case Uint16 => 16
    case Uint32 => 32
    case Uint64 => 64
    case Uintptr => 64
  }

  /**
    `mapInt`: the empty string is zero; anything else must be a signed decimal
    within the kind's width, and a parse failure is reported as it is.
   */
  function MapInt(k: IntKind, s: string): (r: Result<Value, BindError>)
    ensures s == "" ==> r == Ok(VInt(0))
    ensures s != "" ==> (r.Ok? <==> SignedShape(s) && MinInt(IntBits(k)) <= SignedValue(s) < MaxIntExcl(IntBits(k)))
    ensures s != "" && r.Ok? ==> r.value == VInt(SignedValue(s))
    ensures r.Err? ==> r.error.Num? && r.error.e.fn == "ParseInt" && r.error.e.num == s
    ensures r.Ok? ==> HasType(r.value, TInt(k))
  {
    if s == "" then Ok(VInt(0))
    else
      match ParseInt(s, IntBitSize(k))
      case Ok(i) => Ok(VInt(i))
      case Err(e) => Err(Num(e))
  }

  /** `mapUint`: the empty string is zero; anything else must be decimal digits within the kind's width. */
  function MapUint(k: UintKind, s: string): (r: Result<Value, BindError>)
    ensures s == "" ==> r == Ok(VUint(0))
    ensures s != "" ==> (r.Ok? <==> AllDigits(s) && DigitsValue(s) < Pow2(UintBits(k)))
    ensures s != "" && r.Ok? ==> r.value == VUint(DigitsValue(s))
    ensures r.Err? ==> r.error.Num? && r.error.e.fn == "ParseUint" && r.error.e.num == s && r.error.e.err != ErrBitSize
    ensures r.Ok? ==> HasType(r.value, TUint(k))
  {
    if s == "" then Ok(VUint(0))
    else
      match ParseUint(s, UintBitSize(k))
      case Ok(n) => Ok(VUint(n))
      case Err(e) => Err(Num(e))
  }

  /** `mapFloat`: the empty string is zero; anything else is whatever `ParseFloat` makes of it. */
  function MapFloat(codec: FloatCodec, k: FloatKind, s: string): (r: Result<Value, BindError>)
    ensures s == "" ==> r == Ok(VFloat(0.0))
    ensures s != "" && codec.parse(s, FloatBits(k)).Ok? ==> r == Ok(VFloat(codec.parse(s, FloatBits(k)).value))
    ensures s != "" && codec.parse(s, FloatBits(k)).Err? ==> r == Err(Num(codec.parse(s, FloatBits(k)).error))
  {
    if s == "" then Ok(VFloat(0.0))
    else
      match codec.parse(s, FloatBits(k))
      case Ok(x) => Ok(VFloat(x))
      case Err(e) => Err(Num(e))
  }

  /** `mapBool`: the empty string is false; otherwise one of `ParseBool`'s twelve spellings. */
  function MapBool(s: string): (r: Result<Value, BindError>)
    ensures r == Ok(VBool(true)) <==> s in {"1", "t", "T", "TRUE", "true", "True"}
    ensures r == Ok(VBool(false)) <==> s in {"", "0", "f", "F", "FALSE", "false", "False"}
    ensures r.Err? ==> r.error == Num(NumError("ParseBool", s, ErrSyntax))
  {
    if s == "" then Ok(VBool(false))
    else
      match ParseBool(s)
      case Ok(b) => Ok(VBool(b))
      case Err(e) => Err(Num(e))
  }

  /**
    `mapValue`'s interface rule stores the string itself
    (`Set(reflect.ValueOf(value))`), which `reflect` refuses with a panic when
    the interface has methods, since a `string` implements none. A slice of
    such interfaces meets the refusal at its first element; an empty list makes
    no element and stores nothing refused.
   */
  predicate RefusesString(t: Ty, vals: seq<string>) {
    vals != [] && !MethodFree(t)
  }

  /** Neither `t` nor, for a slice, its element is an interface with methods. */
  predicate MethodFree(t: Ty) {
    && !(t.TIface? && t.methods > 0)
    && !(t.TSlice? && t.elem.TIface? && t.elem.methods > 0)
  }

  /** The kinds `mapValue` has a rule for; every other kind goes to the decoder. */
  predicate Builtin(t: Ty) {
    t.TIface? || t.TString? || t.TInt? || t.TUint? || t.TFloat? || t.TBool?
  }

  /** The kinds whose empty string coerces to zero. */
  predicate Numeric(t: Ty) {
    t.TInt? || t.TUint? || t.TFloat? || t.TBool?
  }

  /**
    `mapValue`: one string into a field of type `t`. An interface field holds
    the string itself (for an interface with methods the source panics instead,
    see `RefusesString`); a field with no built-in rule uses the decoder
    captured for it, and fails when there is none.
   */
  function MapValue(t: Ty, decoder: Option<Decoder>, codec: FloatCodec, s: string): (r: Result<Value, BindError>)
    ensures t.TString? ==> r == Ok(VString(s))
    ensures t.TIface? ==> r == Ok(VIface(Some(VString(s))))
    ensures Numeric(t) && s == "" ==> r == Ok(Zero(t))
    ensures Builtin(t) && r.Ok? ==> HasType(r.value, t)
    ensures !Builtin(t) && decoder.None? ==> r == Err(CannotUnmarshal(TypeString(t)))
    ensures !Builtin(t) && decoder.Some? ==>
      && (r.Ok? <==> decoder.value(s).Ok?)
      && (r.Ok? ==> r.value == decoder.value(s).value)
      && (r.Err? ==> r.error == Decoding(decoder.value(s).error))
    ensures Builtin(t) ==> r.Ok? || r.error.Num?
  {
    match t
    case TIface(_, _) => Ok(VIface(Some(VString(s))))
    case TString => Ok(VString(s))
    case TInt(k) => MapInt(k, s)
    case TUint(k) => MapUint(k, s)
    case TFloat(k) => MapFloat(codec, k, s)
    case TBool => MapBool(s)
    case _ =>
      match decoder
      case None => Err(CannotUnmarshal(TypeString(t)))
      case Some(fn) =>
        match fn(s)
        case Ok(x) => Ok(x)
        case Err(msg) => Err(Decoding(msg))
  }

  /** Index of the first string `mapValue` rejects, or `|vals|` when none is. */
  function FirstFailure(e: Ty, decoder: Option<Decoder>, codec: FloatCodec, vals: seq<string>): (j: nat)
    ensures j <= |vals|
    ensures forall i :: 0 <= i < j ==> MapValue(e, decoder, codec, vals[i]).Ok?
    ensures j < |vals| ==> MapValue(e, decoder, codec, vals[j]).Err?
  {
    if vals == [] then 0
    else if MapValue(e, decoder, codec, vals[0]).Err? then 0
    else 1 + FirstFailure(e, decoder, codec, vals[1..])
  }

  /**
    The element loop of `mapValues` on a slice: coerce every string in order,
    stopping at the first failure, whose error is returned.
   */
  function MapEach(e: Ty, decoder: Option<Decoder>, codec: FloatCodec, vals: seq<string>): (r: Result<seq<Value>, BindError>)
    ensures r.Ok? <==> FirstFailure(e, decoder, codec, vals) == |vals|
    ensures r.Ok? ==> |r.value| == |vals|
    ensures r.Ok? ==> forall i :: 0 <= i < |vals| ==> r.value[i] == MapValue(e, decoder, codec, vals[i]).value
    ensures r.Err? ==> r.error == MapValue(e, decoder, codec, vals[FirstFailure(e, decoder, codec, vals)]).error
  {
    if vals == [] then Ok([])
    else
      match MapValue(e, decoder, codec, vals[0])
      case Err(err) => Err(err)
      case Ok(x) =>
        match MapEach(e, decoder, codec, vals[1..])
        case Err(err) => Err(err)
        case Ok(xs) =>
          assert forall i :: 1 <= i < |vals| ==> vals[i] == vals[1..][i - 1];
          Ok([x] + xs)
  }

  /**
    `mapValues`: a slice field becomes exactly one element per string, in
    order, or stays as it was on the first failure; any other field takes
    the first string only. The source indexes the first string unguarded, so
    a non-slice field needs at least one.
   */
  function MapValues(t: Ty, decoder: Option<Decoder>, codec: FloatCodec, vals: seq<string>): (r: Result<Value, BindError>)
    requires t.TSlice? || vals != []
    ensures t.TSlice? ==> (r.Ok? <==> FirstFailure(t.elem, decoder, codec, vals) == |vals|)
    ensures t.TSlice? && r.Ok? ==>
      && r.value.VSlice? && |r.value.elems| == |vals|
      && forall i :: 0 <= i < |vals| ==> r.value.elems[i] == MapValue(t.elem, decoder, codec, vals[i]).value
    ensures t.TSlice? && r.Err? ==> r.error == MapValue(t.elem, decoder, codec, vals[FirstFailure(t.elem, decoder, codec, vals)]).error
    ensures !t.TSlice? ==> r == MapValue(t, decoder, codec, vals[0])
  {
    if t.TSlice? then
      match MapEach(t.elem, decoder, codec, vals)
      case Ok(xs) => Ok(VSlice(xs))
      case Err(err) => Err(err)
    else MapValue(t, decoder, codec, vals[0])
  }

  /** The type a decoder is applied at: the element type for a slice field, the field type otherwise. */
  function Target(t: Ty): Ty {
    if t.TSlice? then t.elem else t
  }

  /** Every value `decoder` produces has type `t` (Go panics storing one that does not). */
  ghost predicate DecoderTyped(decoder: Option<Decoder>, t: Ty) {
    decoder.Some? ==> forall s :: decoder.value(s).Ok? ==> HasType(decoder.value(s).value, t)
  }

  /** With a well-typed decoder, a successful coercion yields a value of the field's type. */
  lemma MapValueTyped(t: Ty, decoder: Option<Decoder>, codec: FloatCodec, s: string)
    requires DecoderTyped(decoder, t)
    requires MapValue(t, decoder, codec, s).Ok?
    ensures HasType(MapValue(t, decoder, codec, s).value, t)
  {
    if t.TFloat? {
      assert MapValue(t, decoder, codec, s).value.VFloat?;
    }
  }

  lemma MapValuesTyped(t: Ty, decoder: Option<Decoder>, codec: FloatCodec, vals: seq<string>)
    requires t.TSlice? || vals != []
    requires DecoderTyped(decoder, Target(t))
    requires MapValues(t, decoder, codec, vals).Ok?
    ensures HasType(MapValues(t, decoder, codec, vals).value, t)
  {
    var r := MapValues(t, decoder, codec, vals);
    if t.TSlice? {
      forall i | 0 <= i < |r.value.elems|
        ensures HasType(r.value.elems[i], t.elem)
      {
        MapValueTyped(t.elem, decoder, codec, vals[i]);
      }
    } else {
      MapValueTyped(t, decoder, codec, vals[0]);
    }
  }

  // ---------------------------------------------------------------- encoding

  /** The value is its type's zero for `omitempty`: an empty string, or numerically zero. */
  predicate IsEmpty(x: Value) {
    match x
    case VString(s) => s == ""
    case VInt(i) => i == 0
    case VUint(u) => u == 0
    case VFloat(f) => f == 0.0
    case _ => false
  }

  /**
    `encodeValue`: the strings one field contributes, in order. Strings and
    numbers are skipped when empty under `omitempty`, booleans never are; a
    slice or an array contributes its elements' strings one after the other
    (each element judged by `omitempty` on its own); every other kind adds nothing.
   */
  function EncodeValue(omitempty: bool, t: Ty, x: Value, codec: FloatCodec): (r: seq<string>)
    requires HasType(x, t)
    decreases t, 0
  {
    match t
    case TString => if omitempty && IsEmpty(x) then [] else [x.s]
    case TInt(_) => if omitempty && IsEmpty(x) then [] else [FormatInt(x.i)]
    case TUint(_) => if omitempty && IsEmpty(x) then [] else [FormatUint(x.u)]
    case TFloat(k) => if omitempty && IsEmpty(x) then [] else [codec.format(x.f, FloatBits(k))]
    case TBool => [FormatBool(x.b)]
    case TSlice(e) => EncodeEach(omitempty, e, x.elems, codec)
    case TArray(e, _) => EncodeEach(omitempty, e, x.elems, codec)
    case _ => []
  }

  function EncodeEach(omitempty: bool, e: Ty, xs: seq<Value>, codec: FloatCodec): (r: seq<string>)
    requires forall i :: 0 <= i < |xs| ==> HasType(xs[i], e)
    decreases e, |xs| + 1
  {
    if xs == [] then [] else EncodeValue(omitempty, e, xs[0], codec) + EncodeEach(omitempty, e, xs[1..], codec)
  }

  /** The scalar kinds `encodeValue` renders and `mapValue` reads back. */
  predicate Scalar(t: Ty) {
    t.TString? || t.TInt? || t.TUint? || t.TFloat? || t.TBool?
  }

  /**
    A scalar contributes at most one string, and none exactly when `omitempty`
    is set and the value is empty; a boolean is always written.
   */
  lemma EncodeScalar(omitempty: bool, t: Ty, x: Value, codec: FloatCodec)
    requires HasType(x, t) && Scalar(t)
    ensures |EncodeValue(omitempty, t, x, codec)| <= 1
    ensures EncodeValue(omitempty, t, x, codec) == [] <==> omitempty && IsEmpty(x)
    ensures t.TBool? ==> |EncodeValue(omitempty, t, x, codec)| == 1
  {
  }

  /** Without `omitempty`, a slice of scalars contributes exactly one string per element, in order. */
  lemma {:induction false} EncodeEachScalars(e: Ty, xs: seq<Value>, codec: FloatCodec)
    requires Scalar(e)
    requires forall i :: 0 <= i < |xs| ==> HasType(xs[i], e)
    ensures |EncodeEach(false, e, xs, codec)| == |xs|
    ensures forall i :: 0 <= i < |xs| ==> [EncodeEach(false, e, xs, codec)[i]] == EncodeValue(false, e, xs[i], codec)
    decreases |xs|
  {
    if xs != [] {
      var tail := EncodeEach(false, e, xs[1..], codec);
      EncodeEachScalars(e, xs[1..], codec);
      var h := EncodeValue(false, e, xs[0], codec);
      EncodeScalar(false, e, xs[0], codec);
      assert |h| == 1;
      var r := EncodeEach(false, e, xs, codec);
      assert r == h + tail;
      SingleThen(h, tail);
      forall i | 1 <= i < |xs|
        ensures [r[i]] == EncodeValue(false, e, xs[i], codec)
      {
        assert xs[i] == xs[1..][i - 1];
        assert r[i] == tail[i - 1];
      }
    }
  }

  /** Indexing a one-element sequence followed by another. */
  lemma SingleThen<T>(h: seq<T>, t: seq<T>)
    requires |h| == 1
    ensures |h + t| == 1 + |t| && h == [(h + t)[0]]
    ensures forall i :: 1 <= i < |h + t| ==> (h + t)[i] == t[i - 1]
  {
  }

  /** Reading back a rendered scalar gives the value: decimal integers and booleans, and a float the codec reads back. */
  lemma MapValueEncoded(omitempty: bool, t: Ty, x: Value, decoder: Option<Decoder>, codec: FloatCodec)
    requires HasType(x, t) && Scalar(t)
    requires FloatsReadBack(codec, t, x)
    requires EncodeValue(omitempty, t, x, codec) != []
    ensures MapValue(t, decoder, codec, EncodeValue(omitempty, t, x, codec)[0]) == Ok(x)
  {
    match t
    case TString =>
    case TInt(k) =>
      ParseFormatInt(x.i, IntBitSize(k));
    case TUint(k) =>
      ParseFormatUint(x.u, UintBitSize(k));
    case TFloat(k) =>
      assert FloatReads(codec, x.f, FloatBits(k));
    case TBool =>
      ParseFormatBool(x.b);
  }

  /**
    The field-level round trip: what `encodeValue` writes for a scalar field,
    or for a slice of scalars without `omitempty`, `mapValues` reads back as
    the same value, provided something was written.
   */
  lemma MapValuesEncoded(omitempty: bool, t: Ty, x: Value, decoder: Option<Decoder>, codec: FloatCodec)
    requires HasType(x, t)
    requires Scalar(t) || (t.TSlice? && Scalar(t.elem) && !omitempty)
    requires FloatsReadBack(codec, t, x)
    requires EncodeValue(omitempty, t, x, codec) != []
    ensures MapValues(t, decoder, codec, EncodeValue(omitempty, t, x, codec)) == Ok(x)
  {
    var vals := EncodeValue(omitempty, t, x, codec);
    if t.TSlice? {
      EncodeEachScalars(t.elem, x.elems, codec);
      forall i | 0 <= i < |vals|
        ensures MapValue(t.elem, decoder, codec, vals[i]) == Ok(x.elems[i])
      {
        assert EncodeValue(false, t.elem, x.elems[i], codec) == [vals[i]];
        assert FloatsReadBack(codec, t.elem, x.elems[i]);
        MapValueEncoded(false, t.elem, x.elems[i], decoder, codec);
      }
      var r := MapValues(t, decoder, codec, vals);
      assert FirstFailure(t.elem, decoder, codec, vals) == |vals|;
      assert r.value.elems == x.elems;
    } else {
      MapValueEncoded(omitempty, t, x, decoder, codec);
    }
  }
}

=== FILE: encoder.dfy ===
/**
  `Encode`: the inverse of `Bind`. Every descriptor's field is reached (with
  the same allocating walk) and rendered by `encodeValue`, its strings added
  under the descriptor's name.
 */
module Encoder {
  import opened Results
  import opened Types
  import opened Access
  import opened Schema
  import opened Cache
  import opened Coerce
  import opened Binder

  /** `url.Values.Add` of each string in turn: appended under `key`, which no string leaves absent. */
  function AddAll(values: Form, key: string, ss: seq<string>): (r: Form)
    ensures ss == [] ==> r == values
    ensures ss != [] ==> key in r && r[key] == (if key in values then values[key] else []) + ss
    ensures forall k :: k != key ==> (k in r <==> k in values) && (k in values ==> r[k] == values[k])
  {
    if ss == [] then values else values[key := (if key in values then values[key] else []) + ss]
  }

  /** The strings `encodeValue` writes for the field `d` of `v`. */
  function Rendered(root: Ty, v: Value, d: FieldDescriptor, codec: FloatCodec): seq<string>
    requires HasType(v, root) && FieldTypeAt(root, d.index).Some?
  {
    ReachTyped(root, v, d.index);
    EncodeValue(d.omitempty, FieldTypeAt(root, d.index).value, Reach(root, v, d.index), codec)
  }

  predicate AllResolve(root: Ty, fs: seq<FieldDescriptor>) {
    forall k :: 0 <= k < |fs| ==> FieldTypeAt(root, fs[k].index).Some?
  }

  /** The loop of `Encode`: reach each field, allocating on the way, and add what it renders. */
  function EncodeFields(root: Ty, v: Value, fs: seq<FieldDescriptor>, values: Form, codec: FloatCodec): (r: (Value, Form))
    requires HasType(v, root) && AllResolve(root, fs)
    ensures HasType(r.0, root)
    decreases |fs|
  {
    if fs == [] then (v, values)
    else
      var d := fs[0];
      var v' := Update(root, v, d.index, Id);
      ReachTyped(root, v, d.index);
      UpdateTyped(root, v, d.index, Id);
      EncodeFields(root, v', fs[1..], AddAll(values, d.tag, Rendered(root, v', d, codec)), codec)
  }

  /** One turn of `Encode`'s loop, for the induction: what the rest of the loop starts from. */
  lemma EncodeTurn(root: Ty, v: Value, fs: seq<FieldDescriptor>, values: Form, codec: FloatCodec)
    requires HasType(v, root) && AllResolve(root, fs) && fs != []
    requires DistinctTags(fs) && DisjointPaths(fs)
    requires forall k :: 0 <= k < |fs| ==> fs[k].tag !in values
    ensures HasType(Update(root, v, fs[0].index, Id), root)
    ensures Rendered(root, Update(root, v, fs[0].index, Id), fs[0], codec) == Rendered(root, v, fs[0], codec)
    ensures DistinctTags(fs[1..]) && DisjointPaths(fs[1..]) && !HasTag(fs[1..], fs[0].tag)
    ensures forall k :: 0 <= k < |fs| - 1 ==>
      && fs[1..][k].tag !in AddAll(values, fs[0].tag, Rendered(root, v, fs[0], codec))
      && Rendered(root, Update(root, v, fs[0].index, Id), fs[1..][k], codec) == Rendered(root, v, fs[1..][k], codec)
    ensures EncodeFields(root, v, fs, values, codec)
         == EncodeFields(root, Update(root, v, fs[0].index, Id), fs[1..], AddAll(values, fs[0].tag, Rendered(root, v, fs[0], codec)), codec)
  {
    var d := fs[0];
    var rest := fs[1..];
    ReachTyped(root, v, d.index);
    UpdateTyped(root, v, d.index, Id);
    ReachUpdate(root, v, d.index, Id);
    TailDisjoint(fs);
    forall k | 0 <= k < |rest|
      ensures rest[k].tag != d.tag
      ensures Reach(root, Update(root, v, d.index, Id), rest[k].index) == Reach(root, v, rest[k].index)
    {
      assert rest[k] == fs[k + 1];
      ReachFrame(root, v, d.index, Id, rest[k].index);
    }
  }

  /**
    The form `Encode`'s loop builds: each descriptor that renders something
    has exactly its strings under its name, one that renders nothing adds no
    name, and names of no descriptor keep what they had.
   */
  lemma {:induction false} EncodeFieldsValues(root: Ty, v: Value, fs: seq<FieldDescriptor>, values: Form, codec: FloatCodec)
    requires HasType(v, root) && AllResolve(root, fs)
    requires DistinctTags(fs) && DisjointPaths(fs)
    requires forall k :: 0 <= k < |fs| ==> fs[k].tag !in values
    ensures forall k :: 0 <= k < |fs| && Rendered(root, v, fs[k], codec) != [] ==>
      fs[k].tag in EncodeFields(root, v, fs, values, codec).1
      && EncodeFields(root, v, fs, values, codec).1[fs[k].tag] == Rendered(root, v, fs[k], codec)
    ensures forall k :: 0 <= k < |fs| && Rendered(root, v, fs[k], codec) == [] ==>
      fs[k].tag !in EncodeFields(root, v, fs, values, codec).1
    ensures forall key :: !HasTag(fs, key) ==>
      && (key in EncodeFields(root, v, fs, values, codec).1 <==> key in values)
      && (key in values ==> EncodeFields(root, v, fs, values, codec).1[key] == values[key])
    decreases |fs|
  {
    EncodeFieldsOthers(root, v, fs, values, codec);
    if fs != [] {
      var d := fs[0];
      var rest := fs[1..];
      EncodeTurn(root, v, fs, values, codec);
      var v' := Update(root, v, d.index, Id);
      var values' := AddAll(values, d.tag, Rendered(root, v, d, codec));
      EncodeFieldsValues(root, v', rest, values', codec);
      var r := EncodeFields(root, v, fs, values, codec).1;
      assert r == EncodeFields(root, v', rest, values', codec).1;
      forall k | 1 <= k < |fs|
        ensures Rendered(root, v, fs[k], codec) != [] ==> fs[k].tag in r && r[fs[k].tag] == Rendered(root, v, fs[k], codec)
        ensures Rendered(root, v, fs[k], codec) == [] ==> fs[k].tag !in r
      {
        assert fs[k] == rest[k - 1];
      }
    }
  }

  /** Names no descriptor carries keep exactly what they had before the loop. */
  lemma {:induction false} EncodeFieldsOthers(root: Ty, v: Value, fs: seq<FieldDescriptor>, values: Form, codec: FloatCodec)
    requires HasType(v, root) && AllResolve(root, fs)
    ensures forall key :: !HasTag(fs, key) ==>
      && (key in EncodeFields(root, v, fs, values, codec).1 <==> key in values)
      && (key in values ==> EncodeFields(root, v, fs, values, codec).1[key] == values[key])
    decreases |fs|
  {
    if fs != [] {
      var d := fs[0];
      ReachTyped(root, v, d.index);
      UpdateTyped(root, v, d.index, Id);
      var v' := Update(root, v, d.index, Id);
      EncodeFieldsOthers(root, v', fs[1..], AddAll(values, d.tag, Rendered(root, v', d, codec)), codec);
      NoTagTail(fs);
    }
  }

  /** A name no descriptor carries is carried neither by the first nor by the rest. */
  lemma NoTagTail(fs: seq<FieldDescriptor>)
    requires fs != []
    ensures forall key :: !HasTag(fs, key) ==> !HasTag(fs[1..], key) && key != fs[0].tag
  {
    forall key | !HasTag(fs, key)
      ensures !HasTag(fs[1..], key) && key != fs[0].tag
    {
      forall k | 0 <= k < |fs| - 1
        ensures fs[1..][k].tag != key
      {
        assert fs[1..][k] == fs[k + 1];
      }
    }
  }

  /** `Encode`'s walks allocate, but every descriptor's field reads as before. */
  lemma {:induction false} EncodeFieldsKeeps(root: Ty, v: Value, fs: seq<FieldDescriptor>, values: Form, codec: FloatCodec)
    requires HasType(v, root) && AllResolve(root, fs)
    requires DisjointPaths(fs)
    ensures forall k :: 0 <= k < |fs| ==> Reach(root, EncodeFields(root, v, fs, values, codec).0, fs[k].index) == Reach(root, v, fs[k].index)
    decreases |fs|
  {
    if fs != [] {
      var d := fs[0];
      var rest := fs[1..];
      ReachTyped(root, v, d.index);
      UpdateTyped(root, v, d.index, Id);
      ReachUpdate(root, v, d.index, Id);
      var v' := Update(root, v, d.index, Id);
      var values' := AddAll(values, d.tag, Rendered(root, v', d, codec));
      TailDisjoint(fs);
      EncodeFieldsKeeps(root, v', rest, values', codec);
      EncodeFrame(root, v', rest, values', codec, d.index);
      forall k | 1 <= k < |fs|
        ensures Reach(root, EncodeFields(root, v, fs, values, codec).0, fs[k].index) == Reach(root, v, fs[k].index)
      {
        assert fs[k] == rest[k - 1];
        ReachFrame(root, v, d.index, Id, fs[k].index);
      }
    }
  }

  /** The allocating walks of `Encode` leave every field off the descriptors' paths reading as before. */
  lemma {:induction false} EncodeFrame(root: Ty, v: Value, fs: seq<FieldDescriptor>, values: Form, codec: FloatCodec, q: seq<nat>)
    requires HasType(v, root) && AllResolve(root, fs)
    requires FieldTypeAt(root, q).Some?
    requires forall k :: 0 <= k < |fs| ==> Disjoint(fs[k].index, q)
    ensures Reach(root, EncodeFields(root, v, fs, values, codec).0, q) == Reach(root, v, q)
    decreases |fs|
  {
    if fs != [] {
      var d := fs[0];
      ReachTyped(root, v, d.index);
      UpdateTyped(root, v, d.index, Id);
      var v' := Update(root, v, d.index, Id);
      ReachFrame(root, v, d.index, Id, q);
      EncodeFrame(root, v', fs[1..], AddAll(values, d.tag, Rendered(root, v', d, codec)), codec, q);
    }
  }

  /**
    What `Encode` needs beyond a non-nil root: the type it reaches is a struct
    whose walk only meets structs; when the root is not a pointer (so its
    fields cannot be assigned), no walk to a field has a nil pointer to
    allocate; and no walk allocates a pointer reached through an unexported
    field, which `reflect` refuses to set.
   */
  predicate Encodable(m: Mapper, t: Ty, v: Value) {
    && (Base(t) !in m.structs ==> Flattenable(Decide(m.tag), Base(t)))
    && (!t.TPtr? ==> forall k :: 0 <= k < |Fields(m, t)| ==> Update(t, v, Fields(m, t)[k].index, Id) == v)
    && (forall k :: 0 <= k < |Fields(m, t)| ==> AllocatesSettable(Base(t), Pointed(t, v), Fields(m, t)[k].index, false))
  }

  datatype Encoded = Encoded(mapper: Mapper, value: Value, values: Form, err: Option<BindError>)

  /**
    `Mapper.Encode` of a value `v` of type `t`: a nil pointer is an error;
    otherwise every pointer level is allocated, the schema is taken from the
    cache (or built and cached), and each field is rendered into a fresh form.
   */
  function Encode(m: Mapper, t: Ty, v: Value, codec: FloatCodec): (r: Encoded)
    requires Valid(m) && HasType(v, t)
    requires !(t.TPtr? && v.target.None?) ==> Encodable(m, t, v)
    ensures Valid(r.mapper) && r.mapper.tag == m.tag && r.mapper.decoders == m.decoders
    ensures t.TPtr? && v.target.None? ==> r.err == Some(NilEncode) && r.value == v && r.values == map[]
    ensures !(t.TPtr? && v.target.None?) ==> r.err.None? && Base(t) in r.mapper.structs && r.mapper.structs[Base(t)].fields == Fields(m, t)
  {
    if t.TPtr? && v.target.None? then Encoded(m, v, map[], Some(NilEncode))
    else
      var (m', d) := Descriptor(m, Base(t));
      ParseValid(m, Base(t));
      ThroughTyped(t, v, Pointed(t, v));
      var (x, values) := EncodeFields(Base(t), Pointed(t, v), d.fields, map[], codec);
      Encoded(m', Through(t, v, x), values, None)
  }

  /**
    The form `Encode` returns, in terms of the value it was given: every
    descriptor that renders something has exactly its strings under its name,
    whatever the order of the descriptors.
   */
  lemma EncodeValues(m: Mapper, t: Ty, v: Value, codec: FloatCodec)
    requires Valid(m) && HasType(v, t) && !(t.TPtr? && v.target.None?) && Encodable(m, t, v)
    ensures HasType(Pointed(t, v), Base(t)) && AllResolve(Base(t), Fields(m, t))
    ensures forall k :: 0 <= k < |Fields(m, t)| && Rendered(Base(t), Pointed(t, v), Fields(m, t)[k], codec) != [] ==>
      Fields(m, t)[k].tag in Encode(m, t, v, codec).values
      && Encode(m, t, v, codec).values[Fields(m, t)[k].tag] == Rendered(Base(t), Pointed(t, v), Fields(m, t)[k], codec)
  {
    EncodeForm(m, t, v, codec);
    EncodeFieldsValues(Base(t), Pointed(t, v), Fields(m, t), map[], codec);
  }

  /** The form `Encode` returns is the one its loop builds over the pointed-to struct. */
  lemma EncodeForm(m: Mapper, t: Ty, v: Value, codec: FloatCodec)
    requires Valid(m) && HasType(v, t) && !(t.TPtr? && v.target.None?) && Encodable(m, t, v)
    ensures HasType(Pointed(t, v), Base(t)) && AllResolve(Base(t), Fields(m, t))
    ensures Encode(m, t, v, codec).values == FormOf(Base(t), Pointed(t, v), Fields(m, t), codec)
  {
    ParseValid(m, Base(t));
    ThroughTyped(t, v, Pointed(t, v));
    var d := Descriptor(m, Base(t)).1;
    assert d.fields == Fields(m, t);
    assert Encode(m, t, v, codec).values == EncodeFields(Base(t), Pointed(t, v), d.fields, map[], codec).1;
  }

  /** ... and the form holds no other name: each of its names is that of a descriptor that renders something. */
  lemma EncodeValuesOnly(m: Mapper, t: Ty, v: Value, codec: FloatCodec)
    requires Valid(m) && HasType(v, t) && !(t.TPtr? && v.target.None?) && Encodable(m, t, v)
    ensures HasType(Pointed(t, v), Base(t)) && AllResolve(Base(t), Fields(m, t))
    ensures forall key :: key in Encode(m, t, v, codec).values ==>
      exists k :: 0 <= k < |Fields(m, t)| && Fields(m, t)[k].tag == key && Rendered(Base(t), Pointed(t, v), Fields(m, t)[k], codec) != []
  {
    EncodeForm(m, t, v, codec);
    EncodeFieldsOnly(Base(t), Pointed(t, v), Fields(m, t), codec);
  }

  lemma EncodeFieldsOnly(root: Ty, v: Value, fs: seq<FieldDescriptor>, codec: FloatCodec)
    requires HasType(v, root) && AllResolve(root, fs)
    requires DistinctTags(fs) && DisjointPaths(fs)
    ensures forall key :: key in EncodeFields(root, v, fs, map[], codec).1 ==>
      exists k :: 0 <= k < |fs| && fs[k].tag == key && Rendered(root, v, fs[k], codec) != []
  {
    EncodeFieldsValues(root, v, fs, map[], codec);
    var values := EncodeFields(root, v, fs, map[], codec).1;
    forall key | key in values
      ensures exists k :: 0 <= k < |fs| && fs[k].tag == key && Rendered(root, v, fs[k], codec) != []
    {
      assert HasTag(fs, key);
      var k :| 0 <= k < |fs| && fs[k].tag == key;
      assert Rendered(root, v, fs[k], codec) != [];
    }
  }

  /** `Encode` allocates nil pointers on its walks but changes no descriptor's field. */
  lemma EncodeKeepsFields(m: Mapper, t: Ty, v: Value, codec: FloatCodec)
    requires Valid(m) && HasType(v, t) && !(t.TPtr? && v.target.None?) && Encodable(m, t, v)
    ensures HasType(Encode(m, t, v, codec).value, t)
    ensures forall k :: 0 <= k < |Fields(m, t)| ==>
      Reach(Base(t), Pointed(t, Encode(m, t, v, codec).value), Fields(m, t)[k].index) == Reach(Base(t), Pointed(t, v), Fields(m, t)[k].index)
  {
    ParseValid(m, Base(t));
    ThroughTyped(t, v, Pointed(t, v));
    var x := EncodeFields(Base(t), Pointed(t, v), Fields(m, t), map[], codec).0;
    assert Descriptor(m, Base(t)).1.fields == Fields(m, t);
    assert Encode(m, t, v, codec).value == Through(t, v, x);
    ThroughTyped(t, v, x);
    EncodeFieldsKeeps(Base(t), Pointed(t, v), Fields(m, t), map[], codec);
  }

  // ---------------------------------------------------------------- round trip

  /** The form `Encode`'s loop builds from `v`. */
  function FormOf(root: Ty, v: Value, fs: seq<FieldDescriptor>, codec: FloatCodec): Form
    requires HasType(v, root) && AllResolve(root, fs)
  {
    EncodeFields(root, v, fs, map[], codec).1
  }

  /** The fields `mapValues` reads back exactly as `encodeValue` writes them. */
  predicate RoundTrips(t: Ty, omitempty: bool) {
    Scalar(t) || (t.TSlice? && Scalar(t.elem) && !omitempty)
  }

  /**
    Descriptor `d` gets `v`'s field back from the form: its kind round-trips,
    any float it renders reads back, and it rendered something (a field
    `omitempty` dropped is absent from the form, so binding keeps the old value).
   */
  predicate Recovers(root: Ty, v: Value, d: FieldDescriptor, codec: FloatCodec)
    requires HasType(v, root) && FieldTypeAt(root, d.index).Some?
  {
    && RoundTrips(FieldTypeAt(root, d.index).value, d.omitempty)
    && FloatsReadBack(codec, FieldTypeAt(root, d.index).value, Reach(root, v, d.index))
    && Rendered(root, v, d, codec) != []
  }

  /** A string, integer or boolean field without `omitempty` always renders, and renders no float, so it recovers. */
  lemma PlainScalarRecovers(root: Ty, v: Value, d: FieldDescriptor, codec: FloatCodec)
    requires HasType(v, root) && FieldTypeAt(root, d.index).Some?
    requires Scalar(FieldTypeAt(root, d.index).value) && !FieldTypeAt(root, d.index).value.TFloat?
    requires !d.omitempty
    ensures Recovers(root, v, d, codec)
  {
    ReachTyped(root, v, d.index);
    EncodeScalar(false, FieldTypeAt(root, d.index).value, Reach(root, v, d.index), codec);
  }

  /** A form `Encode` built hands every descriptor a non-empty list or none, so `Bind` can take it. */
  lemma EncodedFormFits(root: Ty, v: Value, fs: seq<FieldDescriptor>, codec: FloatCodec)
    requires HasType(v, root) && PathsOk(root, fs)
    ensures AllFit(root, fs, FormOf(root, v, fs, codec))
    ensures forall k :: 0 <= k < |fs| && Rendered(root, v, fs[k], codec) != [] ==>
      Values(FormOf(root, v, fs, codec), fs[k]) == Some(Rendered(root, v, fs[k], codec))
  {
    var src := FormOf(root, v, fs, codec);
    EncodeFieldsValues(root, v, fs, map[], codec);
    EncodeFieldsOnly(root, v, fs, codec);
    forall k | 0 <= k < |fs|
      ensures Fits(root, fs[k], src)
    {
      if fs[k].tag in src {
        var j :| 0 <= j < |fs| && fs[j].tag == fs[k].tag && Rendered(root, v, fs[j], codec) != [];
        assert j == k;
      }
    }
  }

  /** For one round-tripping field that rendered something, coercing the encoded form gives back its value. */
  lemma RoundTripOutcome(root: Ty, v: Value, fs: seq<FieldDescriptor>, k: nat, codec: FloatCodec)
    requires HasType(v, root) && PathsOk(root, fs)
    requires k < |fs| && Recovers(root, v, fs[k], codec)
    ensures AllFit(root, fs, FormOf(root, v, fs, codec))
    ensures Outcome(root, fs[k], FormOf(root, v, fs, codec), codec) == Some(Ok(Reach(root, v, fs[k].index)))
  {
    var ft := FieldTypeAt(root, fs[k].index).value;
    var x := Reach(root, v, fs[k].index);
    ReachTyped(root, v, fs[k].index);
    EncodedFormFits(root, v, fs, codec);
    var vals := EncodeValue(fs[k].omitempty, ft, x, codec);
    assert Values(FormOf(root, v, fs, codec), fs[k]) == Some(vals);
    MapValuesEncoded(fs[k].omitempty, ft, x, fs[k].decoder, codec);
    assert MapValues(ft, fs[k].decoder, codec, vals) == Ok(x);
  }

  /**
    Binding a form `Encode` built never fails on a round-tripping field that
    rendered something: only defaults and other kinds can stop the loop.
   */
  lemma EncodedFieldsBind(root: Ty, v: Value, fs: seq<FieldDescriptor>, codec: FloatCodec)
    requires HasType(v, root) && PathsOk(root, fs)
    ensures AllFit(root, fs, FormOf(root, v, fs, codec))
    ensures forall k :: 0 <= k < |fs| && Recovers(root, v, fs[k], codec) ==>
      !Fails(root, fs[k], FormOf(root, v, fs, codec), codec)
  {
    EncodedFormFits(root, v, fs, codec);
    forall k | 0 <= k < |fs| && Recovers(root, v, fs[k], codec)
      ensures !Fails(root, fs[k], FormOf(root, v, fs, codec), codec)
    {
      RoundTripOutcome(root, v, fs, k, codec);
    }
  }

  /**
    `Bind` reads back what `Encode` wrote: binding the form encoded from `v`
    into any value `w` of the same struct type leaves every round-tripping
    field that rendered something equal to the field of `v`, unless an
    earlier field's coercion stopped the loop first.
   */
  lemma EncodeBindRoundTrip(root: Ty, v: Value, w: Value, fs: seq<FieldDescriptor>, codec: FloatCodec)
    requires HasType(v, root) && HasType(w, root) && PathsOk(root, fs)
    requires DecodersTyped(root, fs)
    ensures AllFit(root, fs, FormOf(root, v, fs, codec))
    ensures forall k :: 0 <= k < FirstError(root, fs, FormOf(root, v, fs, codec), codec)
                        && Recovers(root, v, fs[k], codec) ==>
      Reach(root, BindFields(root, w, fs, FormOf(root, v, fs, codec), codec).0, fs[k].index) == Reach(root, v, fs[k].index)
  {
    EncodedFormFits(root, v, fs, codec);
    forall k | 0 <= k < FirstError(root, fs, FormOf(root, v, fs, codec), codec) && Recovers(root, v, fs[k], codec)
      ensures Reach(root, BindFields(root, w, fs, FormOf(root, v, fs, codec), codec).0, fs[k].index) == Reach(root, v, fs[k].index)
    {
      FieldRestored(root, v, w, fs, k, codec);
    }
  }

  /** One step of `EncodeBindRoundTrip`: a recovering field before the first failure reads back as encoded. */
  lemma FieldRestored(root: Ty, v: Value, w: Value, fs: seq<FieldDescriptor>, k: nat, codec: FloatCodec)
    requires HasType(v, root) && HasType(w, root) && PathsOk(root, fs)
    requires DecodersTyped(root, fs) && AllFit(root, fs, FormOf(root, v, fs, codec))
    requires k < FirstError(root, fs, FormOf(root, v, fs, codec), codec) && Recovers(root, v, fs[k], codec)
    ensures Reach(root, BindFields(root, w, fs, FormOf(root, v, fs, codec), codec).0, fs[k].index) == Reach(root, v, fs[k].index)
  {
    var src := FormOf(root, v, fs, codec);
    BindFieldsReads(root, w, fs, src, codec);
    RoundTripOutcome(root, v, fs, k, codec);
    assert Reach(root, BindFields(root, w, fs, src, codec).0, fs[k].index) == Expected(root, w, fs[k], src, codec);
  }

  /**
    When every field recovers, binding the encoded form into any value of the
    same type succeeds and gives back every field: `Bind` inverts `Encode`.
   */
  lemma EncodeBindInverse(root: Ty, v: Value, w: Value, fs: seq<FieldDescriptor>, codec: FloatCodec)
    requires HasType(v, root) && HasType(w, root) && PathsOk(root, fs)
    requires DecodersTyped(root, fs)
    requires forall k :: 0 <= k < |fs| ==> Recovers(root, v, fs[k], codec)
    ensures AllFit(root, fs, FormOf(root, v, fs, codec))
    ensures BindFields(root, w, fs, FormOf(root, v, fs, codec), codec).1 == None
    ensures HasType(BindFields(root, w, fs, FormOf(root, v, fs, codec), codec).0, root)
    ensures forall k :: 0 <= k < |fs| ==>
      Reach(root, BindFields(root, w, fs, FormOf(root, v, fs, codec), codec).0, fs[k].index) == Reach(root, v, fs[k].index)
  {
    var src := FormOf(root, v, fs, codec);
    EncodedFieldsBind(root, v, fs, codec);
    assert FirstError(root, fs, src, codec) == |fs|;
    BindFieldsError(root, w, fs, src, codec);
    BindFieldsReads(root, w, fs, src, codec);
    EncodeBindRoundTrip(root, v, w, fs, codec);
  }
}

=== FILE: results.dfy ===
/** Failure-carrying wrappers shared by every module of the binder model. */
module Results {

  /** A value that may be missing (Go's nil). */
  datatype Option<+T> = None | Some(value: T)

  /** The `(value, error)` pair returned by Go functions: exactly one side is meaningful. */
  datatype Result<+T, +E> = Ok(value: T) | Err(error: E)
}

=== FILE: scenarios.dfy ===
/**
  The package's own test cases, stated over the model: a flat struct with a
  defaulted integer, the same struct embedded in another, and pointer fields
  bound through a registered decoder.
 */
module Scenarios {
  import opened Results
  import opened Types
  import opened Text
  import opened Tags
  import opened Access
  import opened Schema
  import opened Cache
  import opened Coerce
  import opened Binder
  import opened Encoder
  import opened Strconv

  function Tag(t: string): map<string, string> {
    map[FormTag := t]
  }

  /** `Human`: name, an `int` age defaulting to 20, birthday. */
  const Human: Ty := TStruct("Human", [
    FieldDecl("Name", TString, Tag("name"), true, false),
    FieldDecl("Age", TInt(Int), Tag("age,default=20"), true, false),
    FieldDecl("Birthday", TString, Tag("birthday"), true, false)])

  /** Character-level facts about `Human`'s tags. */
  lemma HumanLiterals()
    ensures forall i :: 0 <= i < |"name"| ==> "name"[i] != ','
    ensures forall i :: 0 <= i < |"birthday"| ==> "birthday"[i] != ','
    ensures "age,default=20"[3] == ',' && forall i :: 0 <= i < 3 ==> "age,default=20"[i] != ','
    ensures "age,default=20"[..3] == "age" && "age,default=20"[4..] == "default=20"
    ensures SpellsDefault("default=20", "20")
  {
  }

  lemma AgeTag()
    ensures ParseTag("age,default=20") == Use("age", Options(["20"], false))
  {
    HumanLiterals();
    HeadAtChar("age,default=20", ',', 3);
    SingleDefault("default=20", "20");
  }

  lemma HumanTags()
    ensures Classify(FormTag, Human.fields[0]) == Describe("name", NoOptions)
    ensures Classify(FormTag, Human.fields[1]) == Describe("age", Options(["20"], false))
    ensures Classify(FormTag, Human.fields[2]) == Describe("birthday", NoOptions)
  {
    HumanLiterals();
    CharAbsent("name", ',');
    CharAbsent("birthday", ',');
    AgeTag();
    assert ParseTag("name") == Use("name", NoOptions);
    assert ParseTag("birthday") == Use("birthday", NoOptions);
  }

  /** The schema Go builds for `Human`: one descriptor per field, in declaration order. */
  const HumanFields: seq<FieldDescriptor> := [
    FieldDescriptor([0], "name", [], false, None),
    FieldDescriptor([1], "age", ["20"], false, None),
    FieldDescriptor([2], "birthday", [], false, None)]

  /** The descriptors of a `Human` reached at index prefix `p`. */
  function HumanAt(p: seq<nat>): seq<FieldDescriptor> {
    [FieldDescriptor(p + [0], "name", [], false, None),
     FieldDescriptor(p + [1], "age", ["20"], false, None),
     FieldDescriptor(p + [2], "birthday", [], false, None)]
  }

  lemma HumanMembers(p: seq<nat>)
    ensures ChildrenFrom(Decide(FormTag), QueueItem(Human, p), 0) == []
    ensures CandidatesFrom(Decide(FormTag), map[], QueueItem(Human, p), 0) == HumanAt(p)
  {
    HumanTags();
    var cls := Decide(FormTag);
    var item := QueueItem(Human, p);
    var h := HumanAt(p);
    assert Members(item.ty) == Human.fields;
    assert CandidatesFrom(cls, map[], item, 3) == [] && ChildrenFrom(cls, item, 3) == [];
    DescribedStep(cls, map[], item, 2, "birthday", NoOptions);
    assert MakeDescriptor(map[], Human.fields[2], p + [2], "birthday", NoOptions) == h[2];
    assert CandidatesFrom(cls, map[], item, 2) == [h[2]];
    DescribedStep(cls, map[], item, 1, "age", Options(["20"], false));
    assert MakeDescriptor(map[], Human.fields[1], p + [1], "age", Options(["20"], false)) == h[1];
    Cons(h[1], [h[2]]);
    assert CandidatesFrom(cls, map[], item, 1) == [h[1], h[2]];
    DescribedStep(cls, map[], item, 0, "name", NoOptions);
    assert MakeDescriptor(map[], Human.fields[0], p + [0], "name", NoOptions) == h[0];
    Cons(h[0], [h[1], h[2]]);
    assert CandidatesFrom(cls, map[], item, 0) == [h[0], h[1], h[2]];
  }

  /** Prepending one element to a short display. */
  lemma Cons<T>(x: T, s: seq<T>)
    ensures |s| == 1 ==> [x] + s == [x, s[0]]
    ensures |s| == 2 ==> [x] + s == [x, s[0], s[1]]
  {
  }

  /** Three distinct names pass deduplication untouched. */
  lemma HumanDedup()
    ensures DedupInto([], HumanFields) == HumanFields
  {
    var h := HumanFields;
    assert !HasTag([], h[0].tag);
    assert !HasTag([h[0]], h[1].tag);
    assert !HasTag([h[0], h[1]], h[2].tag);
    assert h[1..][1..] == [h[2]] && h[1..][0] == h[1];
    assert DedupInto([h[0], h[1], h[2]], []) == h;
    assert [h[0], h[1]] + [h[2]] == h && [h[0]] + [h[1]] == [h[0], h[1]] && [] + [h[0]] == [h[0]];
    assert DedupInto([h[0], h[1]], [h[2]]) == h;
    assert DedupInto([h[0]], h[1..]) == h;
  }

  lemma HumanSchema()
    ensures BuildFields(FormTag, map[], Human) == HumanFields
  {
    HumanMembers([]);
    assert [] + [0] == [0] && [] + [1] == [1] && [] + [2] == [2];
    assert HumanAt([]) == HumanFields;
    FlatStream(Decide(FormTag), map[], QueueItem(Human, []));
    HumanDedup();
  }

  /** A `Human` form: one name, one birthday, and an age value or no `age` key at all. */
  function HumanForm(name: string, age: Option<string>, birthday: string): Form {
    var base := map["name" := [name], "birthday" := [birthday]];
    if age.Some? then base["age" := [age.value]] else base
  }

  /** One turn of the field loop stores the single form value of a string or int field of `Human`. */
  lemma HumanTurn(v: Value, k: nat, src: Form, codec: FloatCodec, x: Value)
    requires v.VStruct? && |v.fields| == 3 && k < 3
    requires Fits(Human, HumanFields[k], src)
    requires Outcome(Human, HumanFields[k], src, codec) == Some(Ok(x))
    ensures ApplyField(Human, v, HumanFields[k], src, codec) == (VStruct(v.fields[k := x]), None)
  {
    assert HumanFields[k].index == [k];
    assert Walkable(Human, v, [k]);
  }

  /** A zero `Human`. */
  lemma HumanZero()
    ensures Zero(Human) == VStruct([VString(""), VInt(0), VString("")])
  {
    var z := Zero(Human);
    assert z.fields[0] == Zero(TString);
    assert z.fields[1] == Zero(TInt(Int));
    assert z.fields[2] == Zero(TString);
  }

  /** A turn that stores without error hands the next turn the updated value. */
  lemma BindTurn(root: Ty, v: Value, fs: seq<FieldDescriptor>, src: Form, codec: FloatCodec, w: Value)
    requires fs != [] && AllFit(root, fs, src)
    requires ApplyField(root, v, fs[0], src, codec) == (w, None)
    ensures BindFields(root, v, fs, src, codec) == BindFields(root, w, fs[1..], src, codec)
  {
  }

  /** The name and birthday descriptors read their single value unchanged. */
  lemma HumanTextOutcomes(name: string, age: Option<string>, birthday: string, codec: FloatCodec)
    ensures Fits(Human, HumanFields[0], HumanForm(name, age, birthday))
    ensures Fits(Human, HumanFields[2], HumanForm(name, age, birthday))
    ensures Outcome(Human, HumanFields[0], HumanForm(name, age, birthday), codec) == Some(Ok(VString(name)))
    ensures Outcome(Human, HumanFields[2], HumanForm(name, age, birthday), codec) == Some(Ok(VString(birthday)))
  {
    var src := HumanForm(name, age, birthday);
    assert FieldTypeAt(Human, [0]) == Some(TString);
    assert FieldTypeAt(Human, [2]) == Some(TString);
    assert src["name"] == [name] && src["birthday"] == [birthday];
  }

  /** The default "20" parses as the `int` 20. */
  lemma DefaultAge()
    ensures MapInt(Int, "20") == Ok(VInt(20))
  {
    AgeLiterals();
    SmallAge("20", 20);
  }

  /** The age descriptor parses the value sent, or its default "20" when no `age` key is sent. */
  lemma HumanAgeOutcome(name: string, age: Option<string>, birthday: string, codec: FloatCodec)
    requires age.Some? ==> MapInt(Int, age.value).Ok?
    ensures Fits(Human, HumanFields[1], HumanForm(name, age, birthday))
    ensures Outcome(Human, HumanFields[1], HumanForm(name, age, birthday), codec)
      == Some(Ok(if age.Some? then MapInt(Int, age.value).value else VInt(20)))
  {
    var src := HumanForm(name, age, birthday);
    var a := if age.Some? then age.value else "20";
    DefaultAge();
    assert Values(src, HumanFields[1]) == Some([a]);
    AgeFieldOutcome(src, a, codec);
  }

  /** The age descriptor coerces its one string with `mapInt` at `int` width. */
  lemma AgeFieldOutcome(src: Form, a: string, codec: FloatCodec)
    requires Values(src, HumanFields[1]) == Some([a])
    ensures Fits(Human, HumanFields[1], src)
    ensures Outcome(Human, HumanFields[1], src, codec) == Some(MapInt(Int, a))
  {
    var d := HumanFields[1];
    assert d.index == [1] && d.decoder.None?;
    assert FieldTypeAt(Human, d.index) == Some(TInt(Int));
    assert Fits(Human, d, src);
    assert MapValues(TInt(Int), None, codec, [a]) == MapValue(TInt(Int), None, codec, a) == MapInt(Int, a);
  }

  /** The last turn: the birthday descriptor stores into a `Human` whose first two fields are set. */
  lemma HumanStoresLast(src: Form, codec: FloatCodec, x0: Value, x1: Value, x2: Value)
    requires Fits(Human, HumanFields[2], src)
    requires Outcome(Human, HumanFields[2], src, codec) == Some(Ok(x2))
    ensures AllFit(Human, HumanFields[2..], src)
    ensures BindFields(Human, VStruct([x0, x1, VString("")]), HumanFields[2..], src, codec) == (VStruct([x0, x1, x2]), None)
  {
    var v2 := VStruct([x0, x1, VString("")]);
    var v3 := VStruct([x0, x1, x2]);
    var t := HumanFields[2..];
    assert t == [HumanFields[2]] && t[1..] == [];
    Set3(x0, x1, VString(""), x2);
    HumanTurn(v2, 2, src, codec, x2);
    BindTurn(Human, v2, t, src, codec, v3);
  }

  /** The age and birthday turns. */
  lemma HumanStoresTail(src: Form, codec: FloatCodec, x0: Value, x1: Value, x2: Value)
    requires Fits(Human, HumanFields[1], src) && Fits(Human, HumanFields[2], src)
    requires Outcome(Human, HumanFields[1], src, codec) == Some(Ok(x1))
    requires Outcome(Human, HumanFields[2], src, codec) == Some(Ok(x2))
    ensures AllFit(Human, HumanFields[1..], src)
    ensures BindFields(Human, VStruct([x0, VInt(0), VString("")]), HumanFields[1..], src, codec) == (VStruct([x0, x1, x2]), None)
  {
    HumanStoresLast(src, codec, x0, x1, x2);
    var v1 := VStruct([x0, VInt(0), VString("")]);
    var v2 := VStruct([x0, x1, VString("")]);
    var t := HumanFields[1..];
    assert t[0] == HumanFields[1] && t[1..] == HumanFields[2..];
    Set3(x0, VInt(0), VString(""), x1);
    HumanTurn(v1, 1, src, codec, x1);
    BindTurn(Human, v1, t, src, codec, v2);
  }

  /** When each of the three descriptors coerces to a value, the loop stores all three into a zero `Human`. */
  lemma HumanStores(src: Form, codec: FloatCodec, x0: Value, x1: Value, x2: Value)
    requires AllFit(Human, HumanFields, src)
    requires Outcome(Human, HumanFields[0], src, codec) == Some(Ok(x0))
    requires Outcome(Human, HumanFields[1], src, codec) == Some(Ok(x1))
    requires Outcome(Human, HumanFields[2], src, codec) == Some(Ok(x2))
    ensures BindFields(Human, Zero(Human), HumanFields, src, codec) == (VStruct([x0, x1, x2]), None)
  {
    HumanZero();
    HumanStoresTail(src, codec, x0, x1, x2);
    var v0 := Zero(Human);
    var v1 := VStruct([x0, VInt(0), VString("")]);
    Set3(VString(""), VInt(0), VString(""), x0);
    HumanTurn(v0, 0, src, codec, x0);
    BindTurn(Human, v0, HumanFields, src, codec, v1);
  }

  /**
    Binding a `Human` form into a zero `Human` fills all three fields: the
    name and birthday as sent, the age parsed when sent and 20 otherwise.
   */
  lemma HumanBinding(name: string, age: Option<string>, birthday: string, codec: FloatCodec)
    requires age.Some? ==> MapInt(Int, age.value).Ok?
    ensures AllFit(Human, HumanFields, HumanForm(name, age, birthday))
    ensures BindFields(Human, Zero(Human), HumanFields, HumanForm(name, age, birthday), codec)
      == (VStruct([VString(name), if age.Some? then MapInt(Int, age.value).value else VInt(20), VString(birthday)]), None)
  {
    HumanTextOutcomes(name, age, birthday, codec);
    HumanAgeOutcome(name, age, birthday, codec);
    var src := HumanForm(name, age, birthday);
    var x1 := if age.Some? then MapInt(Int, age.value).value else VInt(20);
    FitThree(Human, HumanFields, src);
    HumanStores(src, codec, VString(name), x1, VString(birthday));
  }

  /** Replacing one element of a three-element display. */
  lemma Set3<T>(a: T, b: T, c: T, x: T)
    ensures [a, b, c][0 := x] == [x, b, c]
    ensures [a, b, c][1 := x] == [a, x, c]
    ensures [a, b, c][2 := x] == [a, b, x]
  {
  }

  lemma FitThree(root: Ty, fs: seq<FieldDescriptor>, src: Form)
    requires |fs| == 3 && Fits(root, fs[0], src) && Fits(root, fs[1], src) && Fits(root, fs[2], src)
    ensures AllFit(root, fs, src)
  {
  }

  /** A struct none of whose fields is flattened meets no other struct in the walk. */
  lemma FlatStruct(cls: Classifier, t: Ty)
    requires t.TStruct?
    requires forall j :: 0 <= j < |t.fields| ==> !cls(t.fields[j]).Flatten?
    ensures Flattenable(cls, t)
  {
  }

  /** No field of `Human` is flattened, so its walk meets only `Human`. */
  lemma HumanFlattenable()
    ensures Flattenable(Decide(FormTag), Human)
  {
    var cls := Decide(FormTag);
    var fs := Human.fields;
    forall j | 0 <= j < |fs|
      ensures !cls(fs[j]).Flatten?
    {
      assert cls(fs[j]) == Classify(FormTag, fs[j]);
      ClassifyCases(FormTag, fs[j]);
    }
    FlatStruct(cls, Human);
  }

  /** The first `Bind` on a fresh mapper builds the `Human` schema and caches it. */
  lemma HumanParsed()
    ensures Descriptor(NewMapper(FormTag), Human)
      == (Mapper(FormTag, map[Human := StructDescriptor("Human", HumanFields)], map[]), StructDescriptor("Human", HumanFields))
  {
    HumanSchema();
    var m := NewMapper(FormTag);
    assert Build(m, Human) == StructDescriptor("Human", HumanFields);
  }

  /** Every `Human` field is exported, so binding into a `Human` makes no write `reflect` refuses. */
  lemma HumanWritable(v: Value, src: Form, codec: FloatCodec)
    requires AllFit(Human, HumanFields, src)
    ensures Writable(Human, v, HumanFields, src, codec)
  {
    forall k | 0 <= k < |HumanFields|
      ensures ExportedAlong(Human, HumanFields[k].index)
    {
      assert HumanFields[k].index == [k];
    }
    ExportedWritable(Human, v, HumanFields, src, codec);
  }

  /**
    `Bind(form, &dst)` with a fresh mapper on the `form` key and a zero
    `Human`: the schema is built and cached, no error is reported, and `dst`
    holds the name, the age (20 when none is sent) and the birthday.
   */
  lemma HumanBind(name: string, age: Option<string>, birthday: string, codec: FloatCodec)
    requires age.Some? ==> MapInt(Int, age.value).Ok?
    ensures Bindable(NewMapper(FormTag), TPtr(Human), HumanForm(name, age, birthday))
    ensures Writable(Base(TPtr(Human)), Pointed(TPtr(Human), VPtr(Some(Zero(Human)))), Fields(NewMapper(FormTag), TPtr(Human)), HumanForm(name, age, birthday), codec)
    ensures var r := Bind(NewMapper(FormTag), HumanForm(name, age, birthday), TPtr(Human), VPtr(Some(Zero(Human))), codec);
      && r.err.None?
      && r.mapper.structs == map[Human := StructDescriptor("Human", HumanFields)]
      && r.value == VPtr(Some(VStruct([VString(name), if age.Some? then MapInt(Int, age.value).value else VInt(20), VString(birthday)])))
  {
    HumanBindable(name, age, birthday, codec);
    HumanParsed();
    HumanBinding(name, age, birthday, codec);
    assert Pointed(TPtr(Human), VPtr(Some(Zero(Human)))) == Zero(Human);
  }

  /** The test's `Bind` calls into a fresh mapper meet its precondition. */
  lemma HumanBindable(name: string, age: Option<string>, birthday: string, codec: FloatCodec)
    requires age.Some? ==> MapInt(Int, age.value).Ok?
    ensures Bindable(NewMapper(FormTag), TPtr(Human), HumanForm(name, age, birthday))
    ensures Writable(Base(TPtr(Human)), Pointed(TPtr(Human), VPtr(Some(Zero(Human)))), Fields(NewMapper(FormTag), TPtr(Human)), HumanForm(name, age, birthday), codec)
  {
    HumanParsed();
    HumanFlattenable();
    HumanBinding(name, age, birthday, codec);
    assert Pointed(TPtr(Human), VPtr(Some(Zero(Human)))) == Zero(Human);
    assert Fields(NewMapper(FormTag), TPtr(Human)) == HumanFields;
    HumanWritable(Zero(Human), HumanForm(name, age, birthday), codec);
  }

  /** `Human`'s schema has the shape every built schema has. */
  lemma HumanPathsOk()
    ensures PathsOk(Human, HumanFields)
  {
    HumanSchema();
    BuildFieldsOk(FormTag, map[], Human);
  }

  /** Every `Human` field is a scalar without `omitempty`, so `Encode` renders each one and `Bind` can read it back. */
  lemma HumanRecovers(v: Value, codec: FloatCodec)
    requires HasType(v, Human)
    ensures PathsOk(Human, HumanFields) && DecodersTyped(Human, HumanFields)
    ensures forall k :: 0 <= k < |HumanFields| ==> Recovers(Human, v, HumanFields[k], codec)
  {
    HumanPathsOk();
    forall k | 0 <= k < |HumanFields|
      ensures Recovers(Human, v, HumanFields[k], codec)
    {
      assert FieldTypeAt(Human, HumanFields[k].index) == Some(if k == 1 then TInt(Int) else TString);
      PlainScalarRecovers(Human, v, HumanFields[k], codec);
    }
  }

  /** Two `Human` values whose three fields agree are equal. */
  lemma HumanFieldsDetermine(r: Value, v: Value)
    requires HasType(r, Human) && HasType(v, Human)
    requires forall k :: 0 <= k < |HumanFields| ==> Reach(Human, r, HumanFields[k].index) == Reach(Human, v, HumanFields[k].index)
    ensures r == v
  {
    assert Reach(Human, r, [0]) == Reach(Human, v, [0]) by { assert HumanFields[0].index == [0]; }
    assert Reach(Human, r, [1]) == Reach(Human, v, [1]) by { assert HumanFields[1].index == [1]; }
    assert Reach(Human, r, [2]) == Reach(Human, v, [2]) by { assert HumanFields[2].index == [2]; }
    HumanShape(r);
    HumanShape(v);
  }

  /**
    `Encode` then `Bind` on `Human`: binding the form encoded from any `Human`
    into any other `Human` succeeds and gives the first one back.
   */
  lemma HumanRoundTrip(v: Value, w: Value, codec: FloatCodec)
    requires HasType(v, Human) && HasType(w, Human)
    ensures AllFit(Human, HumanFields, FormOf(Human, v, HumanFields, codec))
    ensures BindFields(Human, w, HumanFields, FormOf(Human, v, HumanFields, codec), codec) == (v, None)
  {
    HumanRecovers(v, codec);
    EncodeBindInverse(Human, v, w, HumanFields, codec);
    HumanFieldsDetermine(BindFields(Human, w, HumanFields, FormOf(Human, v, HumanFields, codec), codec).0, v);
  }

  /** Small integers fit Go's 64-bit `int`. */
  lemma SmallInt(n: int)
    requires -32 <= n < 32
    ensures MinInt(IntBits(Int)) <= n < MaxIntExcl(IntBits(Int))
  {
    Pow2Monotone(5, 63);
    assert Pow2(5) == 32;
  }

  /** A small decimal, signed or not, parses as its value. */
  lemma SmallAge(s: string, n: int)
    requires s != "" && SignedShape(s) && SignedValue(s) == n && -32 <= n < 32
    ensures MapInt(Int, s) == Ok(VInt(n))
  {
    SmallInt(n);
  }

  /** The decimal readings of the ages the package's tests use. */
  lemma AgeLiterals()
    ensures SignedShape("10") && SignedValue("10") == 10
    ensures SignedShape("11") && SignedValue("11") == 11
    ensures SignedShape("0") && SignedValue("0") == 0
    ensures SignedShape("20") && SignedValue("20") == 20
    ensures SignedShape("-1") && SignedValue("-1") == -1
  {
    assert "10"[..1] == "1" && "11"[..1] == "1" && "20"[..1] == "2";
    assert "1"[..0] == "" && "0"[..0] == "" && "2"[..0] == "";
    assert "-1"[1..] == "1";
  }

  /**
    The ages the package's binding test sends: "10", "11", "0" and "-1" parse
    as themselves and "" reads as 0. With `HumanBind`, each form of that test
    leaves the `Human` it expects, and the form without `age` leaves 20.
   */
  lemma TestAges()
    ensures MapInt(Int, "10") == Ok(VInt(10))
    ensures MapInt(Int, "11") == Ok(VInt(11))
    ensures MapInt(Int, "0") == Ok(VInt(0))
    ensures MapInt(Int, "") == Ok(VInt(0))
    ensures MapInt(Int, "-1") == Ok(VInt(-1))
  {
    AgeLiterals();
    SmallAge("10", 10);
    SmallAge("11", 11);
    SmallAge("0", 0);
    SmallAge("-1", -1);
  }

  /** `Student`: an embedded `Human` with no tag, then a number and a class. */
  const Student: Ty := TStruct("Student", [
    FieldDecl("Human", Human, map[], true, true),
    FieldDecl("Number", TInt(Int64), Tag("number"), true, false),
    FieldDecl("Class", TString, Tag("class"), true, false)])

  /** Its schema: its own fields first, then the embedded `Human`'s, one level down. */
  const StudentFields: seq<FieldDescriptor> := [
    FieldDescriptor([1], "number", [], false, None),
    FieldDescriptor([2], "class", [], false, None)] + HumanAt([0])

  lemma StudentTags()
    ensures Classify(FormTag, Student.fields[0]) == Flatten
    ensures Classify(FormTag, Student.fields[1]) == Describe("number", NoOptions)
    ensures Classify(FormTag, Student.fields[2]) == Describe("class", NoOptions)
  {
    assert TagGet(Student.fields[0].tags, FormTag) == "";
    CharAbsent("", ',');
    CharAbsent("number", ',');
    CharAbsent("class", ',');
  }

  /** `Student` queues its embedded `Human` under index 0 and describes its other two fields. */
  lemma StudentMembers()
    ensures ChildrenFrom(Decide(FormTag), QueueItem(Student, []), 0) == [QueueItem(Human, [0])]
    ensures CandidatesFrom(Decide(FormTag), map[], QueueItem(Student, []), 0) == StudentFields[..2]
  {
    StudentTags();
    var cls := Decide(FormTag);
    var item := QueueItem(Student, []);
    var s := StudentFields;
    assert Members(item.ty) == Student.fields;
    assert [] + [0] == [0] && [] + [1] == [1] && [] + [2] == [2];
    FlattenStep(cls, map[], item, 0);
    DescribedStep(cls, map[], item, 1, "number", NoOptions);
    DescribedStep(cls, map[], item, 2, "class", NoOptions);
    assert ChildrenFrom(cls, item, 3) == [];
    assert CandidatesFrom(cls, map[], item, 3) == [];
    assert [QueueItem(Human, [0])] + [] == [QueueItem(Human, [0])];
    assert CandidatesFrom(cls, map[], item, 2) == [s[1]];
    Cons(s[0], [s[1]]);
    assert s[..2] == [s[0], s[1]];
  }

  /** Deduplication keeps candidates whose names are all distinct, in order. */
  lemma {:induction false} DedupKeeps(found: seq<FieldDescriptor>, cs: seq<FieldDescriptor>)
    requires DistinctTags(found + cs)
    ensures DedupInto(found, cs) == found + cs
    decreases |cs|
  {
    if cs != [] {
      var all := found + cs;
      assert all[|found|] == cs[0];
      assert !HasTag(found, cs[0].tag) by {
        forall k | 0 <= k < |found|
          ensures found[k].tag != cs[0].tag
        {
          assert all[k] == found[k];
        }
      }
      assert found + [cs[0]] + cs[1..] == all;
      DedupKeeps(found + [cs[0]], cs[1..]);
    }
  }

  /** The walk meets `Student`'s own candidates, then the embedded `Human`'s. */
  lemma StudentStream()
    ensures Candidates(Decide(FormTag), map[], Student) == StudentFields
  {
    StudentMembers();
    EmbeddedStream();
    var cls := Decide(FormTag);
    var q := [QueueItem(Student, [])];
    var n := [QueueItem(Human, [0])];
    assert Next(cls, q) == n;
    assert StudentFields[..2] + HumanAt([0]) == StudentFields;
  }

  /** A `Human` queued alone at prefix `p` yields its three descriptors under `p`. */
  lemma EmbeddedStream()
    ensures Stream(Decide(FormTag), map[], [QueueItem(Human, [0])]) == HumanAt([0])
  {
    HumanMembers([0]);
    FlatStream(Decide(FormTag), map[], QueueItem(Human, [0]));
  }

  lemma StudentDistinct()
    ensures DistinctTags(StudentFields)
  {
    var s := StudentFields;
    assert s[0].tag == "number" && s[1].tag == "class" && s[2].tag == "name" && s[3].tag == "age" && s[4].tag == "birthday";
  }

  lemma StudentSchema()
    ensures BuildFields(FormTag, map[], Student) == StudentFields
  {
    StudentStream();
    StudentDistinct();
    DedupKeeps([], StudentFields);
    Nil(StudentFields);
  }

  lemma Nil<T>(s: seq<T>)
    ensures [] + s == s
  {
  }

  /** A `Student` form with one value per key. */
  function StudentForm(name: string, age: string, birthday: string, number: string, className: string): Form {
    map["name" := [name], "age" := [age], "birthday" := [birthday], "number" := [number], "class" := [className]]
  }

  /** Where each `Student` descriptor lands: the types at its path, and the paths are pairwise disjoint. */
  lemma StudentPaths()
    ensures FieldTypeAt(Student, [1]) == Some(TInt(Int64))
    ensures FieldTypeAt(Student, [2]) == Some(TString)
    ensures FieldTypeAt(Student, [0, 0]) == Some(TString)
    ensures FieldTypeAt(Student, [0, 1]) == Some(TInt(Int))
    ensures FieldTypeAt(Student, [0, 2]) == Some(TString)
    ensures StudentFields[0].index == [1] && StudentFields[1].index == [2]
    ensures StudentFields[2].index == [0, 0] && StudentFields[3].index == [0, 1] && StudentFields[4].index == [0, 2]
    ensures DisjointPaths(StudentFields)
  {
    assert [0, 0][1..] == [0] && [0, 1][1..] == [1] && [0, 2][1..] == [2];
    var s := StudentFields;
    assert s[0].index == [1] && s[1].index == [2] && s[2].index == [0, 0] && s[3].index == [0, 1] && s[4].index == [0, 2];
    forall a, b | 0 <= a < |s| && 0 <= b < |s| && a != b
      ensures Disjoint(s[a].index, s[b].index)
    {
      if s[a].index[0] != s[b].index[0] {
        DifferAt(s[a].index, s[b].index, 0);
      } else {
        DifferAt(s[a].index, s[b].index, 1);
      }
    }
  }

  /** Two paths that differ at a position both reach are disjoint. */
  lemma DifferAt(a: seq<nat>, b: seq<nat>, i: nat)
    requires i < |a| && i < |b| && a[i] != b[i]
    ensures Disjoint(a, b)
  {
    if |a| <= |b| {
      assert b[..|a|][i] == b[i];
    }
    if |b| <= |a| {
      assert a[..|b|][i] == a[i];
    }
  }

  /** A well-typed `Human` is determined by what its three fields read. */
  lemma HumanShape(h: Value)
    requires HasType(h, Human)
    ensures h == VStruct([Reach(Human, h, [0]), Reach(Human, h, [1]), Reach(Human, h, [2])])
  {
    Three(h.fields);
  }

  lemma Three<T>(s: seq<T>)
    requires |s| == 3
    ensures s == [s[0], s[1], s[2]]
  {
  }

  /** A well-typed `Student` is determined by what its five leaf paths read. */
  lemma StudentShape(v: Value)
    requires HasType(v, Student)
    ensures v == VStruct([
      VStruct([Reach(Student, v, [0, 0]), Reach(Student, v, [0, 1]), Reach(Student, v, [0, 2])]),
      Reach(Student, v, [1]), Reach(Student, v, [2])])
  {
    EmbeddedReach(v);
    HumanShape(v.fields[0]);
    Three(v.fields);
  }

  /** A path under the embedded `Human` reads the same field of that `Human`; the others read the field itself. */
  lemma EmbeddedReach(v: Value)
    requires HasType(v, Student)
    ensures |v.fields| == 3 && HasType(v.fields[0], Human)
    ensures Reach(Student, v, [1]) == v.fields[1] && Reach(Student, v, [2]) == v.fields[2]
    ensures Reach(Student, v, [0, 0]) == Reach(Human, v.fields[0], [0])
    ensures Reach(Student, v, [0, 1]) == Reach(Human, v.fields[0], [1])
    ensures Reach(Student, v, [0, 2]) == Reach(Human, v.fields[0], [2])
  {
    assert [0, 0][1..] == [0] && [0, 1][1..] == [1] && [0, 2][1..] == [2];
  }

  /** What the student's own descriptors read from a `Student` form, coerced to their fields' types. */
  lemma StudentOwnOutcomes(name: string, age: string, birthday: string, number: string, className: string, codec: FloatCodec)
    ensures Fits(Student, StudentFields[0], StudentForm(name, age, birthday, number, className))
    ensures Fits(Student, StudentFields[1], StudentForm(name, age, birthday, number, className))
    ensures Outcome(Student, StudentFields[0], StudentForm(name, age, birthday, number, className), codec) == Some(MapInt(Int64, number))
    ensures Outcome(Student, StudentFields[1], StudentForm(name, age, birthday, number, className), codec) == Some(Ok(VString(className)))
  {
    StudentPaths();
    var src := StudentForm(name, age, birthday, number, className);
    assert src["number"] == [number] && src["class"] == [className];
  }

  /** What the embedded `Human`'s descriptors read from a `Student` form. */
  lemma EmbeddedOutcomes(name: string, age: string, birthday: string, number: string, className: string, codec: FloatCodec)
    ensures Fits(Student, StudentFields[2], StudentForm(name, age, birthday, number, className))
    ensures Fits(Student, StudentFields[3], StudentForm(name, age, birthday, number, className))
    ensures Fits(Student, StudentFields[4], StudentForm(name, age, birthday, number, className))
    ensures Outcome(Student, StudentFields[2], StudentForm(name, age, birthday, number, className), codec) == Some(Ok(VString(name)))
    ensures Outcome(Student, StudentFields[3], StudentForm(name, age, birthday, number, className), codec) == Some(MapInt(Int, age))
    ensures Outcome(Student, StudentFields[4], StudentForm(name, age, birthday, number, className), codec) == Some(Ok(VString(birthday)))
  {
    StudentPaths();
    var src := StudentForm(name, age, birthday, number, className);
    assert src["name"] == [name] && src["age"] == [age] && src["birthday"] == [birthday];
  }

  /** With a valid age and number no descriptor of `Student` fails, and every one stores a value. */
  lemma StudentNoFailure(name: string, age: string, birthday: string, number: string, className: string, codec: FloatCodec)
    requires MapInt(Int, age).Ok? && MapInt(Int64, number).Ok?
    ensures AllFit(Student, StudentFields, StudentForm(name, age, birthday, number, className))
    ensures FirstError(Student, StudentFields, StudentForm(name, age, birthday, number, className), codec) == |StudentFields|
  {
    StudentOwnOutcomes(name, age, birthday, number, className, codec);
    EmbeddedOutcomes(name, age, birthday, number, className, codec);
    var src := StudentForm(name, age, birthday, number, className);
    var fs := StudentFields;
    SucceedFive(Student, fs, src, codec);
    NoFailure(Student, fs, src, codec);
  }

  /** Five descriptors that each fit and each coerce without error. */
  lemma SucceedFive(root: Ty, fs: seq<FieldDescriptor>, src: Form, codec: FloatCodec)
    requires |fs| == 5
    requires Fits(root, fs[0], src) && Fits(root, fs[1], src) && Fits(root, fs[2], src)
    requires Fits(root, fs[3], src) && Fits(root, fs[4], src)
    requires !Fails(root, fs[0], src, codec) && !Fails(root, fs[1], src, codec) && !Fails(root, fs[2], src, codec)
    requires !Fails(root, fs[3], src, codec) && !Fails(root, fs[4], src, codec)
    ensures AllFit(root, fs, src)
    ensures forall k :: 0 <= k < |fs| ==> !Fails(root, fs[k], src, codec)
  {
    forall k | 0 <= k < |fs|
      ensures Fits(root, fs[k], src) && !Fails(root, fs[k], src, codec)
    {
      assert k == 0 || k == 1 || k == 2 || k == 3 || k == 4;
    }
  }

  /** Every `Student` descriptor resolves, and none captured a decoder. */
  lemma StudentResolves()
    ensures forall k :: 0 <= k < |StudentFields| ==> FieldTypeAt(Student, StudentFields[k].index).Some?
    ensures DecodersTyped(Student, StudentFields)
  {
    StudentPaths();
    var fs := StudentFields;
    forall k | 0 <= k < |fs|
      ensures FieldTypeAt(Student, fs[k].index).Some? && fs[k].decoder.None?
    {
      assert k == 0 || k == 1 || k == 2 || k == 3 || k == 4;
    }
  }

  /** With no failing descriptor, the loop runs to the end. */
  lemma NoFailure(root: Ty, fs: seq<FieldDescriptor>, src: Form, codec: FloatCodec)
    requires AllFit(root, fs, src)
    requires forall k :: 0 <= k < |fs| ==> !Fails(root, fs[k], src, codec)
    ensures FirstError(root, fs, src, codec) == |fs|
  {
  }

  /** The `Student` the field loop leaves when binding a `Student` form into a zero `Student`. */
  function BoundStudent(name: string, age: string, birthday: string, number: string, className: string, codec: FloatCodec): (Value, Option<BindError>)
    requires AllFit(Student, StudentFields, StudentForm(name, age, birthday, number, className))
  {
    BindFields(Student, Zero(Student), StudentFields, StudentForm(name, age, birthday, number, className), codec)
  }

  /** The general reading of the loop, for `Student`: every descriptor's path reads its expected value. */
  lemma StudentLoop(name: string, age: string, birthday: string, number: string, className: string, codec: FloatCodec)
    requires MapInt(Int, age).Ok? && MapInt(Int64, number).Ok?
    ensures AllFit(Student, StudentFields, StudentForm(name, age, birthday, number, className))
    ensures BoundStudent(name, age, birthday, number, className, codec).1.None?
    ensures HasType(BoundStudent(name, age, birthday, number, className, codec).0, Student)
    ensures forall i :: 0 <= i < |StudentFields| ==>
      Reach(Student, BoundStudent(name, age, birthday, number, className, codec).0, StudentFields[i].index)
        == Expected(Student, Zero(Student), StudentFields[i], StudentForm(name, age, birthday, number, className), codec)
  {
    var src := StudentForm(name, age, birthday, number, className);
    StudentResolves();
    StudentPaths();
    StudentNoFailure(name, age, birthday, number, className, codec);
    BindFieldsReads(Student, Zero(Student), StudentFields, src, codec);
    BindFieldsError(Student, Zero(Student), StudentFields, src, codec);
  }

  /** A descriptor of `Student` that coerces to `x` leaves `x` at its path. */
  lemma StudentRead(name: string, age: string, birthday: string, number: string, className: string, codec: FloatCodec, k: nat, x: Value)
    requires MapInt(Int, age).Ok? && MapInt(Int64, number).Ok?
    requires k < |StudentFields| && Fits(Student, StudentFields[k], StudentForm(name, age, birthday, number, className))
    requires Outcome(Student, StudentFields[k], StudentForm(name, age, birthday, number, className), codec) == Some(Ok(x))
    ensures AllFit(Student, StudentFields, StudentForm(name, age, birthday, number, className))
    ensures Reach(Student, BoundStudent(name, age, birthday, number, className, codec).0, StudentFields[k].index) == x
  {
    StudentLoop(name, age, birthday, number, className, codec);
  }

  /** The student's own two paths read the coerced number and the class. */
  lemma StudentOwnReads(name: string, age: string, birthday: string, number: string, className: string, codec: FloatCodec)
    requires MapInt(Int, age).Ok? && MapInt(Int64, number).Ok?
    ensures AllFit(Student, StudentFields, StudentForm(name, age, birthday, number, className))
    ensures Reach(Student, BoundStudent(name, age, birthday, number, className, codec).0, [1]) == MapInt(Int64, number).value
    ensures Reach(Student, BoundStudent(name, age, birthday, number, className, codec).0, [2]) == VString(className)
  {
    StudentOwnOutcomes(name, age, birthday, number, className, codec);
    StudentRead(name, age, birthday, number, className, codec, 0, MapInt(Int64, number).value);
    StudentRead(name, age, birthday, number, className, codec, 1, VString(className));
    StudentPaths();
  }

  /** The embedded `Human`'s three paths read the name, the coerced age and the birthday. */
  lemma EmbeddedReads(name: string, age: string, birthday: string, number: string, className: string, codec: FloatCodec)
    requires MapInt(Int, age).Ok? && MapInt(Int64, number).Ok?
    ensures AllFit(Student, StudentFields, StudentForm(name, age, birthday, number, className))
    ensures Reach(Student, BoundStudent(name, age, birthday, number, className, codec).0, [0, 0]) == VString(name)
    ensures Reach(Student, BoundStudent(name, age, birthday, number, className, codec).0, [0, 1]) == MapInt(Int, age).value
    ensures Reach(Student, BoundStudent(name, age, birthday, number, className, codec).0, [0, 2]) == VString(birthday)
  {
    EmbeddedOutcomes(name, age, birthday, number, className, codec);
    StudentRead(name, age, birthday, number, className, codec, 2, VString(name));
    StudentRead(name, age, birthday, number, className, codec, 3, MapInt(Int, age).value);
    StudentRead(name, age, birthday, number, className, codec, 4, VString(birthday));
    StudentPaths();
  }

  /**
    Binding a `Student` form into a zero `Student` fills the embedded
    `Human` through its promoted names, and the student's own fields.
   */
  lemma StudentBinding(name: string, age: string, birthday: string, number: string, className: string, codec: FloatCodec)
    requires MapInt(Int, age).Ok? && MapInt(Int64, number).Ok?
    ensures AllFit(Student, StudentFields, StudentForm(name, age, birthday, number, className))
    ensures BindFields(Student, Zero(Student), StudentFields, StudentForm(name, age, birthday, number, className), codec)
      == (VStruct([VStruct([VString(name), MapInt(Int, age).value, VString(birthday)]), MapInt(Int64, number).value, VString(className)]), None)
  {
    StudentLoop(name, age, birthday, number, className, codec);
    StudentOwnReads(name, age, birthday, number, className, codec);
    EmbeddedReads(name, age, birthday, number, className, codec);
    StudentShape(BoundStudent(name, age, birthday, number, className, codec).0);
  }

  /** `time.Time`, reduced to its two counters; the binder never looks inside it. */
  const Time: Ty := TStruct("Time", [FieldDecl("wall", TUint(Uint64), map[], false, false), FieldDecl("ext", TInt(Int64), map[], false, false)])

  /** `DateTime`: two `*time.Time` fields, the first defaulting to 2022-01-02. */
  const DateTime: Ty := TStruct("DateTime", [
    FieldDecl("BeginTime", TPtr(Time), Tag("begin_time,default=2022-01-02"), true, false),
    FieldDecl("EndTime", TPtr(Time), Tag("end_time"), true, false)])

  /** Character-level facts about `DateTime`'s tags. */
  lemma DateLiterals()
    ensures forall i :: 0 <= i < |"end_time"| ==> "end_time"[i] != ','
    ensures "begin_time,default=2022-01-02"[10] == ',' && forall i :: 0 <= i < 10 ==> "begin_time,default=2022-01-02"[i] != ','
    ensures "begin_time,default=2022-01-02"[..10] == "begin_time"
    ensures "begin_time,default=2022-01-02"[11..] == "default=2022-01-02"
  {
  }

  lemma DateDefaultLiteral()
    ensures SpellsDefault("default=2022-01-02", "2022-01-02")
  {
  }

  lemma DateTimeTags()
    ensures Classify(FormTag, DateTime.fields[0]) == Describe("begin_time", Options(["2022-01-02"], false))
    ensures Classify(FormTag, DateTime.fields[1]) == Describe("end_time", NoOptions)
  {
    DateLiterals();
    DateDefaultLiteral();
    CharAbsent("end_time", ',');
    HeadAtChar("begin_time,default=2022-01-02", ',', 10);
    SingleDefault("default=2022-01-02", "2022-01-02");
    assert ParseTag("begin_time,default=2022-01-02") == Use("begin_time", Options(["2022-01-02"], false));
    assert ParseTag("end_time") == Use("end_time", NoOptions);
  }

  /** The schema of `DateTime` once `parse` is registered for `*time.Time`: both fields capture it. */
  function DateTimeFields(parse: Decoder): seq<FieldDescriptor> {
    [FieldDescriptor([0], "begin_time", ["2022-01-02"], false, Some(parse)),
     FieldDescriptor([1], "end_time", [], false, Some(parse))]
  }

  /** `DateTime`'s two pointer fields are described, each capturing `parse`, and queue no struct. */
  lemma DateTimeMembers(parse: Decoder)
    ensures ChildrenFrom(Decide(FormTag), QueueItem(DateTime, []), 0) == []
    ensures CandidatesFrom(Decide(FormTag), map[TPtr(Time) := parse], QueueItem(DateTime, []), 0) == DateTimeFields(parse)
  {
    DateTimeTags();
    var cls := Decide(FormTag);
    var decoders := map[TPtr(Time) := parse];
    var item := QueueItem(DateTime, []);
    var d := DateTimeFields(parse);
    assert Members(item.ty) == DateTime.fields;
    assert [] + [0] == [0] && [] + [1] == [1];
    DescribedStep(cls, decoders, item, 0, "begin_time", Options(["2022-01-02"], false));
    DescribedStep(cls, decoders, item, 1, "end_time", NoOptions);
    assert ChildrenFrom(cls, item, 2) == [];
    assert CandidatesFrom(cls, decoders, item, 2) == [];
    assert CandidatesFrom(cls, decoders, item, 1) == [d[1]];
    Cons(d[0], [d[1]]);
  }

  lemma DateTimeCandidates(parse: Decoder)
    ensures Candidates(Decide(FormTag), map[TPtr(Time) := parse], DateTime) == DateTimeFields(parse)
  {
    DateTimeMembers(parse);
    FlatStream(Decide(FormTag), map[TPtr(Time) := parse], QueueItem(DateTime, []));
  }

  lemma DateTimeDistinct(parse: Decoder)
    ensures DistinctTags(DateTimeFields(parse))
  {
    assert DateTimeFields(parse)[0].tag != DateTimeFields(parse)[1].tag;
  }

  lemma DateTimeSchema(parse: Decoder)
    ensures BuildFields(FormTag, map[TPtr(Time) := parse], DateTime) == DateTimeFields(parse)
  {
    DateTimeCandidates(parse);
    DateTimeDistinct(parse);
    DedupKeeps([], DateTimeFields(parse));
    Nil(DateTimeFields(parse));
  }

  /** The form of the package's decoder test: only `end_time` is sent. */
  const DateForm: Form := map["end_time" := ["2022-02-02"]]

  /** Both descriptors hand their string to `parse`: the default for `begin_time`, the sent value for `end_time`. */
  lemma DateTimeOutcomes(parse: Decoder, codec: FloatCodec)
    ensures AllFit(DateTime, DateTimeFields(parse), DateForm)
    ensures Outcome(DateTime, DateTimeFields(parse)[0], DateForm, codec) == Some(MapValue(TPtr(Time), Some(parse), codec, "2022-01-02"))
    ensures Outcome(DateTime, DateTimeFields(parse)[1], DateForm, codec) == Some(MapValue(TPtr(Time), Some(parse), codec, "2022-02-02"))
  {
    var d := DateTimeFields(parse);
    assert FieldTypeAt(DateTime, [0]) == Some(TPtr(Time));
    assert FieldTypeAt(DateTime, [1]) == Some(TPtr(Time));
    assert "begin_time" !in DateForm;
    assert Values(DateForm, d[0]) == Some(["2022-01-02"]);
    assert Values(DateForm, d[1]) == Some(["2022-02-02"]);
  }

  /** A turn that coerces to `x` for a top-level field `k` stores `x` there and reports nothing. */
  lemma StoreTop(root: Ty, v: Value, d: FieldDescriptor, src: Form, codec: FloatCodec, k: nat, x: Value)
    requires root.TStruct? && v.VStruct? && k < |root.fields| && k < |v.fields| && d.index == [k]
    requires Fits(root, d, src) && Outcome(root, d, src, codec) == Some(Ok(x))
    ensures ApplyField(root, v, d, src, codec) == (VStruct(v.fields[k := x]), None)
  {
    assert Walkable(root, v, [k]);
  }

  /**
    With `parse` registered for `*time.Time`, binding the decoder test's form
    into a zero `DateTime` stores what `parse` makes of the default
    2022-01-02 in `BeginTime` and of the sent 2022-02-02 in `EndTime`.
   */
  lemma DateTimeBinding(parse: Decoder, codec: FloatCodec, b: Value, e: Value)
    requires parse("2022-01-02") == Ok(b) && parse("2022-02-02") == Ok(e)
    ensures AllFit(DateTime, DateTimeFields(parse), DateForm)
    ensures BindFields(DateTime, Zero(DateTime), DateTimeFields(parse), DateForm, codec) == (VStruct([b, e]), None)
  {
    DateTimeOutcomes(parse, codec);
    var d := DateTimeFields(parse);
    var v0 := Zero(DateTime);
    assert v0 == VStruct([VPtr(None), VPtr(None)]) by {
      assert v0.fields[0] == Zero(TPtr(Time)) && v0.fields[1] == Zero(TPtr(Time));
    }
    var v1 := VStruct([b, VPtr(None)]);
    var v2 := VStruct([b, e]);
    assert v0.fields[0 := b] == v1.fields && v1.fields[1 := e] == v2.fields;
    StoreTop(DateTime, v0, d[0], DateForm, codec, 0, b);
    StoreTop(DateTime, v1, d[1], DateForm, codec, 1, e);
    assert d[1..] == [d[1]] && d[1..][1..] == [];
    BindTurn(DateTime, v0, d, DateForm, codec, v1);
    BindTurn(DateTime, v1, d[1..], DateForm, codec, v2);
  }

  /** The mapper of the decoder test: tag key `form`, `parse` registered for `*time.Time`. */
  function DateMapper(parse: Decoder): Mapper {
    UseDecoder(NewMapper(FormTag), Some(TPtr(Time)), Some(parse))
  }

  lemma DateTimeFlattenable()
    ensures Flattenable(Decide(FormTag), DateTime)
  {
    var cls := Decide(FormTag);
    var fs := DateTime.fields;
    forall j | 0 <= j < |fs|
      ensures !cls(fs[j]).Flatten?
    {
      DateTimeTags();
      assert cls(fs[j]) == Classify(FormTag, fs[j]);
    }
    FlatStruct(cls, DateTime);
  }

  /** The first `Bind` on that mapper builds the `DateTime` schema, capturing `parse`, and caches it. */
  lemma DateTimeParsed(parse: Decoder)
    ensures Descriptor(DateMapper(parse), DateTime)
      == (Mapper(FormTag, map[DateTime := StructDescriptor("DateTime", DateTimeFields(parse))], map[TPtr(Time) := parse]),
          StructDescriptor("DateTime", DateTimeFields(parse)))
  {
    var m := DateMapper(parse);
    assert m == Mapper(FormTag, map[], map[TPtr(Time) := parse]);
    DateTimeSchema(parse);
    assert Build(m, DateTime) == StructDescriptor("DateTime", DateTimeFields(parse));
  }

  /** Both `DateTime` fields are exported, so binding into a `DateTime` makes no write `reflect` refuses. */
  lemma DateTimeWritable(parse: Decoder, v: Value, src: Form, codec: FloatCodec)
    requires AllFit(DateTime, DateTimeFields(parse), src)
    ensures Writable(DateTime, v, DateTimeFields(parse), src, codec)
  {
    forall k | 0 <= k < |DateTimeFields(parse)|
      ensures ExportedAlong(DateTime, DateTimeFields(parse)[k].index)
    {
      assert DateTimeFields(parse)[k].index == [k];
    }
    ExportedWritable(DateTime, v, DateTimeFields(parse), src, codec);
  }

  /** `m.Bind(form, &dst)` in the decoder test: the schema is cached, and `dst` holds both parsed times. */
  lemma DateTimeBind(parse: Decoder, codec: FloatCodec, b: Value, e: Value)
    requires parse("2022-01-02") == Ok(b) && parse("2022-02-02") == Ok(e)
    ensures Bindable(DateMapper(parse), TPtr(DateTime), DateForm)
    ensures Writable(Base(TPtr(DateTime)), Pointed(TPtr(DateTime), VPtr(Some(Zero(DateTime)))), Fields(DateMapper(parse), TPtr(DateTime)), DateForm, codec)
    ensures Bind(DateMapper(parse), DateForm, TPtr(DateTime), VPtr(Some(Zero(DateTime))), codec)
      == Bound(Mapper(FormTag, map[DateTime := StructDescriptor("DateTime", DateTimeFields(parse))], map[TPtr(Time) := parse]),
               VPtr(Some(VStruct([b, e]))), None)
  {
    DateTimeParsed(parse);
    DateTimeFlattenable();
    DateTimeBinding(parse, codec, b, e);
    var m := DateMapper(parse);
    var t := TPtr(DateTime);
    assert Base(t) == DateTime;
    assert DateTime !in m.structs;
    assert Fields(m, t) == DateTimeFields(parse);
    assert Pointed(TPtr(DateTime), VPtr(Some(Zero(DateTime)))) == Zero(DateTime);
    DateTimeWritable(parse, Zero(DateTime), DateForm, codec);
  }

  // ---------------------------------------------------------------- an unexported field

  /** `Login`: a tagged exported user name and an untagged, unexported attempt counter. */
  const Login: Ty := TStruct("Login", [
    FieldDecl("User", TString, Tag("user"), true, false),
    FieldDecl("attempts", TInt(Int), map[], false, false)])

  /** The descriptors of `Login`: the counter is described under its Go identifier. */
  const LoginFields: seq<FieldDescriptor> := [
    FieldDescriptor([0], "user", [], false, None),
    FieldDescriptor([1], "attempts", [], false, None)]

  /**
    A client that sends `attempts` makes the source's `SetInt` panic on the
    unexported counter, so that bind is outside `Writable` (and so outside
    `Bind`'s precondition).
   */
  lemma LoginAttemptsRefused(codec: FloatCodec)
    ensures AllFit(Login, LoginFields, map["attempts" := ["1"]])
    ensures !Writable(Login, Zero(Login), LoginFields, map["attempts" := ["1"]], codec)
  {
    var src: Form := map["attempts" := ["1"]];
    assert Fits(Login, LoginFields[0], src) && Fits(Login, LoginFields[1], src);
    assert AllFit(Login, LoginFields, src);
    assert Outcome(Login, LoginFields[0], src, codec).None?;
    assert FirstError(Login, LoginFields, src, codec) >= 1;
    AttemptsCoerced(codec);
    assert !CanSet(Login, LoginFields[1].index, false);
    RefusedStore(Login, Zero(Login), LoginFields, src, codec, 1);
  }

  /** The sent counter `"1"` coerces to 1. */
  lemma AttemptsCoerced(codec: FloatCodec)
    ensures Fits(Login, LoginFields[1], map["attempts" := ["1"]])
    ensures Outcome(Login, LoginFields[1], map["attempts" := ["1"]], codec) == Some(Ok(VInt(1)))
  {
    SmallAge("1", 1);
    assert Values(map["attempts" := ["1"]], LoginFields[1]) == Some(["1"]);
  }

  /** A form without `attempts` never reaches the counter, and the user name can be set. */
  lemma LoginUserWritable(codec: FloatCodec)
    ensures AllFit(Login, LoginFields, map["user" := ["ann"]])
    ensures Writable(Login, Zero(Login), LoginFields, map["user" := ["ann"]], codec)
  {
    var src: Form := map["user" := ["ann"]];
    assert AllFit(Login, LoginFields, src);
    forall k | 0 <= k < |LoginFields| && Outcome(Login, LoginFields[k], src, codec).Some?
      ensures AllocatesSettable(Login, Zero(Login), LoginFields[k].index, false) && CanSet(Login, LoginFields[k].index, false)
    {
      assert LoginFields[k].tag in src;
      assert k == 0;
    }
  }

  // ---------------------------------------------------------------- interface fields

  /** `Note`: an empty-interface text, a `fmt.Stringer` label and a slice of `fmt.Stringer` marks. */
  const Note: Ty := TStruct("Note", [
    FieldDecl("Text", TIface("interface {}", 0), Tag("text"), true, false),
    FieldDecl("Label", TIface("fmt.Stringer", 1), Tag("label"), true, false),
    FieldDecl("Marks", TSlice(TIface("fmt.Stringer", 1)), Tag("marks"), true, false)])

  const NoteFields: seq<FieldDescriptor> := [
    FieldDescriptor([0], "text", [], false, None),
    FieldDescriptor([1], "label", [], false, None),
    FieldDescriptor([2], "marks", [], false, None)]

  /**
    A label sent as a string makes the source's `Set` panic, a `string` not
    being a `fmt.Stringer`, so that bind is outside `Writable`.
   */
  lemma NoteLabelRefused(codec: FloatCodec)
    ensures AllFit(Note, NoteFields, map["label" := ["x"]])
    ensures !Writable(Note, Zero(Note), NoteFields, map["label" := ["x"]], codec)
  {
    var src: Form := map["label" := ["x"]];
    assert Fits(Note, NoteFields[0], src) && Fits(Note, NoteFields[1], src) && Fits(Note, NoteFields[2], src);
    assert AllFit(Note, NoteFields, src);
    assert Outcome(Note, NoteFields[0], src, codec).None?;
    assert FirstError(Note, NoteFields, src, codec) >= 1;
    assert Values(src, NoteFields[1]) == Some(["x"]);
    RefusedInterface(Note, Zero(Note), NoteFields, src, codec, 1);
  }

  /**
    The empty interface holds the sent string itself, and an empty list for
    the marks makes no element, so nothing is refused.
   */
  lemma NoteTextWritable(codec: FloatCodec)
    ensures AllFit(Note, NoteFields, map["text" := ["x"], "marks" := []])
    ensures Outcome(Note, NoteFields[0], map["text" := ["x"], "marks" := []], codec) == Some(Ok(VIface(Some(VString("x")))))
    ensures Writable(Note, Zero(Note), NoteFields, map["text" := ["x"], "marks" := []], codec)
  {
    var src: Form := map["text" := ["x"], "marks" := []];
    assert Fits(Note, NoteFields[0], src) && Fits(Note, NoteFields[1], src) && Fits(Note, NoteFields[2], src);
    assert AllFit(Note, NoteFields, src);
    assert Values(src, NoteFields[0]) == Some(["x"]);
    forall k | 0 <= k < |NoteFields| && Outcome(Note, NoteFields[k], src, codec).Some?
      ensures AllocatesSettable(Note, Zero(Note), NoteFields[k].index, false) && CanSet(Note, NoteFields[k].index, false)
      ensures !RefusesString(FieldTypeAt(Note, NoteFields[k].index).value, Values(src, NoteFields[k]).value)
    {
      assert NoteFields[k].tag in src;
      assert k == 0 || k == 2;
      if k == 2 {
        assert Values(src, NoteFields[k]) == Some([]);
      }
    }
  }
}

=== FILE: schema.dfy ===
/**
  `parseStructDescriptor`'s breadth-first walk. A queue of (struct type,
  index prefix) pairs starts with the root; each struct's fields are visited
  in declaration order. A field flattened by its tag sends its struct to the
  back of the queue under a longer prefix; any other field becomes a
  descriptor unless a descriptor with its name was found earlier.

  `Drain` follows the source loop, deduplicating as it goes. `Stream` is the
  reference reading: every candidate descriptor in breadth-first order, with
  no deduplication; `DedupInto` then keeps the first per name.
 */
module Schema {
  import opened Results
  import opened Types
  import opened Tags
  import opened Access

  /** One bound field: where it is, its external name, its defaults and flags, its captured decoder. */
  datatype FieldDescriptor = FieldDescriptor(
    index: seq<nat>,
    tag: string,
    default: seq<string>,
    omitempty: bool,
    decoder: Option<Decoder>)

  datatype StructDescriptor = StructDescriptor(name: string, fields: seq<FieldDescriptor>)

  datatype QueueItem = QueueItem(ty: Ty, index: seq<nat>)

  /** `mapper.decoders[t]`: nil when no decoder is registered for the type. */
  function Lookup(decoders: map<Ty, Decoder>, t: Ty): Option<Decoder> {
    if t in decoders then Some(decoders[t]) else None
  }

  /** `NumField`/`Field(i)` of a queued type (a struct in every walk `Flattenable` admits). */
  function Members(t: Ty): seq<FieldDecl> {
    if t.TStruct? then t.fields else []
  }

  function MakeDescriptor(decoders: map<Ty, Decoder>, f: FieldDecl, index: seq<nat>, name: string, options: Options): FieldDescriptor {
    FieldDescriptor(index, name, options.defaults, options.omitempty, Lookup(decoders, f.ty))
  }

  /** Some descriptor already found has external name `name`. */
  predicate HasTag(found: seq<FieldDescriptor>, name: string) {
    exists k :: 0 <= k < |found| && found[k].tag == name
  }

  /** External names are pairwise distinct. */
  predicate DistinctTags(fs: seq<FieldDescriptor>) {
    forall a, b :: 0 <= a < b < |fs| ==> fs[a].tag != fs[b].tag
  }

  /** The last step of a path (0 for the empty path, which no descriptor has). */
  function Last(p: seq<nat>): nat {
    if p == [] then 0 else p[|p| - 1]
  }

  /** The per-field decision of the walk; the source's is `Classify` under the mapper's tag key. */
  type Classifier = FieldDecl -> Action

  function Decide(tagKey: string): Classifier {
    f => Classify(tagKey, f)
  }

  /** The struct a flattened field contributes: its pointee for a pointer field, itself otherwise. */
  function Pointee(t: Ty): Ty {
    if t.TPtr? then t.elem else t
  }

  /** `x` is `p` extended by one index. */
  predicate Child(p: seq<nat>, x: seq<nat>) {
    |x| == |p| + 1 && x[..|p|] == p
  }

  // ---------------------------------------------------------------- reference

  /** `x` is the queue entry a flattened field of `item` at position `i` or later adds. */
  predicate ChildOf(cls: Classifier, item: QueueItem, i: nat, x: QueueItem) {
    && Child(item.index, x.index)
    && i <= Last(x.index) < |Members(item.ty)|
    && cls(Members(item.ty)[Last(x.index)]).Flatten?
    && x.ty == Pointee(Members(item.ty)[Last(x.index)].ty)
  }

  /** `d` is the candidate a described field of `item` at position `i` or later produces. */
  ghost predicate CandidateOf(cls: Classifier, decoders: map<Ty, Decoder>, item: QueueItem, i: nat, d: FieldDescriptor) {
    && Child(item.index, d.index)
    && i <= Last(d.index) < |Members(item.ty)|
    && cls(Members(item.ty)[Last(d.index)]).Describe?
    && d.tag == cls(Members(item.ty)[Last(d.index)]).name
    && d.decoder == Lookup(decoders, Members(item.ty)[Last(d.index)].ty)
  }

  /** The queue entries the fields of `item` from `i` on add, in field order. */
  function ChildrenFrom(cls: Classifier, item: QueueItem, i: nat): seq<QueueItem>
    requires i <= |Members(item.ty)|
    decreases |Members(item.ty)| - i
  {
    if i == |Members(item.ty)| then []
    else
      var f := Members(item.ty)[i];
      var here := if cls(f).Flatten? then [QueueItem(Pointee(f.ty), item.index + [i])] else [];
      here + ChildrenFrom(cls, item, i + 1)
  }

  /** The candidate descriptors the fields of `item` from `i` on produce, in field order, duplicates kept. */
  function CandidatesFrom(cls: Classifier, decoders: map<Ty, Decoder>, item: QueueItem, i: nat): seq<FieldDescriptor>
    requires i <= |Members(item.ty)|
    decreases |Members(item.ty)| - i
  {
    if i == |Members(item.ty)| then []
    else
      var f := Members(item.ty)[i];
      var here := match cls(f)
        case Describe(name, options) => [MakeDescriptor(decoders, f, item.index + [i], name, options)]
        case _ => [];
      here + CandidatesFrom(cls, decoders, item, i + 1)
  }

  /** A described field contributes one candidate and queues nothing. */
  lemma DescribedStep(cls: Classifier, decoders: map<Ty, Decoder>, item: QueueItem, i: nat, name: string, options: Options)
    requires i < |Members(item.ty)| && cls(Members(item.ty)[i]) == Describe(name, options)
    ensures ChildrenFrom(cls, item, i) == ChildrenFrom(cls, item, i + 1)
    ensures CandidatesFrom(cls, decoders, item, i)
         == [MakeDescriptor(decoders, Members(item.ty)[i], item.index + [i], name, options)] + CandidatesFrom(cls, decoders, item, i + 1)
  {
    assert [] + ChildrenFrom(cls, item, i + 1) == ChildrenFrom(cls, item, i + 1);
  }

  /** A flattened field queues its struct one level down and contributes no candidate. */
  lemma FlattenStep(cls: Classifier, decoders: map<Ty, Decoder>, item: QueueItem, i: nat)
    requires i < |Members(item.ty)| && cls(Members(item.ty)[i]) == Flatten
    ensures ChildrenFrom(cls, item, i) == [QueueItem(Pointee(Members(item.ty)[i].ty), item.index + [i])] + ChildrenFrom(cls, item, i + 1)
    ensures CandidatesFrom(cls, decoders, item, i) == CandidatesFrom(cls, decoders, item, i + 1)
  {
    assert [] + CandidatesFrom(cls, decoders, item, i + 1) == CandidatesFrom(cls, decoders, item, i + 1);
  }

  /** Each queued entry is a flattened field of `item` at position `i` or later, one level down. */
  lemma {:induction false} ChildrenFromShape(cls: Classifier, item: QueueItem, i: nat)
    requires i <= |Members(item.ty)|
    ensures forall k :: 0 <= k < |ChildrenFrom(cls, item, i)| ==> ChildOf(cls, item, i, ChildrenFrom(cls, item, i)[k])
    decreases |Members(item.ty)| - i
  {
    if i < |Members(item.ty)| {
      ChildrenFromShape(cls, item, i + 1);
      var f := Members(item.ty)[i];
      var here := if cls(f).Flatten? then [QueueItem(Pointee(f.ty), item.index + [i])] else [];
      var rest := ChildrenFrom(cls, item, i + 1);
      forall k | 0 <= k < |here + rest|
        ensures ChildOf(cls, item, i, (here + rest)[k])
      {
        if k >= |here| {
          assert (here + rest)[k] == rest[k - |here|];
        }
      }
    }
  }

  /** The queued entries come in strictly increasing field order. */
  lemma {:induction false} ChildrenFromOrdered(cls: Classifier, item: QueueItem, i: nat)
    requires i <= |Members(item.ty)|
    ensures forall a, b :: 0 <= a < b < |ChildrenFrom(cls, item, i)| ==>
      Last(ChildrenFrom(cls, item, i)[a].index) < Last(ChildrenFrom(cls, item, i)[b].index)
    decreases |Members(item.ty)| - i
  {
    if i < |Members(item.ty)| {
      ChildrenFromShape(cls, item, i + 1);
      ChildrenFromOrdered(cls, item, i + 1);
      var f := Members(item.ty)[i];
      var here := if cls(f).Flatten? then [QueueItem(Pointee(f.ty), item.index + [i])] else [];
      var rest := ChildrenFrom(cls, item, i + 1);
      var r: seq<QueueItem> := here + rest;
      if here != [] {
        forall a, b | 0 <= a < b < |r|
          ensures Last(r[a].index) < Last(r[b].index)
        {
          assert r[b] == rest[b - 1];
          assert ChildOf(cls, item, i + 1, rest[b - 1]);
          if a > 0 {
            assert r[a] == rest[a - 1];
          }
        }
      }
    }
  }

  /** Each candidate is a described field of `item` at position `i` or later, one level down. */
  lemma {:induction false} CandidatesFromShape(cls: Classifier, decoders: map<Ty, Decoder>, item: QueueItem, i: nat)
    requires i <= |Members(item.ty)|
    ensures forall k :: 0 <= k < |CandidatesFrom(cls, decoders, item, i)| ==>
      CandidateOf(cls, decoders, item, i, CandidatesFrom(cls, decoders, item, i)[k])
    decreases |Members(item.ty)| - i
  {
    if i < |Members(item.ty)| {
      CandidatesFromShape(cls, decoders, item, i + 1);
      var f := Members(item.ty)[i];
      var here := match cls(f)
        case Describe(name, options) => [MakeDescriptor(decoders, f, item.index + [i], name, options)]
        case _ => [];
      var rest := CandidatesFrom(cls, decoders, item, i + 1);
      forall k | 0 <= k < |here + rest|
        ensures CandidateOf(cls, decoders, item, i, (here + rest)[k])
      {
        if k >= |here| {
          assert (here + rest)[k] == rest[k - |here|];
        }
      }
    }
  }

  /** The candidates come in strictly increasing field order. */
  lemma {:induction false} CandidatesFromOrdered(cls: Classifier, decoders: map<Ty, Decoder>, item: QueueItem, i: nat)
    requires i <= |Members(item.ty)|
    ensures forall a, b :: 0 <= a < b < |CandidatesFrom(cls, decoders, item, i)| ==>
      Last(CandidatesFrom(cls, decoders, item, i)[a].index) < Last(CandidatesFrom(cls, decoders, item, i)[b].index)
    decreases |Members(item.ty)| - i
  {
    if i < |Members(item.ty)| {
      CandidatesFromShape(cls, decoders, item, i + 1);
      CandidatesFromOrdered(cls, decoders, item, i + 1);
      var f := Members(item.ty)[i];
      var here := match cls(f)
        case Describe(name, options) => [MakeDescriptor(decoders, f, item.index + [i], name, options)]
        case _ => [];
      var rest := CandidatesFrom(cls, decoders, item, i + 1);
      var r: seq<FieldDescriptor> := here + rest;
      assert CandidatesFrom(cls, decoders, item, i) == r;
      if here != [] {
        forall a, b | 0 <= a < b < |r|
          ensures Last(r[a].index) < Last(r[b].index)
        {
          assert r[b] == rest[b - 1];
          assert CandidateOf(cls, decoders, item, i + 1, rest[b - 1]);
          if a > 0 {
            assert r[a] == rest[a - 1];
          }
        }
      }
    }
  }

  function QueueSize(q: seq<QueueItem>): nat {
    if q == [] then 0 else Size(q[0].ty) + QueueSize(q[1..])
  }

  lemma {:induction false} QueueSizeAppend(a: seq<QueueItem>, b: seq<QueueItem>)
    ensures QueueSize(a + b) == QueueSize(a) + QueueSize(b)
    decreases |a|
  {
    if a == [] {
      assert a + b == b;
    } else {
      assert (a + b)[0] == a[0];
      assert (a + b)[1..] == a[1..] + b;
      QueueSizeAppend(a[1..], b);
    }
  }

  /** The sizes of a struct's field types, whose sum bounds its size. */
  function FieldSizes(fs: seq<FieldDecl>): seq<nat> {
    seq(|fs|, j requires 0 <= j < |fs| => Size(fs[j].ty))
  }

  lemma {:induction false} ChildrenFromSize(cls: Classifier, item: QueueItem, i: nat)
    requires i <= |Members(item.ty)|
    ensures QueueSize(ChildrenFrom(cls, item, i)) <= Sum(FieldSizes(Members(item.ty))[i..])
    decreases |Members(item.ty)| - i
  {
    var fs := Members(item.ty);
    var sizes := FieldSizes(fs);
    if i < |fs| {
      ChildrenFromSize(cls, item, i + 1);
      var f := fs[i];
      var here := if cls(f).Flatten? then [QueueItem(Pointee(f.ty), item.index + [i])] else [];
      QueueSizeAppend(here, ChildrenFrom(cls, item, i + 1));
      assert sizes[i..][1..] == sizes[i + 1..];
      assert QueueSize(here) <= sizes[i];
    }
  }

  /** Replacing a queued struct by its flattened members shrinks the total size of the queue. */
  lemma ChildrenSmaller(cls: Classifier, item: QueueItem)
    ensures QueueSize(ChildrenFrom(cls, item, 0)) < Size(item.ty)
  {
    ChildrenFromSize(cls, item, 0);
    assert FieldSizes(Members(item.ty))[0..] == FieldSizes(Members(item.ty));
  }

  /** The queue after processing its head. */
  function Next(cls: Classifier, q: seq<QueueItem>): (r: seq<QueueItem>)
    requires q != []
    ensures QueueSize(r) < QueueSize(q)
  {
    ChildrenSmaller(cls, q[0]);
    QueueSizeAppend(q[1..], ChildrenFrom(cls, q[0], 0));
    q[1..] + ChildrenFrom(cls, q[0], 0)
  }

  /** Every candidate descriptor, in breadth-first order, duplicates included. */
  function Stream(cls: Classifier, decoders: map<Ty, Decoder>, q: seq<QueueItem>): seq<FieldDescriptor>
    decreases QueueSize(q)
  {
    if q == [] then []
    else CandidatesFrom(cls, decoders, q[0], 0) + Stream(cls, decoders, Next(cls, q))
  }

  /** Keep each candidate whose name is not yet taken, in order. */
  function DedupInto(found: seq<FieldDescriptor>, cs: seq<FieldDescriptor>): seq<FieldDescriptor>
    decreases |cs|
  {
    if cs == [] then found
    else DedupInto(if HasTag(found, cs[0].tag) then found else found + [cs[0]], cs[1..])
  }

  lemma {:induction false} DedupAppend(found: seq<FieldDescriptor>, a: seq<FieldDescriptor>, b: seq<FieldDescriptor>)
    ensures DedupInto(found, a + b) == DedupInto(DedupInto(found, a), b)
    decreases |a|
  {
    if a == [] {
      assert a + b == b;
    } else {
      assert (a + b)[0] == a[0];
      assert (a + b)[1..] == a[1..] + b;
      DedupAppend(if HasTag(found, a[0].tag) then found else found + [a[0]], a[1..], b);
    }
  }

  // ---------------------------------------------------------------- the source loop

  /** The inner `for i := 0; i < numField; i++` loop, deduplicating as it goes. */
  function VisitFields(cls: Classifier, decoders: map<Ty, Decoder>, item: QueueItem, i: nat,
                       queue: seq<QueueItem>, found: seq<FieldDescriptor>): (r: (seq<QueueItem>, seq<FieldDescriptor>))
    requires i <= |Members(item.ty)|
    ensures r.0 == queue + ChildrenFrom(cls, item, i)
    ensures r.1 == DedupInto(found, CandidatesFrom(cls, decoders, item, i))
    decreases |Members(item.ty)| - i
  {
    if i == |Members(item.ty)| then (queue, found)
    else
      var f := Members(item.ty)[i];
      var index := item.index + [i];
      match cls(f)
      case SkipField =>
        assert ChildrenFrom(cls, item, i) == [] + ChildrenFrom(cls, item, i + 1) == ChildrenFrom(cls, item, i + 1);
        assert CandidatesFrom(cls, decoders, item, i) == [] + CandidatesFrom(cls, decoders, item, i + 1)
            == CandidatesFrom(cls, decoders, item, i + 1);
        VisitFields(cls, decoders, item, i + 1, queue, found)
      case Flatten =>
        var x := QueueItem(Pointee(f.ty), index);
        assert ChildrenFrom(cls, item, i) == [x] + ChildrenFrom(cls, item, i + 1);
        assert queue + [x] + ChildrenFrom(cls, item, i + 1) == queue + ChildrenFrom(cls, item, i);
        assert CandidatesFrom(cls, decoders, item, i) == [] + CandidatesFrom(cls, decoders, item, i + 1)
            == CandidatesFrom(cls, decoders, item, i + 1);
        VisitFields(cls, decoders, item, i + 1, queue + [x], found)
      case Describe(name, options) =>
        var d := MakeDescriptor(decoders, f, index, name, options);
        var found' := if HasTag(found, name) then found else found + [d];
        var rest := CandidatesFrom(cls, decoders, item, i + 1);
        assert ChildrenFrom(cls, item, i) == [] + ChildrenFrom(cls, item, i + 1) == ChildrenFrom(cls, item, i + 1);
        assert CandidatesFrom(cls, decoders, item, i) == [d] + rest;
        assert ([d] + rest)[0] == d && ([d] + rest)[1..] == rest;
        assert DedupInto(found, [d] + rest) == DedupInto(found', rest);
        VisitFields(cls, decoders, item, i + 1, queue, found')
  }

  /** The outer `for len(queue) > 0` loop: pop the head, visit its fields. */
  function Drain(cls: Classifier, decoders: map<Ty, Decoder>, queue: seq<QueueItem>, found: seq<FieldDescriptor>): (r: seq<FieldDescriptor>)
    ensures r == DedupInto(found, Stream(cls, decoders, queue))
    decreases QueueSize(queue)
  {
    if queue == [] then found
    else
      var (queue', found') := VisitFields(cls, decoders, queue[0], 0, queue[1..], found);
      assert queue' == Next(cls, queue);
      DedupAppend(found, CandidatesFrom(cls, decoders, queue[0], 0), Stream(cls, decoders, queue'));
      Drain(cls, decoders, queue', found')
  }

  /** The walk from `root` alone, and the candidates it meets. */
  function Walk(cls: Classifier, decoders: map<Ty, Decoder>, root: Ty): seq<FieldDescriptor> {
    Drain(cls, decoders, [QueueItem(root, [])], [])
  }

  function Candidates(cls: Classifier, decoders: map<Ty, Decoder>, root: Ty): seq<FieldDescriptor> {
    Stream(cls, decoders, [QueueItem(root, [])])
  }

  /** A struct that queues no other yields just its own fields' candidates. */
  lemma FlatStream(cls: Classifier, decoders: map<Ty, Decoder>, item: QueueItem)
    requires ChildrenFrom(cls, item, 0) == []
    ensures Stream(cls, decoders, [item]) == CandidatesFrom(cls, decoders, item, 0)
  {
    assert Next(cls, [item]) == [];
    assert CandidatesFrom(cls, decoders, item, 0) + [] == CandidatesFrom(cls, decoders, item, 0);
  }

  /** The descriptors of `root` under tag key `tagKey`, in discovery order. */
  function BuildFields(tagKey: string, decoders: map<Ty, Decoder>, root: Ty): seq<FieldDescriptor> {
    Walk(Decide(tagKey), decoders, root)
  }

  /** Every struct the walk would queue is a struct: the source calls `NumField` on each. */
  predicate Flattenable(cls: Classifier, t: Ty)
    decreases t
  {
    && t.TStruct?
    && forall j :: 0 <= j < |t.fields| && cls(t.fields[j]).Flatten? ==>
         if t.fields[j].ty.TPtr? then Flattenable(cls, t.fields[j].ty.elem) else Flattenable(cls, t.fields[j].ty)
  }

  // ---------------------------------------------------------------- first found wins

  /** Index of the first candidate named `name`, or `|cs|` when there is none. */
  function FirstWith(cs: seq<FieldDescriptor>, name: string): (j: nat)
    ensures j <= |cs| && (j < |cs| ==> cs[j].tag == name)
    ensures forall i :: 0 <= i < j ==> cs[i].tag != name
  {
    if cs == [] then 0
    else if cs[0].tag == name then 0
    else 1 + FirstWith(cs[1..], name)
  }

  lemma {:induction false} DedupPrefix(found: seq<FieldDescriptor>, cs: seq<FieldDescriptor>)
    ensures |found| <= |DedupInto(found, cs)| && DedupInto(found, cs)[..|found|] == found
    decreases |cs|
  {
    if cs != [] {
      var found' := if HasTag(found, cs[0].tag) then found else found + [cs[0]];
      DedupPrefix(found', cs[1..]);
      assert DedupInto(found', cs[1..])[..|found|] == DedupInto(found', cs[1..])[..|found'|][..|found|];
    }
  }

  lemma HasTagPrefix(found: seq<FieldDescriptor>, r: seq<FieldDescriptor>, name: string)
    requires |found| <= |r| && r[..|found|] == found && HasTag(found, name)
    ensures HasTag(r, name)
  {
    var w :| 0 <= w < |found| && found[w].tag == name;
    assert r[w] == found[w];
  }

  lemma {:induction false} DedupDistinct(found: seq<FieldDescriptor>, cs: seq<FieldDescriptor>)
    requires DistinctTags(found)
    ensures DistinctTags(DedupInto(found, cs))
    decreases |cs|
  {
    if cs != [] {
      var found' := if HasTag(found, cs[0].tag) then found else found + [cs[0]];
      assert DistinctTags(found');
      DedupDistinct(found', cs[1..]);
    }
  }

  /** No candidate's name is lost. */
  lemma {:induction false} DedupCovers(found: seq<FieldDescriptor>, cs: seq<FieldDescriptor>)
    ensures forall j :: 0 <= j < |cs| ==> HasTag(DedupInto(found, cs), cs[j].tag)
    decreases |cs|
  {
    if cs != [] {
      var found' := if HasTag(found, cs[0].tag) then found else found + [cs[0]];
      var r := DedupInto(found', cs[1..]);
      DedupCovers(found', cs[1..]);
      DedupPrefix(found', cs[1..]);
      assert HasTag(found', cs[0].tag) by {
        if !HasTag(found, cs[0].tag) {
          assert found'[|found|] == cs[0];
        }
      }
      HasTagPrefix(found', r, cs[0].tag);
      forall j | 1 <= j < |cs|
        ensures HasTag(r, cs[j].tag)
      {
        assert cs[j] == cs[1..][j - 1];
      }
    }
  }

  /** Every added descriptor has a name new to `found`, and is the first candidate with that name. */
  lemma {:induction false} DedupFirst(found: seq<FieldDescriptor>, cs: seq<FieldDescriptor>)
    ensures forall k :: |found| <= k < |DedupInto(found, cs)| ==>
      && !HasTag(found, DedupInto(found, cs)[k].tag)
      && FirstWith(cs, DedupInto(found, cs)[k].tag) < |cs|
      && DedupInto(found, cs)[k] == cs[FirstWith(cs, DedupInto(found, cs)[k].tag)]
    decreases |cs|
  {
    if cs != [] {
      var c := cs[0];
      var found' := if HasTag(found, c.tag) then found else found + [c];
      var r := DedupInto(found', cs[1..]);
      DedupFirst(found', cs[1..]);
      DedupPrefix(found', cs[1..]);
      assert HasTag(found', c.tag) by {
        if !HasTag(found, c.tag) {
          assert found'[|found|] == c;
        }
      }
      forall k | |found| <= k < |r|
        ensures !HasTag(found, r[k].tag) && FirstWith(cs, r[k].tag) < |cs| && r[k] == cs[FirstWith(cs, r[k].tag)]
      {
        if k < |found'| {
          assert r[k] == found'[k] == c;
        } else {
          assert !HasTag(found', r[k].tag);
          assert c.tag != r[k].tag;
          assert FirstWith(cs, r[k].tag) == 1 + FirstWith(cs[1..], r[k].tag);
          forall w | 0 <= w < |found|
            ensures found[w].tag != r[k].tag
          {
            assert found'[w] == found[w];
          }
        }
      }
    }
  }

  /**
    The source's deduplicating walk keeps, for every name of the breadth-first
    candidate stream, exactly the first candidate with that name: names are
    distinct, each kept descriptor is the earliest candidate of its name, and no
    name is lost.
   */
  lemma FirstFoundWins(cls: Classifier, decoders: map<Ty, Decoder>, root: Ty)
    ensures DistinctTags(Walk(cls, decoders, root))
    ensures forall k :: 0 <= k < |Walk(cls, decoders, root)| ==>
      && FirstWith(Candidates(cls, decoders, root), Walk(cls, decoders, root)[k].tag) < |Candidates(cls, decoders, root)|
      && Walk(cls, decoders, root)[k] == Candidates(cls, decoders, root)[FirstWith(Candidates(cls, decoders, root), Walk(cls, decoders, root)[k].tag)]
    ensures forall j :: 0 <= j < |Candidates(cls, decoders, root)| ==> HasTag(Walk(cls, decoders, root), Candidates(cls, decoders, root)[j].tag)
  {
    var s := Candidates(cls, decoders, root);
    var r := Walk(cls, decoders, root);
    assert DistinctTags(r) by {
      DedupDistinct([], s);
    }
    assert forall k :: 0 <= k < |r| ==> FirstWith(s, r[k].tag) < |s| && r[k] == s[FirstWith(s, r[k].tag)] by {
      DedupFirst([], s);
    }
    assert forall j :: 0 <= j < |s| ==> HasTag(r, s[j].tag) by {
      DedupCovers([], s);
    }
  }

  // ---------------------------------------------------------------- shallower first

  /** The queue of a breadth-first walk: depths never decrease and span at most one level. */
  predicate Layered(q: seq<QueueItem>) {
    && (forall a, b :: 0 <= a < b < |q| ==> |q[a].index| <= |q[b].index|)
    && (q != [] ==> forall b :: 0 <= b < |q| ==> |q[b].index| <= |q[0].index| + 1)
  }

  /** The queue after its head is processed is again layered, and no shallower than the head. */
  lemma NextLayered(cls: Classifier, q: seq<QueueItem>)
    requires q != [] && Layered(q)
    ensures Layered(Next(cls, q))
    ensures forall k :: 0 <= k < |Next(cls, q)| ==> |q[0].index| <= |Next(cls, q)[k].index| <= |q[0].index| + 1
  {
    var d := |q[0].index|;
    var kids := ChildrenFrom(cls, q[0], 0);
    ChildrenFromShape(cls, q[0], 0);
    var q' := Next(cls, q);
    forall k | 0 <= k < |q'|
      ensures d <= |q'[k].index| <= d + 1
    {
      if k < |q| - 1 {
        assert q'[k] == q[k + 1];
      } else {
        assert q'[k] == kids[k - (|q| - 1)];
      }
    }
    forall a, b | 0 <= a < b < |q'|
      ensures |q'[a].index| <= |q'[b].index|
    {
      if b < |q| - 1 {
        assert q'[a] == q[a + 1] && q'[b] == q[b + 1];
      } else {
        assert q'[b] == kids[b - (|q| - 1)];
      }
    }
  }

  /** Path lengths never decrease along `s`. */
  predicate DepthOrdered(s: seq<FieldDescriptor>) {
    forall a, b :: 0 <= a < b < |s| ==> |s[a].index| <= |s[b].index|
  }

  /** Every path in `s` has at least `n` steps. */
  predicate AtDepth(s: seq<FieldDescriptor>, n: nat) {
    forall a :: 0 <= a < |s| ==> |s[a].index| >= n
  }

  /** The candidates of one queue entry all sit exactly one level below it. */
  lemma CandidatesDepth(cls: Classifier, decoders: map<Ty, Decoder>, item: QueueItem)
    ensures forall a :: 0 <= a < |CandidatesFrom(cls, decoders, item, 0)| ==>
      |CandidatesFrom(cls, decoders, item, 0)[a].index| == |item.index| + 1
  {
    var cands := CandidatesFrom(cls, decoders, item, 0);
    CandidatesFromShape(cls, decoders, item, 0);
    forall a | 0 <= a < |cands|
      ensures |cands[a].index| == |item.index| + 1
    {
      assert CandidateOf(cls, decoders, item, 0, cands[a]);
    }
  }

  /** Prefixing a depth-ordered run with entries of one depth no greater keeps it depth-ordered. */
  lemma ConcatLayered(cands: seq<FieldDescriptor>, rest: seq<FieldDescriptor>, d: nat)
    requires forall a :: 0 <= a < |cands| ==> |cands[a].index| == d
    requires DepthOrdered(rest) && AtDepth(rest, d)
    ensures DepthOrdered(cands + rest) && AtDepth(cands + rest, d)
  {
    var s := cands + rest;
    forall a | 0 <= a < |s|
      ensures |s[a].index| >= d
    {
      if a >= |cands| {
        assert s[a] == rest[a - |cands|];
      }
    }
    forall a, b | 0 <= a < b < |s|
      ensures |s[a].index| <= |s[b].index|
    {
      if b >= |cands| {
        assert s[b] == rest[b - |cands|];
        if a >= |cands| {
          assert s[a] == rest[a - |cands|];
        }
      }
    }
  }

  /** The candidate stream is ordered by depth, every candidate one level below the queue head or deeper. */
  lemma {:induction false} StreamLayered(cls: Classifier, decoders: map<Ty, Decoder>, q: seq<QueueItem>)
    requires Layered(q)
    ensures DepthOrdered(Stream(cls, decoders, q))
    ensures q != [] ==> AtDepth(Stream(cls, decoders, q), |q[0].index| + 1)
    decreases QueueSize(q)
  {
    if q != [] {
      var d := |q[0].index|;
      var cands := CandidatesFrom(cls, decoders, q[0], 0);
      CandidatesDepth(cls, decoders, q[0]);
      var q' := Next(cls, q);
      NextLayered(cls, q);
      StreamLayered(cls, decoders, q');
      var rest := Stream(cls, decoders, q');
      assert AtDepth(rest, d + 1) by {
        if q' != [] {
          assert |q'[0].index| >= d;
        }
      }
      ConcatLayered(cands, rest, d + 1);
      assert cands + rest == Stream(cls, decoders, q);
    }
  }

  /**
    Shadowing: the descriptor kept for a name is never deeper than any other
    candidate with that name, so fields of the outer struct win over fields
    reached through flattening.
   */
  lemma ShallowestWins(cls: Classifier, decoders: map<Ty, Decoder>, root: Ty)
    ensures forall k, j :: 0 <= k < |Walk(cls, decoders, root)| && 0 <= j < |Candidates(cls, decoders, root)|
                          && Candidates(cls, decoders, root)[j].tag == Walk(cls, decoders, root)[k].tag
                          ==> |Walk(cls, decoders, root)[k].index| <= |Candidates(cls, decoders, root)[j].index|
  {
    StreamLayered(cls, decoders, [QueueItem(root, [])]);
    DedupShallowest(Candidates(cls, decoders, root));
  }

  /** Over candidates ordered by depth, the first of each name is the shallowest of that name. */
  lemma DedupShallowest(s: seq<FieldDescriptor>)
    requires forall a, b :: 0 <= a < b < |s| ==> |s[a].index| <= |s[b].index|
    ensures forall k, j :: 0 <= k < |DedupInto([], s)| && 0 <= j < |s| && s[j].tag == DedupInto([], s)[k].tag
                           ==> |DedupInto([], s)[k].index| <= |s[j].index|
  {
    var r := DedupInto([], s);
    DedupFirst([], s);
    forall k, j | 0 <= k < |r| && 0 <= j < |s| && s[j].tag == r[k].tag
      ensures |r[k].index| <= |s[j].index|
    {
      var i := FirstWith(s, r[k].tag);
      assert r[k] == s[i] && i <= j;
    }
  }

  // ---------------------------------------------------------------- disjoint paths

  /** The paths are pairwise disjoint: no descriptor's path leads through or to another's. */
  predicate DisjointPaths(fs: seq<FieldDescriptor>) {
    forall a, b :: 0 <= a < |fs| && 0 <= b < |fs| && a != b ==> Disjoint(fs[a].index, fs[b].index)
  }

  predicate DisjointQueue(q: seq<QueueItem>) {
    forall a, b :: 0 <= a < |q| && 0 <= b < |q| && a != b ==> Disjoint(q[a].index, q[b].index)
  }

  lemma SiblingsDisjoint(p: seq<nat>, x: seq<nat>, y: seq<nat>)
    requires Child(p, x) && Child(p, y) && Last(x) != Last(y)
    ensures Disjoint(x, y)
  {
  }

  /** Extending a path keeps it disjoint from anything the path was disjoint from. */
  lemma ExtendDisjoint(p: seq<nat>, x: seq<nat>, y: seq<nat>)
    requires Disjoint(p, y) && Prefix(p, x)
    ensures Disjoint(x, y)
  {
  }

  lemma PrefixTrans(a: seq<nat>, b: seq<nat>, c: seq<nat>)
    requires Prefix(a, b) && Prefix(b, c)
    ensures Prefix(a, c)
  {
    assert c[..|a|] == c[..|b|][..|a|];
  }

  /** The queue after its head is processed is again pairwise disjoint. */
  lemma NextDisjoint(cls: Classifier, q: seq<QueueItem>)
    requires q != [] && DisjointQueue(q)
    ensures DisjointQueue(Next(cls, q))
  {
    var p := q[0].index;
    var kids := ChildrenFrom(cls, q[0], 0);
    ChildrenFromShape(cls, q[0], 0);
    ChildrenFromOrdered(cls, q[0], 0);
    var q' := Next(cls, q);
    forall a, b | 0 <= a < |q'| && 0 <= b < |q'| && a != b
      ensures Disjoint(q'[a].index, q'[b].index)
    {
      if a < |q| - 1 && b < |q| - 1 {
        assert q'[a] == q[a + 1] && q'[b] == q[b + 1];
      } else if a >= |q| - 1 && b >= |q| - 1 {
        assert q'[a] == kids[a - (|q| - 1)] && q'[b] == kids[b - (|q| - 1)];
        assert ChildOf(cls, q[0], 0, q'[a]) && ChildOf(cls, q[0], 0, q'[b]);
        if a < b {
          SiblingsDisjoint(p, q'[a].index, q'[b].index);
        } else {
          SiblingsDisjoint(p, q'[b].index, q'[a].index);
        }
      } else if a < |q| - 1 {
        assert q'[a] == q[a + 1] && q'[b] == kids[b - (|q| - 1)];
        assert Disjoint(p, q[a + 1].index);
        ExtendDisjoint(p, q'[b].index, q'[a].index);
      } else {
        assert q'[b] == q[b + 1] && q'[a] == kids[a - (|q| - 1)];
        assert Disjoint(p, q[b + 1].index);
        ExtendDisjoint(p, q'[a].index, q'[b].index);
      }
    }
  }

  /** The head's candidates are disjoint from every entry of the next queue. */
  lemma CandidatesOffQueue(cls: Classifier, decoders: map<Ty, Decoder>, q: seq<QueueItem>)
    requires q != [] && DisjointQueue(q)
    ensures forall c, b :: 0 <= c < |CandidatesFrom(cls, decoders, q[0], 0)| && 0 <= b < |Next(cls, q)| ==>
      Disjoint(CandidatesFrom(cls, decoders, q[0], 0)[c].index, Next(cls, q)[b].index)
  {
    var p := q[0].index;
    var cands := CandidatesFrom(cls, decoders, q[0], 0);
    CandidatesFromShape(cls, decoders, q[0], 0);
    var kids := ChildrenFrom(cls, q[0], 0);
    ChildrenFromShape(cls, q[0], 0);
    var q' := Next(cls, q);
    forall c, b | 0 <= c < |cands| && 0 <= b < |q'|
      ensures Disjoint(cands[c].index, q'[b].index)
    {
      if b < |q| - 1 {
        assert q'[b] == q[b + 1];
        assert Disjoint(p, q[b + 1].index);
        ExtendDisjoint(p, cands[c].index, q'[b].index);
      } else {
        var kid := kids[b - (|q| - 1)];
        assert q'[b] == kid;
        var fs := Members(q[0].ty);
        assert cls(fs[Last(cands[c].index)]).Describe?;
        assert cls(fs[Last(kid.index)]).Flatten?;
        SiblingsDisjoint(p, cands[c].index, kid.index);
      }
    }
  }

  /** The candidates of one struct are pairwise disjoint: they are distinct fields of it. */
  lemma CandidatesDisjoint(cls: Classifier, decoders: map<Ty, Decoder>, item: QueueItem)
    ensures DisjointPaths(CandidatesFrom(cls, decoders, item, 0))
  {
    var cands := CandidatesFrom(cls, decoders, item, 0);
    CandidatesFromShape(cls, decoders, item, 0);
    CandidatesFromOrdered(cls, decoders, item, 0);
    forall a, b | 0 <= a < |cands| && 0 <= b < |cands| && a != b
      ensures Disjoint(cands[a].index, cands[b].index)
    {
      assert CandidateOf(cls, decoders, item, 0, cands[a]) && CandidateOf(cls, decoders, item, 0, cands[b]);
      if a < b {
        SiblingsDisjoint(item.index, cands[a].index, cands[b].index);
      } else {
        SiblingsDisjoint(item.index, cands[b].index, cands[a].index);
      }
    }
  }

  /** Every candidate extends the path of some queue entry. */
  lemma {:induction false} StreamOrigin(cls: Classifier, decoders: map<Ty, Decoder>, q: seq<QueueItem>)
    ensures forall a :: 0 <= a < |Stream(cls, decoders, q)| ==>
      exists b :: 0 <= b < |q| && Prefix(q[b].index, Stream(cls, decoders, q)[a].index)
    decreases QueueSize(q)
  {
    if q != [] {
      var p := q[0].index;
      var cands := CandidatesFrom(cls, decoders, q[0], 0);
      CandidatesFromShape(cls, decoders, q[0], 0);
      var kids := ChildrenFrom(cls, q[0], 0);
      ChildrenFromShape(cls, q[0], 0);
      var q' := Next(cls, q);
      StreamOrigin(cls, decoders, q');
      var rest := Stream(cls, decoders, q');
      var s := Stream(cls, decoders, q);
      assert s == cands + rest;
      forall a | 0 <= a < |s|
        ensures exists b :: 0 <= b < |q| && Prefix(q[b].index, s[a].index)
      {
        if a < |cands| {
          assert CandidateOf(cls, decoders, q[0], 0, cands[a]);
          assert Prefix(q[0].index, s[a].index);
        } else {
          assert s[a] == rest[a - |cands|];
          var w :| 0 <= w < |q'| && Prefix(q'[w].index, rest[a - |cands|].index);
          if w < |q| - 1 {
            assert q'[w] == q[w + 1];
            assert Prefix(q[w + 1].index, s[a].index);
          } else {
            assert q'[w] == kids[w - (|q| - 1)];
            assert ChildOf(cls, q[0], 0, q'[w]);
            PrefixTrans(p, q'[w].index, s[a].index);
          }
        }
      }
    } else {
      assert Stream(cls, decoders, q) == [];
    }
  }

  /** Concatenating two pairwise disjoint lists whose paths are disjoint across keeps them pairwise disjoint. */
  lemma ConcatDisjoint(xs: seq<FieldDescriptor>, ys: seq<FieldDescriptor>)
    requires DisjointPaths(xs) && DisjointPaths(ys)
    requires forall a, b :: 0 <= a < |xs| && 0 <= b < |ys| ==> Disjoint(xs[a].index, ys[b].index)
    ensures DisjointPaths(xs + ys)
  {
    var s := xs + ys;
    forall a, b | 0 <= a < |s| && 0 <= b < |s| && a != b
      ensures Disjoint(s[a].index, s[b].index)
    {
      if a < |xs| && b >= |xs| {
        assert s[a] == xs[a] && s[b] == ys[b - |xs|];
      } else if a >= |xs| && b < |xs| {
        assert s[b] == xs[b] && s[a] == ys[a - |xs|];
      } else if a >= |xs| {
        assert s[a] == ys[a - |xs|] && s[b] == ys[b - |xs|];
      }
    }
  }

  /**
    A breadth-first walk from pairwise disjoint queue entries yields pairwise
    disjoint descriptor paths.
   */
  lemma {:induction false} StreamDisjoint(cls: Classifier, decoders: map<Ty, Decoder>, q: seq<QueueItem>)
    requires DisjointQueue(q)
    ensures DisjointPaths(Stream(cls, decoders, q))
    decreases QueueSize(q)
  {
    if q != [] {
      var cands := CandidatesFrom(cls, decoders, q[0], 0);
      var q' := Next(cls, q);
      NextDisjoint(cls, q);
      CandidatesOffQueue(cls, decoders, q);
      CandidatesDisjoint(cls, decoders, q[0]);
      StreamDisjoint(cls, decoders, q');
      StreamOrigin(cls, decoders, q');
      var rest := Stream(cls, decoders, q');
      forall c, o | 0 <= c < |cands| && 0 <= o < |rest|
        ensures Disjoint(cands[c].index, rest[o].index)
      {
        var w :| 0 <= w < |q'| && Prefix(q'[w].index, rest[o].index);
        ExtendDisjoint(q'[w].index, rest[o].index, cands[c].index);
      }
      ConcatDisjoint(cands, rest);
      assert cands + rest == Stream(cls, decoders, q);
    }
  }

  // ---------------------------------------------------------------- paths resolve

  /** A queued struct sits at its index path below `root` (through a pointer where one was flattened). */
  predicate Anchored(root: Ty, item: QueueItem) {
    if item.index == [] then item.ty == root
    else FieldTypeAt(root, item.index).Some? && (item.ty.TStruct? ==> item.ty == Inner(FieldTypeAt(root, item.index).value))
  }

  lemma {:induction false} FieldTypeAtExtend(t: Ty, p: seq<nat>, j: nat)
    requires p != [] && FieldTypeAt(t, p).Some?
    requires Inner(FieldTypeAt(t, p).value).TStruct? && j < |Inner(FieldTypeAt(t, p).value).fields|
    ensures FieldTypeAt(t, p + [j]) == Some(Inner(FieldTypeAt(t, p).value).fields[j].ty)
    decreases |p|
  {
    assert (p + [j])[0] == p[0];
    assert (p + [j])[1..] == p[1..] + [j];
    if |p| > 1 {
      FieldTypeAtExtend(Inner(t.fields[p[0]].ty), p[1..], j);
    }
  }

  /** A field of an anchored struct sits at the struct's path extended by its position. */
  lemma FieldOfAnchored(root: Ty, item: QueueItem, j: nat)
    requires Anchored(root, item) && j < |Members(item.ty)|
    ensures FieldTypeAt(root, item.index + [j]) == Some(Members(item.ty)[j].ty)
  {
    if item.index != [] {
      FieldTypeAtExtend(root, item.index, j);
    }
  }

  /** The queue after its head is processed stays anchored. */
  lemma NextAnchored(cls: Classifier, root: Ty, q: seq<QueueItem>)
    requires q != [] && forall k :: 0 <= k < |q| ==> Anchored(root, q[k])
    ensures forall k :: 0 <= k < |Next(cls, q)| ==> Anchored(root, Next(cls, q)[k])
  {
    var kids := ChildrenFrom(cls, q[0], 0);
    ChildrenFromShape(cls, q[0], 0);
    var q' := Next(cls, q);
    forall k | 0 <= k < |q'|
      ensures Anchored(root, q'[k])
    {
      if k < |q| - 1 {
        assert q'[k] == q[k + 1];
      } else {
        var kid := kids[k - (|q| - 1)];
        assert q'[k] == kid;
        var j := Last(kid.index);
        assert kid.index == q[0].index + [j];
        FieldOfAnchored(root, q[0], j);
      }
    }
  }

  /** Every candidate's path names, below `root`, the field it was made from, and carries that field's decoder. */
  lemma {:induction false} StreamResolves(cls: Classifier, decoders: map<Ty, Decoder>, root: Ty, q: seq<QueueItem>)
    requires forall k :: 0 <= k < |q| ==> Anchored(root, q[k])
    ensures forall a :: 0 <= a < |Stream(cls, decoders, q)| ==>
      && FieldTypeAt(root, Stream(cls, decoders, q)[a].index).Some?
      && Stream(cls, decoders, q)[a].decoder == Lookup(decoders, FieldTypeAt(root, Stream(cls, decoders, q)[a].index).value)
    decreases QueueSize(q)
  {
    if q != [] {
      var cands := CandidatesFrom(cls, decoders, q[0], 0);
      CandidatesFromShape(cls, decoders, q[0], 0);
      forall c | 0 <= c < |cands|
        ensures FieldTypeAt(root, cands[c].index) == Some(Members(q[0].ty)[Last(cands[c].index)].ty)
      {
        assert cands[c].index == q[0].index + [Last(cands[c].index)];
        FieldOfAnchored(root, q[0], Last(cands[c].index));
      }
      NextAnchored(cls, root, q);
      StreamResolves(cls, decoders, root, Next(cls, q));
    }
  }

  // ---------------------------------------------------------------- the schema invariant

  /**
    The shape every published schema of `root` has: distinct names, pairwise
    disjoint paths, and every path naming a field of `root`.
   */
  predicate PathsOk(root: Ty, fs: seq<FieldDescriptor>) {
    && DistinctTags(fs)
    && DisjointPaths(fs)
    && (forall k :: 0 <= k < |fs| ==> FieldTypeAt(root, fs[k].index).Some?)
  }

  /** Each descriptor holds the decoder registered, at build time, for its field's declared type. */
  ghost predicate DecodersCaptured(root: Ty, decoders: map<Ty, Decoder>, fs: seq<FieldDescriptor>)
    requires forall k :: 0 <= k < |fs| ==> FieldTypeAt(root, fs[k].index).Some?
  {
    forall k :: 0 <= k < |fs| ==> fs[k].decoder == Lookup(decoders, FieldTypeAt(root, fs[k].index).value)
  }

  ghost predicate SchemaOk(root: Ty, decoders: map<Ty, Decoder>, fs: seq<FieldDescriptor>) {
    PathsOk(root, fs) && DecodersCaptured(root, decoders, fs)
  }

  /** Kept descriptors are candidates of distinct names, so their paths are pairwise disjoint. */
  lemma WalkDisjoint(cls: Classifier, decoders: map<Ty, Decoder>, root: Ty)
    ensures DisjointPaths(Walk(cls, decoders, root))
  {
    var q := [QueueItem(root, [])];
    var s := Stream(cls, decoders, q);
    var r := Walk(cls, decoders, root);
    FirstFoundWins(cls, decoders, root);
    StreamDisjoint(cls, decoders, q);
    forall a, b | 0 <= a < |r| && 0 <= b < |r| && a != b
      ensures Disjoint(r[a].index, r[b].index)
    {
      assert r[a].tag != r[b].tag;
    }
  }

  /** Kept descriptors are candidates, so each resolves from the root and carries the decoder of its field type. */
  lemma WalkResolves(cls: Classifier, decoders: map<Ty, Decoder>, root: Ty)
    ensures forall k :: 0 <= k < |Walk(cls, decoders, root)| ==>
      && FieldTypeAt(root, Walk(cls, decoders, root)[k].index).Some?
      && Walk(cls, decoders, root)[k].decoder == Lookup(decoders, FieldTypeAt(root, Walk(cls, decoders, root)[k].index).value)
  {
    var q := [QueueItem(root, [])];
    FirstFoundWins(cls, decoders, root);
    StreamResolves(cls, decoders, root, q);
  }

  /** The walk's output satisfies the schema invariant, whatever the root and the per-field decision. */
  lemma DrainOk(cls: Classifier, decoders: map<Ty, Decoder>, root: Ty)
    ensures SchemaOk(root, decoders, Walk(cls, decoders, root))
  {
    FirstFoundWins(cls, decoders, root);
    WalkDisjoint(cls, decoders, root);
    WalkResolves(cls, decoders, root);
  }

  lemma BuildFieldsOk(tagKey: string, decoders: map<Ty, Decoder>, root: Ty)
    ensures SchemaOk(root, decoders, BuildFields(tagKey, decoders, root))
  {
    DrainOk(Decide(tagKey), decoders, root);
  }
}

=== FILE: strconv.dfy ===
/**
  The part of Go's `strconv` the binder calls: decimal `ParseUint` / `ParseInt`
  with a bit size, `ParseBool`, and the matching `Format*` functions.
  Go's 64-bit `uint64` arithmetic is replaced by unbounded naturals with an
  explicit upper bound, which reports a range error at exactly the digit where
  Go's overflow checks fire.
 */
module Strconv {
  import opened Results

  /** Width of Go's `int` and `uint` (a 64-bit platform). */
  const IntSize: nat := 64

  datatype NumErr = ErrSyntax | ErrRange | ErrBitSize

  /** `*strconv.NumError`: the function name, the input, and the cause. */
  datatype NumError = NumError(fn: string, num: string, err: NumErr)

  function Pow2(n: nat): (r: nat)
    ensures r >= 1
  {
    if n == 0 then 1 else 2 * Pow2(n - 1)
  }

  predicate IsDigit(c: char) {
    '0' <= c <= '9'
  }

  function DigitValue(c: char): nat
    requires IsDigit(c)
  {
    (c as int - '0' as int) as nat
  }

  predicate AllDigits(s: string) {
    forall i :: 0 <= i < |s| ==> IsDigit(s[i])
  }

  /** Reference reading of a string of decimal digits, most significant first. */
  function DigitsValue(s: string): nat
    requires AllDigits(s)
  {
    if s == [] then 0 else DigitsValue(s[..|s| - 1]) * 10 + DigitValue(s[|s| - 1])
  }

  /** A longer run of digits never reads as a smaller number. */
  lemma {:induction false} DigitsValueMonotone(s: string, i: nat, j: nat)
    requires AllDigits(s)
    requires i <= j <= |s|
    ensures DigitsValue(s[..i]) <= DigitsValue(s[..j])
    decreases j - i
  {
    if i < j {
      DigitsValueMonotone(s, i, j - 1);
      assert s[..j][..j - 1] == s[..j - 1];
    }
  }

  /** Bit size as `strconv` interprets it: 0 stands for `IntSize`. */
  function EffectiveBits(bitSize: nat): nat {
    if bitSize == 0 then IntSize else bitSize
  }

  /**
    The digit loop of `ParseUint` (base 10) from position `i`, with `acc` the
    value of `s[..i]`: a non-digit is a syntax error, and the first digit that
    takes the value past `maxVal` is a range error.
   */
  function ScanDigits(s: string, i: nat, acc: nat, maxVal: nat): (r: Result<nat, NumErr>)
    requires i <= |s|
    requires AllDigits(s[..i]) && acc == DigitsValue(s[..i]) && acc <= maxVal
    ensures r.Ok? <==> AllDigits(s) && DigitsValue(s) <= maxVal
    ensures r.Ok? ==> r.value == DigitsValue(s)
    ensures r.Err? ==> r.error != ErrBitSize
    decreases |s| - i
  {
    if i == |s| then
      assert s[..i] == s;
      Ok(acc)
    else if !IsDigit(s[i]) then
      Err(ErrSyntax)
    else
      var n := acc * 10 + DigitValue(s[i]);
      assert s[..i + 1][..i] == s[..i];
      assert AllDigits(s[..i + 1]);
      assert DigitsValue(s[..i + 1]) == n;
      if n > maxVal then
        (if AllDigits(s) then DigitsValueMonotone(s, i + 1, |s|); assert s[..|s|] == s; Err(ErrRange) else Err(ErrRange))
      else
        ScanDigits(s, i + 1, n, maxVal)
  }

  /**
    `strconv.ParseUint(s, 10, bitSize)`: succeeds exactly when `s` is a
    non-empty run of decimal digits whose value fits in `bitSize` bits.
   */
  function ParseUint(s: string, bitSize: nat): (r: Result<nat, NumError>)
    ensures r.Ok? <==> s != [] && bitSize <= 64 && AllDigits(s) && DigitsValue(s) < Pow2(EffectiveBits(bitSize))
    ensures r.Ok? ==> r.value == DigitsValue(s)
    ensures r.Err? ==> r.error.fn == "ParseUint" && r.error.num == s
    ensures r.Err? && r.error.err == ErrBitSize ==> bitSize > 64
  {
    if s == [] then Err(NumError("ParseUint", s, ErrSyntax))
    else if bitSize > 64 then Err(NumError("ParseUint", s, ErrBitSize))
    else
      var maxVal := Pow2(EffectiveBits(bitSize)) - 1;
      match ScanDigits(s, 0, 0, maxVal)
      case Ok(n) => Ok(n)
      case Err(e) => Err(NumError("ParseUint", s, e))
  }

  /** The value a signed decimal literal denotes, when it has the shape `[+-]digits`. */
  predicate SignedShape(s: string) {
    && s != []
    && var body := if s[0] == '+' || s[0] == '-' then s[1..] else s;
       body != [] && AllDigits(body)
  }

  function SignedValue(s: string): int
    requires SignedShape(s)
  {
    if s[0] == '-' then -(DigitsValue(s[1..]) as int)
    else if s[0] == '+' then DigitsValue(s[1..])
    else DigitsValue(s)
  }

  /** Smallest and one past the largest value of a signed integer of `bits` bits. */
  function MinInt(bits: nat): int
    requires bits >= 1
  {
    -(Pow2(bits - 1) as int)
  }

  function MaxIntExcl(bits: nat): int
    requires bits >= 1
  {
    Pow2(bits - 1)
  }

  lemma Pow2Monotone(a: nat, b: nat)
    requires a <= b
    ensures Pow2(a) <= Pow2(b)
    decreases b
  {
    if a < b {
      Pow2Monotone(a, b - 1);
    }
  }

  /**
    `strconv.ParseInt(s, 10, bitSize)`: an optional sign followed by
    `ParseUint` of the rest; syntax errors are re-labelled, and a magnitude
    outside `[-2^(b-1), 2^(b-1))` is a range error.
   */
  function ParseInt(s: string, bitSize: nat): (r: Result<int, NumError>)
    requires bitSize <= 64
    ensures r.Ok? <==> SignedShape(s) && MinInt(EffectiveBits(bitSize)) <= SignedValue(s) < MaxIntExcl(EffectiveBits(bitSize))
    ensures r.Ok? ==> r.value == SignedValue(s)
    ensures r.Err? ==> r.error.fn == "ParseInt" && r.error.num == s && r.error.err != ErrBitSize
  {
    if s == [] then Err(NumError("ParseInt", s, ErrSyntax))
    else
      var neg := s[0] == '-';
      var body := if s[0] == '+' || s[0] == '-' then s[1..] else s;
      var bits := EffectiveBits(bitSize);
      var cutoff := Pow2(bits - 1);
      assert Pow2(bits) == 2 * cutoff;
      match ParseUint(body, bitSize)
      case Err(e) =>
        if e.err != ErrRange then Err(NumError("ParseInt", s, e.err))
        else
          // ParseUint reports the largest value on overflow, which is past either bound.
          Err(NumError("ParseInt", s, ErrRange))
      case Ok(un) =>
        if !neg && un >= cutoff then Err(NumError("ParseInt", s, ErrRange))
        else if neg && un > cutoff then Err(NumError("ParseInt", s, ErrRange))
        else Ok(if neg then -(un as int) else un)
  }

  /** `strconv.ParseBool`: the six spellings of each truth value. */
  function ParseBool(s: string): (r: Result<bool, NumError>)
    ensures r == Ok(true) <==> s in {"1", "t", "T", "TRUE", "true", "True"}
    ensures r == Ok(false) <==> s in {"0", "f", "F", "FALSE", "false", "False"}
    ensures r.Err? ==> r.error == NumError("ParseBool", s, ErrSyntax)
  {
    if s in {"1", "t", "T", "TRUE", "true", "True"} then Ok(true)
    else if s in {"0", "f", "F", "FALSE", "false", "False"} then Ok(false)
    else Err(NumError("ParseBool", s, ErrSyntax))
  }

  /** `strconv.FormatBool`. */
  function FormatBool(b: bool): string {
    if b then "true" else "false"
  }

  function DigitChar(d: nat): (c: char)
    requires d < 10
    ensures IsDigit(c) && DigitValue(c) == d
  {
    ('0' as int + d) as char
  }

  /** `strconv.FormatUint(n, 10)`: the shortest decimal spelling of `n`. */
  function FormatUint(n: nat): (s: string)
    ensures s != [] && AllDigits(s) && DigitsValue(s) == n
    ensures s[0] != '0' || n == 0
  {
    if n < 10 then [DigitChar(n)]
    else
      var s := FormatUint(n / 10) + [DigitChar(n % 10)];
      assert s[..|s| - 1] == FormatUint(n / 10);
      s
  }

  /** `strconv.FormatInt(i, 10)`: a minus sign for negatives, then the magnitude. */
  function FormatInt(i: int): (s: string)
    ensures SignedShape(s) && SignedValue(s) == i
  {
    if i < 0 then
      var s := "-" + FormatUint(-i);
      assert s[1..] == FormatUint(-i);
      s
    else FormatUint(i)
  }

  /** Formatting an unsigned value and parsing it back at a width that holds it gives the value. */
  lemma ParseFormatUint(n: nat, bitSize: nat)
    requires bitSize <= 64 && n < Pow2(EffectiveBits(bitSize))
    ensures ParseUint(FormatUint(n), bitSize) == Ok(n)
  {
  }

  /** Formatting a signed value and parsing it back at a width that holds it gives the value. */
  lemma ParseFormatInt(i: int, bitSize: nat)
    requires bitSize <= 64
    requires MinInt(EffectiveBits(bitSize)) <= i < MaxIntExcl(EffectiveBits(bitSize))
    ensures ParseInt(FormatInt(i), bitSize) == Ok(i)
  {
  }

  /** `ParseBool` reads back what `FormatBool` writes. */
  lemma ParseFormatBool(b: bool)
    ensures ParseBool(FormatBool(b)) == Ok(b)
  {
  }
}

=== FILE: tags.dfy ===
/**
  The field-annotation language `form:"name,default=a;b,omitempty"`: the
  name before the first comma, then comma-separated options of the form
  `key` or `key=value`. `default` gives a `;`-separated default list,
  `omitempty` sets a flag, any other key is ignored, and the lone tag `-`
  excludes the field.
 */
module Tags {
  import opened Results
  import opened Text
  import opened Types

  /** Tag key of the package-level mapper. */
  const FormTag: string := "form"
  const NoTag: string := "-"
  const DefaultKey: string := "default"
  const OmitemptyKey: string := "omitempty"

  /** `reflect.StructTag.Get`: the value under `key`, or the empty string when there is none. */
  function TagGet(tags: map<string, string>, key: string): string {
    if key in tags then tags[key] else ""
  }

  /** What the options of one tag set. */
  datatype Options = Options(defaults: seq<string>, omitempty: bool)

  const NoOptions: Options := Options([], false)

  /** The key and the value of one option, split at its first `=`. */
  function Key(opt: string): string {
    Head(opt, "=").0
  }

  function Val(opt: string): string {
    Head(opt, "=").1
  }

  /** One turn of the option `switch`. */
  function ApplyOption(acc: Options, opt: string): Options {
    var key := Key(opt);
    if key == DefaultKey then acc.(defaults := Split(Val(opt), ";"))
    else if key == OmitemptyKey then acc.(omitempty := true)
    else acc
  }

  /** The option loop: peel options off the front at each comma until none is left. */
  function ParseOptions(opts: string, acc: Options): Options
    decreases |opts|
  {
    if opts == [] then acc
    else
      var (opt, rest) := Head(opts, ",");
      ParseOptions(rest, ApplyOption(acc, opt))
  }

  /** The options as a list: the comma-separated pieces, none for an empty option string. */
  function OptionParts(opts: string): seq<string> {
    if opts == [] then [] else Split(opts, ",")
  }

  /**
    Reference meaning of a list of options applied in order: `omitempty`
    is set by any option with that key, and the defaults are those of the
    last `default` option, or unchanged when there is none.
   */
  function FoldOptions(acc: Options, parts: seq<string>): (r: Options)
    ensures r.omitempty <==> acc.omitempty || exists k :: 0 <= k < |parts| && Key(parts[k]) == OmitemptyKey
    ensures (forall k :: 0 <= k < |parts| ==> Key(parts[k]) != DefaultKey) ==> r.defaults == acc.defaults
    decreases |parts|
  {
    if parts == [] then acc
    else
      var r := FoldOptions(ApplyOption(acc, parts[0]), parts[1..]);
      assert forall k :: 1 <= k < |parts| ==> parts[k] == parts[1..][k - 1];
      r
  }

  /** The last `default` option wins: the defaults are its `;`-separated pieces. */
  lemma {:induction false} LastDefaultWins(acc: Options, parts: seq<string>, k: nat)
    requires k < |parts| && Key(parts[k]) == DefaultKey
    requires forall j :: k < j < |parts| ==> Key(parts[j]) != DefaultKey
    ensures FoldOptions(acc, parts).defaults == Split(Val(parts[k]), ";")
    decreases |parts|
  {
    var acc' := ApplyOption(acc, parts[0]);
    var rest := parts[1..];
    if k == 0 {
      assert forall j :: 0 <= j < |rest| ==> Key(rest[j]) != DefaultKey by {
        forall j | 0 <= j < |rest|
          ensures Key(rest[j]) != DefaultKey
        {
          assert rest[j] == parts[j + 1];
        }
      }
    } else {
      forall j | k - 1 < j < |rest|
        ensures Key(rest[j]) != DefaultKey
      {
        assert rest[j] == parts[j + 1];
      }
      LastDefaultWins(acc', rest, k - 1);
    }
  }

  /** The loop visits exactly the comma-separated options (a trailing empty one changes nothing). */
  lemma {:induction false} ParseOptionsIsFold(opts: string, acc: Options)
    ensures ParseOptions(opts, acc) == FoldOptions(acc, OptionParts(opts))
    decreases |opts|
  {
    if opts != [] {
      var (opt, rest) := Head(opts, ",");
      ParseOptionsIsFold(rest, ApplyOption(acc, opt));
      var acc' := ApplyOption(acc, opt);
      if Index(opts, ",") < 0 {
        assert Split(opts, ",") == [opts];
        assert rest == [];
      } else {
        assert Split(opts, ",") == [opt] + Split(rest, ",");
        if rest == [] {
          assert Split(rest, ",") == [""];
          assert Key("") == "";
          assert FoldOptions(acc', [""]) == acc';
        }
      }
    }
  }

  /** An option with an unrecognised key, in front of the others, is ignored. */
  lemma UnknownOptionIgnored(opt: string, rest: string, acc: Options)
    requires Free(opt, ",")
    requires Key(opt) != DefaultKey && Key(opt) != OmitemptyKey
    ensures ParseOptions(opt + "," + rest, acc) == ParseOptions(rest, acc)
  {
    var s := opt + "," + rest;
    forall i | 0 <= i < |opt|
      ensures s[i] != ','
    {
      OccursAtChar(opt, ',', i);
    }
    IndexOfChar(s, ',', |opt|);
    assert s[..|opt|] == opt;
    assert s[|opt| + 1..] == rest;
  }

  /** The parsed meaning of one tag. */
  datatype Directive = Skip | Use(name: string, options: Options)

  /** Skip marker, then the name before the first comma, then the options after it. */
  function ParseTag(tag: string): Directive {
    if tag == NoTag then Skip
    else
      var (name, opts) := Head(tag, ",");
      Use(name, ParseOptions(opts, NoOptions))
  }

  /**
    Meaning of a parsed tag: only the exact tag `-` skips; the name never holds
    a comma and is the text up to the first one; the options are the pieces
    after it, read by `FoldOptions`.
   */
  lemma ParseTagMeaning(tag: string)
    ensures ParseTag(tag).Skip? <==> tag == NoTag
    ensures ParseTag(tag).Use? ==> Free(ParseTag(tag).name, ",")
    ensures ParseTag(tag).Use? && Free(tag, ",") ==> ParseTag(tag) == Use(tag, NoOptions)
    ensures ParseTag(tag).Use? && !Free(tag, ",") ==>
      exists opts :: tag == ParseTag(tag).name + "," + opts
                     && ParseTag(tag).options == FoldOptions(NoOptions, OptionParts(opts))
  {
    if tag != NoTag {
      HeadIsFree(tag, ",");
      var (name, opts) := Head(tag, ",");
      ParseOptionsIsFold(opts, NoOptions);
      if !Free(tag, ",") {
        assert tag == name + "," + opts;
      }
    }
  }

  /** A `-` followed by a comma is an ordinary field named `-`. */
  lemma DashCommaIsAName()
    ensures ParseTag("-,") == Use("-", NoOptions)
  {
    IndexOfChar("-,", ',', 1);
    CharAbsent("", ',');
  }

  /** `default=` with nothing after it yields one empty default, not an empty list. */
  lemma EmptyDefault()
    ensures ApplyOption(NoOptions, "default=").defaults == [""]
  {
    IndexOfChar("default=", '=', 7);
    assert "default="[..7] == DefaultKey;
    assert "default="[8..] == "";
    CharAbsent("", ';');
  }

  /** `default=a;b` yields both values, in order. */
  lemma TwoDefaults()
    ensures ApplyOption(NoOptions, "default=a;b").defaults == ["a", "b"]
  {
    DefaultAB();
    SplitAB();
  }

  lemma DefaultAB()
    ensures Key("default=a;b") == DefaultKey && Val("default=a;b") == "a;b"
  {
    IndexOfChar("default=a;b", '=', 7);
    assert "default=a;b"[..7] == DefaultKey;
    assert "default=a;b"[8..] == "a;b";
  }

  lemma SplitAB()
    ensures Split("a;b", ";") == ["a", "b"]
  {
    IndexOfChar("a;b", ';', 1);
    assert "a;b"[..1] == "a";
    assert "a;b"[2..] == "b";
    CharAbsent("b", ';');
    assert Split("b", ";") == ["b"];
  }

  /** `opt` spells `default=val`, with no comma in it and no `;` in `val`. */
  predicate SpellsDefault(opt: string, val: string) {
    && |opt| == 8 + |val| && opt[..7] == DefaultKey && opt[7] == '=' && opt[8..] == val
    && (forall i :: 0 <= i < 7 ==> opt[i] != '=')
    && (forall i :: 0 <= i < |opt| ==> opt[i] != ',')
    && (forall i :: 0 <= i < |val| ==> val[i] != ';')
  }

  /** An option string that is just `default=val` gives the single default `val` and nothing else. */
  lemma SingleDefault(opt: string, val: string)
    requires SpellsDefault(opt, val)
    ensures ParseOptions(opt, NoOptions) == Options([val], false)
  {
    CharAbsent(opt, ',');
    HeadAtChar(opt, '=', 7);
    assert Head(opt, ",") == (opt, "");
    assert Key(opt) == DefaultKey && Val(opt) == val;
    CharAbsent(val, ';');
    assert Split(val, ";") == [val];
    assert ApplyOption(NoOptions, opt) == Options([val], false);
  }

  /** `omitempty` sets the flag and nothing else. */
  lemma OmitemptyOption()
    ensures ApplyOption(NoOptions, "omitempty") == Options([], true)
  {
    var s := "omitempty";
    forall i | 0 <= i < |s|
      ensures s[i] != '='
    {
      assert s[i] in {'o', 'm', 'i', 't', 'e', 'p', 'y'};
    }
    CharAbsent(s, '=');
  }

  /** How the schema builder treats one struct field. */
  datatype Action =
    | SkipField
    | Flatten
    | Describe(name: string, options: Options)

  /**
    The per-field decision of the schema walk: a skip tag drops the field; an
    empty name on a struct or pointer field pulls that struct's members up
    (through the pointer for a pointer field); any other field is described
    under its tag name, or under its Go identifier when the name is empty.
   */
  function Classify(tagKey: string, f: FieldDecl): (a: Action)
    ensures a.Flatten? ==> f.ty.TPtr? || f.ty.TStruct?
    ensures a.Describe? ==> Free(a.name, ",") || a.name == f.name
  {
    match ParseTag(TagGet(f.tags, tagKey))
    case Skip => SkipField
    case Use(name, options) =>
      HeadIsFree(TagGet(f.tags, tagKey), ",");
      if name == "" then
        if f.ty.TPtr? || f.ty.TStruct? then Flatten
        else Describe(f.name, options)
      else Describe(name, options)
  }

  /** Each branch of `Classify` in terms of the field's tag and type. */
  lemma ClassifyCases(tagKey: string, f: FieldDecl)
    ensures var tag := TagGet(f.tags, tagKey);
      && (Classify(tagKey, f).SkipField? <==> tag == NoTag)
      && (Classify(tagKey, f).Flatten? <==> tag != NoTag && Head(tag, ",").0 == "" && (f.ty.TPtr? || f.ty.TStruct?))
      && (Classify(tagKey, f).Describe? && Head(tag, ",").0 == "" ==> Classify(tagKey, f).name == f.name)
      && (Classify(tagKey, f).Describe? && Head(tag, ",").0 != "" ==> Classify(tagKey, f).name == Head(tag, ",").0)
  {
  }
}

=== FILE: text.dfy ===
/**
  The byte-string helpers the tag parser relies on: Go's `strings.Index`,
  the binder's own `head`, and `strings.Split` / `strings.Join`.
  Strings are sequences of characters, one character standing for one byte.
 */
module Text {

  /** `sep` occurs in `s` starting at position `i`. */
  predicate OccursAt(s: string, sep: string, i: nat) {
    i + |sep| <= |s| && s[i..i + |sep|] == sep
  }

  /** `sep` occurs nowhere in `s`. */
  ghost predicate Free(s: string, sep: string) {
    forall i: nat :: !OccursAt(s, sep, i)
  }

  /** First occurrence of `sep` in `s` at or after `k`, or -1. */
  function IndexFrom(s: string, sep: string, k: nat): (r: int)
    requires k <= |s|
    ensures r == -1 || (k <= r && OccursAt(s, sep, r))
    ensures r == -1 ==> forall i: nat :: k <= i ==> !OccursAt(s, sep, i)
    ensures r >= 0 ==> forall i: nat :: k <= i < r ==> !OccursAt(s, sep, i)
    decreases |s| - k
  {
    if OccursAt(s, sep, k) then k
    else if k + |sep| >= |s| then -1
    else IndexFrom(s, sep, k + 1)
  }

  /** Go's `strings.Index`: the first occurrence of `sep` in `s`, or -1 when there is none. */
  function Index(s: string, sep: string): (r: int)
    ensures r == -1 <==> Free(s, sep)
    ensures r >= 0 ==> OccursAt(s, sep, r) && forall i: nat :: i < r ==> !OccursAt(s, sep, i)
  {
    IndexFrom(s, sep, 0)
  }

  /** An occurrence with none before it is the one `Index` reports. */
  lemma IndexIsFirst(s: string, sep: string, r: nat)
    requires OccursAt(s, sep, r)
    requires forall i: nat :: i < r ==> !OccursAt(s, sep, i)
    ensures Index(s, sep) == r
  {
  }

  /** A one-character separator occurs exactly where that character stands. */
  lemma OccursAtChar(s: string, c: char, i: nat)
    ensures OccursAt(s, [c], i) <==> i < |s| && s[i] == c
  {
    if i < |s| {
      assert s[i..i + 1] == [s[i]];
    }
  }

  /** `Index` of a one-character separator is the position of its first appearance. */
  lemma IndexOfChar(s: string, c: char, r: nat)
    requires r < |s| && s[r] == c
    requires forall i :: 0 <= i < r ==> s[i] != c
    ensures Index(s, [c]) == r
  {
    OccursAtChar(s, c, r);
    forall i: nat | i < r
      ensures !OccursAt(s, [c], i)
    {
      OccursAtChar(s, c, i);
    }
    IndexIsFirst(s, [c], r);
  }

  /** A character that never appears is not found. */
  lemma CharAbsent(s: string, c: char)
    requires forall i :: 0 <= i < |s| ==> s[i] != c
    ensures Free(s, [c]) && Index(s, [c]) == -1
  {
    forall i: nat
      ensures !OccursAt(s, [c], i)
    {
      OccursAtChar(s, c, i);
    }
  }

  /**
    The binder's `head`: split `s` at the first `sep`. Without an occurrence the
    whole string is the head and the tail is empty; otherwise head, separator and
    tail put back together give `s`, and no occurrence starts inside the head.
   */
  function Head(s: string, sep: string): (r: (string, string))
    ensures Free(s, sep) ==> r == (s, "")
    ensures !Free(s, sep) ==>
      && r.0 + sep + r.1 == s
      && (forall i: nat :: i < |r.0| ==> !OccursAt(s, sep, i))
    ensures s != [] && sep != [] ==> |r.1| < |s|
  {
    var idx := Index(s, sep);
    if idx < 0 then (s, "")
    else
      assert s[..idx] + sep + s[idx + |sep|..] == s by {
        assert s[idx..idx + |sep|] == sep;
        assert s == s[..idx] + s[idx..idx + |sep|] + s[idx + |sep|..];
      }
      (s[..idx], s[idx + |sep|..])
  }

  /** Splitting at the first occurrence of a one-character separator. */
  lemma HeadAtChar(s: string, c: char, n: nat)
    requires n < |s| && s[n] == c
    requires forall i :: 0 <= i < n ==> s[i] != c
    ensures Head(s, [c]) == (s[..n], s[n + 1..])
  {
    IndexOfChar(s, c, n);
  }

  /** The head never contains the separator. */
  lemma HeadIsFree(s: string, sep: string)
    requires sep != []
    ensures Free(Head(s, sep).0, sep)
  {
    var h := Head(s, sep).0;
    if !Free(s, sep) {
      assert h == s[..|h|] by {
        assert h + sep + Head(s, sep).1 == s;
      }
      FreeOfPrefix(s, sep, |h|);
    }
  }

  /** `strings.Join`: the parts separated by `sep`. */
  function Join(parts: seq<string>, sep: string): string {
    if |parts| == 0 then ""
    else if |parts| == 1 then parts[0]
    else parts[0] + sep + Join(parts[1..], sep)
  }

  lemma FreeOfPrefix(s: string, sep: string, n: nat)
    requires sep != []
    requires n <= |s|
    requires forall i: nat :: i < n ==> !OccursAt(s, sep, i)
    ensures Free(s[..n], sep)
  {
    forall i: nat
      ensures !OccursAt(s[..n], sep, i)
    {
      if OccursAt(s[..n], sep, i) {
        assert s[..n][i..i + |sep|] == s[i..i + |sep|];
        assert OccursAt(s, sep, i);
      }
    }
  }

  /**
    Go's `strings.Split` for a non-empty separator: the pieces between
    successive occurrences. There is always at least one piece, none of them
    contains the separator, and joining them back gives the input.
   */
  function Split(s: string, sep: string): (parts: seq<string>)
    requires sep != []
    ensures |parts| >= 1
    ensures Join(parts, sep) == s
    ensures forall k :: 0 <= k < |parts| ==> Free(parts[k], sep)
    decreases |s|
  {
    var idx := Index(s, sep);
    if idx < 0 then [s]
    else
      var rest := Split(s[idx + |sep|..], sep);
      FreeOfPrefix(s, sep, idx);
      assert s[..idx] + sep + s[idx + |sep|..] == s by {
        assert s == s[..idx] + s[idx..idx + |sep|] + s[idx + |sep|..];
      }
      [s[..idx]] + rest
  }

  /** A single-character separator that appears in none of the parts is recovered exactly by `Split`. */
  lemma {:induction false} SplitJoin(parts: seq<string>, c: char)
    requires |parts| >= 1
    requires forall k :: 0 <= k < |parts| ==> Free(parts[k], [c])
    ensures Split(Join(parts, [c]), [c]) == parts
    decreases |parts|
  {
    var s := Join(parts, [c]);
    if |parts| == 1 {
      assert Index(s, [c]) == -1;
    } else {
      var p := parts[0];
      var rest := Join(parts[1..], [c]);
      assert s == p + [c] + rest;
      assert OccursAt(s, [c], |p|) by {
        assert s[|p|..|p| + 1] == [c];
      }
      forall i: nat | i < |p|
        ensures !OccursAt(s, [c], i)
      {
        assert !OccursAt(p, [c], i);
        assert s[i..i + 1] == p[i..i + 1];
      }
      IndexIsFirst(s, [c], |p|);
      assert s[|p| + 1..] == rest;
      assert s[..|p|] == p;
      SplitJoin(parts[1..], c);
      assert parts == [p] + parts[1..];
    }
  }
}

=== FILE: types.dfy ===
/**
  Explicit stand-ins for the reflection the binder uses: a Go type is a `Ty`,
  a Go value is a `Value` tree, and a struct field declaration carries its Go
  identifier, its type and its struct tag (as a key/value map).
 */
module Types {
  import opened Results
  import Strconv

  datatype IntKind = Int | Int8 | Int16 | Int32 | Int64
  datatype UintKind = Uint | Uint8 | Uint16 | Uint32 | Uint64 | Uintptr
  datatype FloatKind = Float32 | Float64

  /**
    A Go type, by kind. An interface type carries its name and the number of
    methods in its method set (`interface {}` has none). `TOther` covers the
    kinds that have no built-in coercion (maps, channels, functions, complex
    numbers, ...), named by the text `reflect.Type.String` would give.
   */
  datatype Ty =
    | TString
    | TBool
    | TInt(ik: IntKind)
    | TUint(uk: UintKind)
    | TFloat(fk: FloatKind)
    | TIface(name: string, methods: nat)
    | TSlice(elem: Ty)
    | TArray(elem: Ty, len: nat)
    | TPtr(elem: Ty)
    | TStruct(name: string, fields: seq<FieldDecl>)
    | TOther(name: string)

  /**
    `reflect.StructField`: Go identifier, declared type, struct tag, whether
    the identifier is exported (`PkgPath == ""`) and whether the field is
    embedded (`Anonymous`).
   */
  datatype FieldDecl = FieldDecl(name: string, ty: Ty, tags: map<string, string>, exported: bool, embedded: bool)

  /**
    A Go value. Floats are kept as reals; pointers either are nil or own their
    target (the model has no aliasing); an interface holds nil or a dynamic value.
   */
  datatype Value =
    | VString(s: string)
    | VBool(b: bool)
    | VInt(i: int)
    | VUint(u: nat)
    | VFloat(f: real)
    | VIface(held: Option<Value>)
    | VSlice(elems: seq<Value>)
    | VArray(elems: seq<Value>)
    | VPtr(target: Option<Value>)
    | VStruct(fields: seq<Value>)
    | VOther(token: string)

  /** A decoder registered with `UseDecoder`: raw string to value, or an error message. */
  type Decoder = string -> Result<Value, string>

  /** Width of each integer kind (`int` and `uint` are `IntSize` wide). */
  function IntBits(k: IntKind): nat {
    match k
    case Int => Strconv.IntSize
    case Int8 => 8
    case Int16 => 16
    case Int32 => 32
    case Int64 => 64
  }

  function UintBits(k: UintKind): nat {
    match k
    case Uint => Strconv.IntSize
    case Uint8 => 8
    case Uint16 => 16
    case Uint32 => 32
    case Uint64 => 64
    case Uintptr => 64
  }

  function FloatBits(k: FloatKind): nat {
    match k
    case Float32 => 32
    case Float64 => 64
  }

  /** `v` is a value of type `t`: right shape everywhere, integers within their width. */
  predicate HasType(v: Value, t: Ty)
    decreases t
  {
    match t
    case TString => v.VString?
    case TBool => v.VBool?
    case TInt(k) => v.VInt? && Strconv.MinInt(IntBits(k)) <= v.i < Strconv.MaxIntExcl(IntBits(k))
    case TUint(k) => v.VUint? && v.u < Strconv.Pow2(UintBits(k))
    case TFloat(_) => v.VFloat?
    case TIface(_, _) => v.VIface?
    case TSlice(e) => v.VSlice? && forall i :: 0 <= i < |v.elems| ==> HasType(v.elems[i], e)
    case TArray(e, n) => v.VArray? && |v.elems| == n && forall i :: 0 <= i < n ==> HasType(v.elems[i], e)
    case TPtr(e) => v.VPtr? && (v.target.Some? ==> HasType(v.target.value, e))
    case TStruct(_, fs) => v.VStruct? && |v.fields| == |fs| && forall i :: 0 <= i < |fs| ==> HasType(v.fields[i], fs[i].ty)
    case TOther(_) => v.VOther?
  }

  /** The zero value of `t` (`reflect.New(t).Elem()`), which is a value of `t`. */
  function Zero(t: Ty): (z: Value)
    ensures HasType(z, t)
    decreases t
  {
    match t
    case TString => VString("")
    case TBool => VBool(false)
    case TInt(_) => VInt(0)
    case TUint(_) => VUint(0)
    case TFloat(_) => VFloat(0.0)
    case TIface(_, _) => VIface(None)
    case TSlice(_) => VSlice([])
    case TArray(e, n) => var z := Zero(e); VArray(seq(n, _ => z))
    case TPtr(_) => VPtr(None)
    case TStruct(_, fs) => VStruct(seq(|fs|, i requires 0 <= i < |fs| => Zero(fs[i].ty)))
    case TOther(_) => VOther("")
  }

  /** `reflect.Type.String`, used in the `cannot unmarshal into` message. */
  function TypeString(t: Ty): string {
    match t
    case TString => "string"
    case TBool => "bool"
    case TInt(k) => (match k case Int => "int" case Int8 => "int8" case Int16 => "int16" case Int32 => "int32" case Int64 => "int64")
    case TUint(k) => (match k case Uint => "uint" case Uint8 => "uint8" case Uint16 => "uint16" case Uint32 => "uint32" case Uint64 => "uint64" case Uintptr => "uintptr")
    case TFloat(k) => (match k case Float32 => "float32" case Float64 => "float64")
    case TIface(name, _) => name
    case TSlice(e) => "[]" + TypeString(e)
    case TArray(e, n) => "[" + Strconv.FormatUint(n) + "]" + TypeString(e)
    case TPtr(e) => "*" + TypeString(e)
    case TStruct(name, _) => name
    case TOther(name) => name
  }

  /** `reflect.Type.Name`: the declared name of a struct type, empty for every other kind here. */
  function TypeName(t: Ty): string {
    if t.TStruct? then t.name else ""
  }

  /** The type left after following every pointer level. */
  function Base(t: Ty): (b: Ty)
    ensures !b.TPtr?
  {
    if t.TPtr? then Base(t.elem) else t
  }

  /** Structural size of a type; every field's type is smaller than its struct. */
  function Size(t: Ty): (n: nat)
    ensures n >= 1
    decreases t
  {
    match t
    case TSlice(e) => 1 + Size(e)
    case TArray(e, _) => 1 + Size(e)
    case TPtr(e) => 1 + Size(e)
    case TStruct(_, fs) => 1 + Sum(seq(|fs|, i requires 0 <= i < |fs| => Size(fs[i].ty)))
    case _ => 1
  }

  function Sum(s: seq<nat>): nat {
    if s == [] then 0 else s[0] + Sum(s[1..])
  }
}
